=== FILE: README.md ===
# gdx-masterpacker, modelled in Dafny

gdx-masterpacker builds libGDX texture atlases from an asset tree. Two text
files drive it:

- a **bundle list**, where each line is an `AssetBundle`: an id, an output
  path, base paths and packer options;
- a **packing list**, where each line is a `PackTarget`. A target is a
  texture, a previously packed atlas, a directory or a plain file, and it
  belongs to one bundle.

For every bundle and every output tier (`AssetResolution`: 720p, 1080p and
4K), the packer does the following:

1. It stages the bundle's images under derived names into flat, normal and
   preshaded staging directories. Each image is extended by edge
   replication and rescaled on the way.
2. It runs the libGDX TexturePacker once per texture type.
3. It splices previously packed sub-atlases into the fresh atlas text.
4. It records the time and target count in a cache. The next run uses the
   cache to skip bundles whose inputs have not changed and whose outputs
   are all present.

A separate tool, the Downscalator, keeps per-tier downscaled copies of
listed source images. It uses its own cache of resize times.

The model covers the decision and rewriting logic of this pipeline:

- parsing of the list files;
- region-name derivation and matching;
- the atlas splice;
- destination-path arithmetic;
- edge extension, and its undoing on the packed rects of the FLAT pass;
- the skip test and the missing-output test;
- the pass settings and the per-bundle driver loop;
- the Downscalator's matching, skip and cache rules.

The file system is a tree of `FileSystem.Node`s with modification times.
The output side, the external packer, image decoding and the clock are
parameters of the functions that need them.

Modules, one per concern:

| module | file | what it holds |
|---|---|---|
| `Wrappers` | wrappers.dfy | `Option`, `Result` and the exception kinds the source throws |
| `JavaString` | javastring.dfy | the `java.lang.String` operations the source relies on (`startsWith`, `indexOf`, `replace`, `split`, `trim`, `Integer.parseInt`) |
| `Domain` | domain.dfy | texture types, recursion modes, resolution tiers, texture filters, `AssetBundle`, extents |
| `FileSystem` | filesystem.dfy | the input tree, path lookup, recursive listings and modification times |
| `Naming` | naming.dfy | the longest-base-path strip and the suffix rewrites of region names |
| `AtlasSplice` | atlassplice.dfy | `AtlasPackTarget.insertSubAtlas` and `postProcessAtlas` |
| `DirectoryTargets` | directory.dfy | `DirectoryPackTarget`: selection, classification, `recurMatches`, `lastModified`, `has*Texture` |
| `FileTargets` | filetarget.dfy | `FilePackTarget.getDestinationFile` and `process` |
| `Targets` | targets.dfy | the four `PackTarget` variants and their common operations |
| `BundleCache` | cache.dfy | `BundleCacheEntry` and its field order on disk |
| `Packer` | packer.dfy | `MasterPacker`: count and time, skip test, atlas names, `anyDestinationMissing`, pass settings, the bundle loop |
| `Geometry` | geometry.dfy | `extendInPlace` as draw calls on a pixel grid, and the rect correction of `MasterPackerFileProcessor` |
| `ImageProcessor` | imageproc.dfy | `MasterPackerImageProcessor.stripWhitespace` |
| `CliLine` | cli.dfy | a tokenised list line and the option readers |
| `PackingList` | packinglist.dfy | `PackingList.parseFile` and its inverse |
| `BundleList` | bundlelist.dfy | `BundleList.parseFile` and its inverse |
| `Downscalator` | downscalator.dfy | `Downscalator`: entries, `matchAnyPath`, `process`, tier runs, `downscaleInPlace` |

### Faithful oddities

The model keeps the source's behaviour where it looks unintended. Each case
is exhibited by a lemma:

- `BundleList.java:49-50` reads `--max-width` into `maxHeight` and
  `--max-height` into `maxWidth`. `BundleList.MaxWidthBoundsHeight` shows it.
- `PackingList.java:68-76` calls the five-argument `AtlasPackTarget`
  constructor with nine arguments. Atlas targets are therefore modelled
  without extents, which is what `AtlasPackTarget.java:163-181` reports.
- The `_n`/`_f` filters of `DirectoryPackTarget.java:173-177` test a path
  that still ends in `.png`, so they never reject anything.
  `DirectoryTargets.PngIgnoresTypeFilter` shows it.
- `Downscalator.java:73` accepts an entry that *starts with* the input.
  Because of this, a directory-prefix entry does not claim the files under
  it. Only a trailing `*` does, as `Downscalator.StarClaimsSubtree` shows.
- The cache is written once, after the last bundle
  (`MasterPacker.java:163-165`). A failure in any bundle therefore leaves
  the stored cache as it was (`Packer.PersistedCache`).
- Only the FLAT pass runs through `MasterPackerFileProcessor`
  (`MasterPacker.java:118-120`). The PRESHADED and NORMAL passes call the
  static `TexturePacker.process` (`MasterPacker.java:130-133` and
  `139-142`), so their `setCurrentTextureType` calls have no effect. Their
  regions keep the extended size, and two targets claiming one of their
  images raise no error. `Packer.Passes` states it through the
  `processed` setting, and `ImageProcessor.ProcessImage` asks the FLAT
  question only.

## Model

Source cells cite the Java files by path from the repository root.

| member | source | states |
|---|---|---|
| Domain.ParseTextureType | src/main/java/com/winteralexander/gdx/masterpacker/PackingList.java:58 | a texture type is accepted exactly when the upper-cased word is a constant's name; any other word is an IllegalArgumentException |
| Domain.TextureTypeNameRoundTrip | src/main/java/com/winteralexander/gdx/masterpacker/TextureType.java:12-13 | every texture type's name parses back to that type |
| Domain.TryParseRecursionMode | src/main/java/com/winteralexander/gdx/masterpacker/PackingList.java:102-110 | no value gives the default; a value whose upper-cased, dash-to-underscore form names a mode gives that mode; anything else falls back to the default, never an error |
| Domain.AllResolutions | src/main/java/com/winteralexander/gdx/masterpacker/AssetResolution.java:15-20 | exactly three tiers, with strictly increasing scales and atlas maxima, distinct directories, and the top tier at scale 1 |
| Domain.ParseResolution | src/main/java/com/winteralexander/gdx/masterpacker/AssetResolution.java:14-18 | `valueOf` accepts exactly the three constant names |
| Domain.ParseFilter | src/main/java/com/winteralexander/gdx/masterpacker/BundleList.java:63-71 | a filter name is accepted exactly when it is a constant's name, case-sensitively |
| Domain.MakeBundle | src/main/java/com/winteralexander/gdx/masterpacker/AssetBundle.java:44-62 | the constructor rejects an empty resolution list with IllegalArgumentException and otherwise keeps every argument unchanged |
| CliLine.ParseLinesSingle | src/main/java/com/winteralexander/gdx/masterpacker/PackingList.java:27-99 | a one-line file gives that line's value, or nothing when the line gives none |
| CliLine.ParseLinesSnoc | src/main/java/com/winteralexander/gdx/masterpacker/PackingList.java:27-99 | a line appended to a file adds exactly its own value, or nothing |
| CliLine.ParseLinesAll | src/main/java/com/winteralexander/gdx/masterpacker/PackingList.java:27-99 | lines that each give a value give exactly those values, in order |
| CliLine.ParseLinesAppend | src/main/java/com/winteralexander/gdx/masterpacker/PackingList.java:27-99 | lines are parsed independently: the result for a file made of two parts is the two parts' results concatenated in order |
| CliLine.VisibleJoinNotIgnored | src/main/java/com/winteralexander/gdx/masterpacker/PackingList.java:30-31 | a line whose first word starts with a visible character other than `#` is not skipped as blank or comment |
| Naming.LongestPrefixLen | src/main/java/com/winteralexander/gdx/masterpacker/AtlasPackTarget.java:80-87 | the length stripped is that of a declared base path prefixing the path, and no prefixing base path is longer |
| Naming.StripBaseLoopIsLongest | src/main/java/com/winteralexander/gdx/masterpacker/TexturePackTarget.java:66-73 | the strip-loop, which replaces only on a strictly longer match, ends with the path minus its longest prefixing base path |
| Naming.StripBaseRemovesLongest | src/main/java/com/winteralexander/gdx/masterpacker/DirectoryPackTarget.java:95-110 | the relative path is the path with its longest prefixing base path removed |
| Naming.StripBaseOrderIndependent | src/main/java/com/winteralexander/gdx/masterpacker/AtlasPackTarget.java:83-87 | the order of the base paths does not change the result, since equal-length prefixes of one path are equal |
| Naming.StagingSuffixOfStem | src/main/java/com/winteralexander/gdx/masterpacker/TexturePackTarget.java:78-80 | a flattened stem ending in `.png`, `_f.png` or `_n.png` is staged as the stem plus `.png` |
| Naming.TextureMatchSuffixOfStem | src/main/java/com/winteralexander/gdx/masterpacker/TexturePackTarget.java:122-126 | the matching name of such a file is exactly its stem |
| Naming.DirectoryMatchSuffixOfStem | src/main/java/com/winteralexander/gdx/masterpacker/DirectoryPackTarget.java:179-184 | the directory target's matching name of such a file is exactly its stem |
| AtlasSplice.FirstIndex | src/main/java/com/winteralexander/gdx/masterpacker/AtlasPackTarget.java:119-123 | the header found is the first line equal to the region name, and none is found when no line equals it |
| AtlasSplice.BlockEnd | src/main/java/com/winteralexander/gdx/masterpacker/AtlasPackTarget.java:124-131 | the deleted block is the header and the maximal run of two-space-indented lines right after it |
| AtlasSplice.BlockOriginOk | src/main/java/com/winteralexander/gdx/masterpacker/AtlasPackTarget.java:125-129 | reading the block's origin fails exactly when one of its `xy:` lines does not parse |
| AtlasSplice.BlockOriginNoXY | src/main/java/com/winteralexander/gdx/masterpacker/AtlasPackTarget.java:121 | a block without an `xy:` line has origin (0, 0) |
| AtlasSplice.BlockOriginLastXY | src/main/java/com/winteralexander/gdx/masterpacker/AtlasPackTarget.java:125-129 | otherwise the origin is the last `xy:` line of the block |
| AtlasSplice.FormatXYRoundTrip | src/main/java/com/winteralexander/gdx/masterpacker/AtlasPackTarget.java:138-143 | a printed `xy:` line is recognised as one and parses back to the same pair |
| AtlasSplice.RewriteAll | src/main/java/com/winteralexander/gdx/masterpacker/AtlasPackTarget.java:133-147 | the rewritten sub-atlas has one line per input line, in the same order, and fails exactly when some line cannot be rewritten |
| AtlasSplice.RewriteAllConcat | src/main/java/com/winteralexander/gdx/masterpacker/AtlasPackTarget.java:133-147 | rewriting two parts of a sub-atlas one after the other rewrites their concatenation |
| AtlasSplice.RewriteAllFailsAt | src/main/java/com/winteralexander/gdx/masterpacker/AtlasPackTarget.java:133-147 | the reverse iteration reports the failure of the last bad line |
| AtlasSplice.Splice | src/main/java/com/winteralexander/gdx/masterpacker/AtlasPackTarget.java:116-151 | without a header line the atlas is unchanged; otherwise the lines before the block and after it are kept in order, the block is replaced by the rewritten sub-atlas lines in order, and it fails exactly on a malformed `xy:` line |
| AtlasSplice.FindHeader | src/main/java/com/winteralexander/gdx/masterpacker/AtlasPackTarget.java:119-123 | the search loop stops at the first line equal to the region name, or at the end |
| AtlasSplice.DeleteBlock | src/main/java/com/winteralexander/gdx/masterpacker/AtlasPackTarget.java:124-131 | the deletion loop removes exactly the block and reads its origin |
| AtlasSplice.InsertRewritten | src/main/java/com/winteralexander/gdx/masterpacker/AtlasPackTarget.java:133-147 | inserting the rewritten lines at a fixed index in reverse order places them in their original order |
| AtlasSplice.InsertSubAtlas | src/main/java/com/winteralexander/gdx/masterpacker/AtlasPackTarget.java:116-151 | the loop-based method computes exactly `Splice` |
| AtlasSplice.SplicedLine | src/main/java/com/winteralexander/gdx/masterpacker/AtlasPackTarget.java:133-147 | each spliced line is the rewrite of the sub-atlas line at the same offset |
| AtlasSplice.RewriteLineCases | src/main/java/com/winteralexander/gdx/masterpacker/AtlasPackTarget.java:136-144 | a sub-atlas header becomes `region_header`, a plain property is copied, and an `xy:` line becomes the origin translated by the block origin with `int` wrap-around |
| AtlasSplice.RewrittenXYReadsBack | src/main/java/com/winteralexander/gdx/masterpacker/AtlasPackTarget.java:138-143 | a translated `xy:` line parses back to the translated origin, so spliced atlases can be spliced again |
| AtlasSplice.TranslationExample | src/main/java/com/winteralexander/gdx/masterpacker/AtlasPackTarget.java:138-143 | a sub-region at (10, 20) spliced into a region at (50, 100) lands at (60, 120) |
| AtlasSplice.PostProcessAtlas | src/main/java/com/winteralexander/gdx/masterpacker/AtlasPackTarget.java:100-114 | an atlas of another texture type is left unchanged; an unreadable sub-atlas is an I/O error; otherwise the sub-atlas minus its first five lines is spliced in under the target's region name |
| DirectoryTargets.CandidateFiles | src/main/java/com/winteralexander/gdx/masterpacker/DirectoryPackTarget.java:61-75 | listing fails with a NullPointerException exactly when the mode is not ENABLED and the path is not a directory |
| DirectoryTargets.Classify | src/main/java/com/winteralexander/gdx/masterpacker/DirectoryPackTarget.java:112-125 | `_n.png` is normal; `_f.png`, or `.png` without an `_f` sibling, is flat; `.png` with an `_f` sibling is preshaded; anything else is ignored |
| DirectoryTargets.StageAll | src/main/java/com/winteralexander/gdx/masterpacker/DirectoryPackTarget.java:77-131 | staging succeeds exactly when every file it would copy exists, and stages exactly the unshadowed classified files |
| DirectoryTargets.Process | src/main/java/com/winteralexander/gdx/masterpacker/DirectoryPackTarget.java:61-131 | every staged image is an existing, unshadowed file, named by the staging rules and carrying the target's extents and scale |
| DirectoryTargets.AnyMatchAppend | src/main/java/com/winteralexander/gdx/masterpacker/DirectoryPackTarget.java:138-185 | a match in a concatenation of listings is a match in one of them |
| DirectoryTargets.RecurMatchesWalksAll | src/main/java/com/winteralexander/gdx/masterpacker/DirectoryPackTarget.java:138-185 | under ENABLED, and below depth 1 under SUB_DIRS_ONLY, `recurMatches` searches every file of the subtree |
| DirectoryTargets.ForestMatchesWalksAll | src/main/java/com/winteralexander/gdx/masterpacker/DirectoryPackTarget.java:138-185 | the same holds for a list of sibling nodes |
| DirectoryTargets.DisabledDeepForest | src/main/java/com/winteralexander/gdx/masterpacker/DirectoryPackTarget.java:141-142 | under DISABLED nothing below depth 1 matches |
| DirectoryTargets.FirstLevelIsSelection | src/main/java/com/winteralexander/gdx/masterpacker/DirectoryPackTarget.java:141-152 | at depth 1 the non-ENABLED modes search exactly the files that staging selects |
| DirectoryTargets.MatchesFromMirrorsSelection | src/main/java/com/winteralexander/gdx/masterpacker/DirectoryPackTarget.java:134-185 | matching finds a file exactly when staging would list it, in every mode |
| DirectoryTargets.MatchesMirrorsSelection | src/main/java/com/winteralexander/gdx/masterpacker/DirectoryPackTarget.java:134-136 | the target matches a name exactly when some file staging lists yields that name |
| DirectoryTargets.PngIgnoresTypeFilter | src/main/java/com/winteralexander/gdx/masterpacker/DirectoryPackTarget.java:173-177 | for a `.png` path the `_n`/`_f` type filters never reject, so only shadowing and the name decide |
| DirectoryTargets.StagedNameIsMatched | src/main/java/com/winteralexander/gdx/masterpacker/DirectoryPackTarget.java:95-110 | an unshadowed file staged as `stem.png` is matched by the name `stem` |
| DirectoryTargets.FlattenKeepsPng | src/main/java/com/winteralexander/gdx/masterpacker/DirectoryPackTarget.java:179-184 | flattening separators does not create a `.png` ending |
| DirectoryTargets.LastModified | src/main/java/com/winteralexander/gdx/masterpacker/DirectoryPackTarget.java:212-225 | the time is defined exactly when the listing succeeds, and outside ENABLED it is at least the directory's own time |
| DirectoryTargets.SelectedMTimeBounds | src/main/java/com/winteralexander/gdx/masterpacker/DirectoryPackTarget.java:218-222 | the selected children's recursive time bounds every selected file |
| DirectoryTargets.LastModifiedCoversCandidates | src/main/java/com/winteralexander/gdx/masterpacker/DirectoryPackTarget.java:212-225 | the target's time is at least that of every file it stages, so any edit to a staged file is seen |
| DirectoryTargets.SelectedWithinForest | src/main/java/com/winteralexander/gdx/masterpacker/DirectoryPackTarget.java:69-75 | every file a mode selects lies in the directory's subtree |
| DirectoryTargets.CandidatesWithinSubtree | src/main/java/com/winteralexander/gdx/masterpacker/DirectoryPackTarget.java:61-75 | every staged candidate lies in the target's subtree |
| DirectoryTargets.StagedKindIsProbed | src/main/java/com/winteralexander/gdx/masterpacker/DirectoryPackTarget.java:227-244 | when the target stages a flat, normal or preshaded image, the matching `has*Texture` predicate, which inspects the whole tree, is true |
| FileTargets.Overlap | src/main/java/com/winteralexander/gdx/masterpacker/FilePackTarget.java:97-100 | the overlap is the largest k such that the last k output segments equal the first k path segments |
| FileTargets.OverlapsZero | src/main/java/com/winteralexander/gdx/masterpacker/FilePackTarget.java:109-114 | k = 0 always overlaps, so the search always ends |
| FileTargets.MatchAt | src/main/java/com/winteralexander/gdx/masterpacker/FilePackTarget.java:109-114 | the segment comparison loop decides exactly the overlap at that offset |
| FileTargets.FindMatchPos | src/main/java/com/winteralexander/gdx/masterpacker/FilePackTarget.java:97-100 | the downward search loop returns the maximal overlap |
| FileTargets.KeptTail | src/main/java/com/winteralexander/gdx/masterpacker/FilePackTarget.java:101-103 | the appended segments are the path after the overlap, so the result is the output path followed by the non-duplicated rest of the source path |
| FileTargets.Basename | src/main/java/com/winteralexander/gdx/masterpacker/FilePackTarget.java:106 | the base name is empty exactly when the path has no segments |
| FileTargets.Destination | src/main/java/com/winteralexander/gdx/masterpacker/FilePackTarget.java:91-107 | every destination lies under the output directory |
| FileTargets.DestinationFile | src/main/java/com/winteralexander/gdx/masterpacker/FilePackTarget.java:91-107 | the loop-based method computes exactly `Destination` |
| FileTargets.ParentOfChild | src/main/java/com/winteralexander/gdx/masterpacker/FilePackTarget.java:46 | the parent of `dir/name` is `dir` |
| FileTargets.Process | src/main/java/com/winteralexander/gdx/masterpacker/FilePackTarget.java:39-49 | a staging directory without a parent is a NullPointerException; otherwise the copy succeeds exactly when the source exists and lands on the destination under that parent |
| Targets.StripWhitespace | src/main/java/com/winteralexander/gdx/masterpacker/FilePackTarget.java:56-59 | only texture and directory targets can strip whitespace |
| Targets.ExtentsOf | src/main/java/com/winteralexander/gdx/masterpacker/AtlasPackTarget.java:163-181 | only texture and directory targets report non-zero extents |
| Targets.TextureMatchesStagedName | src/main/java/com/winteralexander/gdx/masterpacker/TexturePackTarget.java:105-127 | a texture staged as `stem.png` matches exactly the name `stem`, for its own texture type only |
| Targets.AtlasPng | src/main/java/com/winteralexander/gdx/masterpacker/AtlasPackTarget.java:71 | the sibling-image substring fails with an index exception exactly on paths shorter than `.atlas` |
| Targets.AtlasPngSibling | src/main/java/com/winteralexander/gdx/masterpacker/AtlasPackTarget.java:71 | the sibling of `x.atlas` is `x.png` |
| Targets.TextureMatchesOwnTypeOnly | src/main/java/com/winteralexander/gdx/masterpacker/TexturePackTarget.java:107-108 | a texture target never matches for another texture type |
| Targets.Process | src/main/java/com/winteralexander/gdx/masterpacker/TexturePackTarget.java:60-103 | a texture target stages its existing file once, under its derived name, into the staging tree of its own type, with its extents and the combined scale; an atlas target stages its sibling `.png` under its region name without extents; a file target copies once |
| Targets.LastModified | src/main/java/com/winteralexander/gdx/masterpacker/AtlasPackTarget.java:183-187 | texture and file targets report the file's time; an atlas target reports the later of the times of the `.atlas` and of its `.png`, failing exactly when the path is too short to name the `.png`; a directory target reports the directory's own computation, defined exactly when it can list |
| Targets.LastModifiedCoversSources | src/main/java/com/winteralexander/gdx/masterpacker/TexturePackTarget.java:225-228 | the reported time is at least the time of every file the target stages |
| Targets.AtlasCoversSource | src/main/java/com/winteralexander/gdx/masterpacker/AtlasPackTarget.java:183-187 | the `.png` an atlas target stages is no newer than the time the target reports |
| Targets.PlainCoversSource | src/main/java/com/winteralexander/gdx/masterpacker/TexturePackTarget.java:226-228 | the one file a texture or file target stages is its own path, no newer than the time it reports |
| Targets.PostProcessAtlas | src/main/java/com/winteralexander/gdx/masterpacker/PackTarget.java:38-41 | only an atlas target of the pass's texture type edits the atlas, and an unreadable sub-atlas fails |
| BundleCache.WriteTo | src/main/java/com/winteralexander/gdx/masterpacker/BundleCacheEntry.java:36-40 | the entry's bytes are the long, then the int |
| BundleCache.ReadFrom | src/main/java/com/winteralexander/gdx/masterpacker/BundleCacheEntry.java:30-34 | reading succeeds exactly when a long and then an int can be read |
| BundleCache.ReadAfterWrite | src/main/java/com/winteralexander/gdx/masterpacker/BundleCacheEntry.java:31-40 | reading what was written restores both fields and consumes exactly the entry's bytes, given inverse long and int codecs |
| Packer.BundleTargets | src/main/java/com/winteralexander/gdx/masterpacker/MasterPacker.java:58-59 | a bundle's targets are exactly the listed targets with its id |
| Packer.BundleTargetsAppend | src/main/java/com/winteralexander/gdx/masterpacker/MasterPacker.java:58-59 | the bundle filter keeps list order: filtering two parts of the list gives the two parts' results concatenated |
| Packer.OtherBundleDropped | src/main/java/com/winteralexander/gdx/masterpacker/MasterPackerImageProcessor.java:45-46 | a target of another bundle contributes nothing to a bundle's targets, wherever it sits in the list |
| Packer.CombinedTime | src/main/java/com/winteralexander/gdx/masterpacker/MasterPacker.java:55-63 | the combined time is -1 exactly for no targets, bounds every target's time, and is attained by one of them |
| Packer.AtlasName | src/main/java/com/winteralexander/gdx/masterpacker/MasterPacker.java:111-113 | a bundle's declared atlas name is the prefix of each of its atlas names |
| Packer.AtlasNamesDistinct | src/main/java/com/winteralexander/gdx/masterpacker/MasterPacker.java:111-142 | the three atlases of a shaded bundle have pairwise distinct names |
| Packer.TargetProduces | src/main/java/com/winteralexander/gdx/masterpacker/MasterPacker.java:182-208 | a file target produces no atlas image, and texture and atlas targets produce exactly their own type |
| Packer.Produces | src/main/java/com/winteralexander/gdx/masterpacker/MasterPacker.java:176-210 | a type is produced exactly when some target of the bundle produces it |
| Packer.OrHas | src/main/java/com/winteralexander/gdx/masterpacker/MasterPacker.java:205-207 | combining producer flags is a union |
| Packer.ProducesStep | src/main/java/com/winteralexander/gdx/masterpacker/MasterPacker.java:176-210 | extending the target list by one target adds exactly that target's producer flags |
| Packer.ScanTarget | src/main/java/com/winteralexander/gdx/masterpacker/MasterPacker.java:178-209 | the inner loop reports a file target whose copy is missing at some resolution, and otherwise adds the target's producer flags once the bundle has a resolution |
| Packer.DestinationMissing | src/main/java/com/winteralexander/gdx/masterpacker/MasterPacker.java:168-270 | the early-returning loops answer exactly "some file target's copy is missing, or some resolution lacks an atlas pair that a producer of its type would have written, preshaded and normal only for shaded bundles" |
| Packer.FileCopyLandsOnCheckedPath | src/main/java/com/winteralexander/gdx/masterpacker/MasterPacker.java:182-188 | a file target copies to exactly the file the missing-output test probes |
| Packer.Passes | src/main/java/com/winteralexander/gdx/masterpacker/MasterPacker.java:91-145 | FLAT first and stripping; for shaded bundles PRESHADED without stripping, then NORMAL without stripping or padding; every pass uses the tier's page size unless the bundle sets one, and the bundle's square, grid and filter settings; exactly the FLAT pass runs through the file processor |
| Packer.PassesWriteCheckedAtlases | src/main/java/com/winteralexander/gdx/masterpacker/MasterPacker.java:216-267 | an atlas a pass writes is one the missing-output test inspects once its type is produced |
| Packer.PostProcessAllAppend | src/main/java/com/winteralexander/gdx/masterpacker/MasterPacker.java:308-310 | post-processing over two target lists in a row is post-processing over their concatenation |
| Packer.PostProcessWithoutAtlasTargets | src/main/java/com/winteralexander/gdx/masterpacker/MasterPacker.java:277-321 | without an atlas target of the pass's type, the packed atlas text is left as written |
| Packer.StageTargets | src/main/java/com/winteralexander/gdx/masterpacker/MasterPacker.java:86-89 | staging a resolution succeeds exactly when every target of the bundle stages |
| Packer.RunPass | src/main/java/com/winteralexander/gdx/masterpacker/MasterPacker.java:118-145 | a pass fails when the packer throws or post-processing fails; it writes nothing when no atlas was produced, and otherwise writes only that pass's `.atlas` file |
| Packer.RunPasses | src/main/java/com/winteralexander/gdx/masterpacker/MasterPacker.java:118-145 | the passes of a resolution succeed exactly when each succeeds |
| Packer.PackResolution | src/main/java/com/winteralexander/gdx/masterpacker/MasterPacker.java:74-157 | a packed resolution staged every target and no pass's packer call failed |
| Packer.PackBundle | src/main/java/com/winteralexander/gdx/masterpacker/MasterPacker.java:74-157 | a bundle packs exactly when each of its resolutions packs, and its outputs follow the bundle's tier order |
| Packer.RunBundle | src/main/java/com/winteralexander/gdx/masterpacker/MasterPacker.java:52-161 | a skipped bundle leaves the cache unchanged; otherwise it is packed at every resolution before its entry becomes (now, target count) |
| Packer.PersistedCache | src/main/java/com/winteralexander/gdx/masterpacker/MasterPacker.java:159-165 | a failed run leaves the stored cache as it was |
| Packer.RunAllTouchesOnlyItsBundles | src/main/java/com/winteralexander/gdx/masterpacker/MasterPacker.java:52-161 | a run changes only the entries of the bundles it processed, and every changed entry records `now` |
| Packer.SecondRunSkips | src/test/java/MasterPackerTest.java:39-40 | after a run, a second run over unchanged inputs with all outputs present skips the bundle and leaves the cache alone |
| Packer.RepackConditions | src/main/java/com/winteralexander/gdx/masterpacker/MasterPacker.java:65-71 | a bundle is repacked exactly when it has no targets, is not in the cache, has a target at least as new as the cached time, has a different target count, or misses an output |
| Geometry.Clamp | src/main/java/com/winteralexander/gdx/masterpacker/TexturePackTarget.java:154-200 | the clamped index lies in range and equals the index when that is already in range |
| Geometry.Draw | src/main/java/com/winteralexander/gdx/masterpacker/TexturePackTarget.java:154-200 | a `drawImage` call keeps the canvas size and paints exactly its destination rectangle from its source rectangle |
| Geometry.CandidateFits | src/main/java/com/winteralexander/gdx/masterpacker/TexturePackTarget.java:152-200 | every draw call that is made fits the extended canvas and reads inside the source image |
| Geometry.PaintUpTo | src/main/java/com/winteralexander/gdx/masterpacker/TexturePackTarget.java:149-200 | the canvas keeps the extended size through the calls, each made only when its margins are positive |
| Geometry.Extend | src/main/java/com/winteralexander/gdx/masterpacker/TexturePackTarget.java:139-200 | zero extents leave the image as it was; otherwise the new canvas is `(w+l+r) x (h+t+b)` |
| Geometry.CallPaintsNearest | src/main/java/com/winteralexander/gdx/masterpacker/TexturePackTarget.java:154-200 | each draw call paints the nearest source pixel |
| Geometry.CandidatesCover | src/main/java/com/winteralexander/gdx/masterpacker/TexturePackTarget.java:152-200 | every pixel of the extended canvas lies under some call that is made: the image, a strip or a corner |
| Geometry.PaintStep | src/main/java/com/winteralexander/gdx/masterpacker/TexturePackTarget.java:152-200 | each call either paints a pixel with its nearest source pixel or leaves it as the earlier calls left it |
| Geometry.PaintUpToNearest | src/main/java/com/winteralexander/gdx/masterpacker/TexturePackTarget.java:152-200 | once a call covering a pixel has been made, the pixel holds its nearest source pixel, since later covering calls paint the same value |
| Geometry.PaintAllNearest | src/main/java/com/winteralexander/gdx/masterpacker/TexturePackTarget.java:149-200 | after all nine calls every pixel holds its nearest source pixel, whatever the new canvas held |
| Geometry.ExtendIsClamped | src/main/java/com/winteralexander/gdx/masterpacker/TexturePackTarget.java:144-200 | every extended pixel is the source pixel at the clamped position, so margins replicate edges and corners replicate corner pixels |
| Geometry.ExtendKeepsOriginal | src/main/java/com/winteralexander/gdx/masterpacker/TexturePackTarget.java:146-152 | the original image sits unchanged at offset (left, top) |
| Geometry.FirstNamed | src/main/java/com/winteralexander/gdx/masterpacker/MasterPackerFileProcessor.java:76-81 | an output rect is paired with the first input rect of its name, if any |
| Geometry.Unextend | src/main/java/com/winteralexander/gdx/masterpacker/MasterPackerFileProcessor.java:83-90 | a rect whose match is extended moves by (+left, -top) and loses the extensions from both sizes; any other rect is unchanged |
| Geometry.UnextendAll | src/main/java/com/winteralexander/gdx/masterpacker/MasterPackerFileProcessor.java:74-92 | every output rect is corrected against its first same-named input, and no rect is added or dropped |
| Geometry.UnextendRestoresSize | src/main/java/com/winteralexander/gdx/masterpacker/MasterPackerFileProcessor.java:87-90 | a region cut from an extended image comes back at the original image's size, at the original's corner |
| ImageProcessor.MatchCount | src/main/java/com/winteralexander/gdx/masterpacker/MasterPackerImageProcessor.java:45-52 | no target claims the image exactly when the count is zero |
| ImageProcessor.SoleMatch | src/main/java/com/winteralexander/gdx/masterpacker/MasterPackerImageProcessor.java:43-52 | a second claiming target is an error naming the image; no claim gives none; otherwise the one claiming target |
| ImageProcessor.FindTarget | src/main/java/com/winteralexander/gdx/masterpacker/MasterPackerImageProcessor.java:43-52 | the loop computes exactly `SoleMatch` |
| ImageProcessor.FailureSticks | src/main/java/com/winteralexander/gdx/masterpacker/MasterPackerImageProcessor.java:48-50 | once two claiming targets are seen, later targets cannot undo the error |
| ImageProcessor.StripWhitespace | src/main/java/com/winteralexander/gdx/masterpacker/MasterPackerImageProcessor.java:42-68 | ambiguity is the only failure; a unique stripping target hands the image to the packer's stripping; otherwise the rect is the whole image, carrying the target's extents when a target claims it |
| ImageProcessor.ProcessImage | src/main/java/com/winteralexander/gdx/masterpacker/MasterPackerImageProcessor.java:42-67 | among the bundle's own targets, two FLAT claims on the image are an IllegalStateException naming it; no claim gives the whole image without extension; one claim gives the packer's stripped rect for a stripping target and otherwise the whole image carrying that target's extents |
| ImageProcessor.OtherBundleIgnored | src/main/java/com/winteralexander/gdx/masterpacker/MasterPackerImageProcessor.java:45-46 | a target of another bundle never changes the processor's answer, whether it claims the image or not |
| ImageProcessor.ExtendedRegionRestored | src/main/java/com/winteralexander/gdx/masterpacker/MasterPackerImageProcessor.java:62-67 | an image extended for its target, then packed and corrected, comes back at its original size |
| PackingList.FirstNonNegative | src/main/java/com/winteralexander/gdx/masterpacker/PackingList.java:51-54 | the result is the first non-negative value of the list |
| PackingList.Extent | src/main/java/com/winteralexander/gdx/masterpacker/PackingList.java:44-54 | an extent is the side option if non-negative, else the axis option, else `--extend`, else 0, and is never negative |
| PackingList.LineExtents | src/main/java/com/winteralexander/gdx/masterpacker/PackingList.java:44-54 | all four extents of a line are non-negative |
| PackingList.KindOf | src/main/java/com/winteralexander/gdx/masterpacker/PackingList.java:56-91 | the kind word matches a kind case-insensitively, and none is found exactly when it matches no kind |
| PackingList.KindOfName | src/main/java/com/winteralexander/gdx/masterpacker/PackingList.java:56-88 | any capitalisation of a kind's name selects that kind |
| PackingList.Build | src/main/java/com/winteralexander/gdx/masterpacker/PackingList.java:37-91 | the target carries the line's path, type and bundle; the recursion mode, scale default 1.0 and extents from the options; strip only for textures and directories; and the other flags exactly when they are present |
| PackingList.ParseTarget | src/main/java/com/winteralexander/gdx/masterpacker/PackingList.java:29-97 | a line yields a target exactly when it is not blank or a comment, its kind is known, and its positionals and texture type are complete |
| PackingList.ParseFile | src/main/java/com/winteralexander/gdx/masterpacker/PackingList.java:27-99 | every surviving target comes from a well-formed line |
| PackingList.ParseFileSnoc | src/main/java/com/winteralexander/gdx/masterpacker/PackingList.java:27-99 | a line appended to a packing list adds its target when it is well formed and nothing otherwise |
| PackingList.FormatFile | src/main/java/com/winteralexander/gdx/masterpacker/PackingList.java:27-99 | a written packing list has one line per target, each the target's own line |
| PackingList.ParseFileRoundTrip | src/main/java/com/winteralexander/gdx/masterpacker/PackingList.java:27-99 | a written packing list of writable targets parses back to the same targets in the same order, whenever the float parser reads back each scale's text |
| PackingList.TargetPositionals | src/main/java/com/winteralexander/gdx/masterpacker/PackingList.java:56-91 | a written line starts with the target's kind word |
| PackingList.RecursionModeNameRoundTrip | src/main/java/com/winteralexander/gdx/masterpacker/PackingList.java:102-110 | every mode's name parses back to that mode |
| PackingList.ExtentsRoundTrip | src/main/java/com/winteralexander/gdx/masterpacker/PackingList.java:44-54 | side options holding non-negative values are read back as exactly those extents |
| PackingList.ExtentOfSide | src/main/java/com/winteralexander/gdx/masterpacker/PackingList.java:44-54 | a side option holding a non-negative value is that side's extent whatever the axis options and `--extend` say |
| PackingList.FormattedLineCounts | src/main/java/com/winteralexander/gdx/masterpacker/PackingList.java:30-31 | a written target line is not skipped and its kind word reads back |
| PackingList.TextureLineRoundTrip | src/main/java/com/winteralexander/gdx/masterpacker/PackingList.java:56-66 | a written texture line parses back to the same target, whenever the float parser reads back the text written for its scale |
| PackingList.AtlasLineRoundTrip | src/main/java/com/winteralexander/gdx/masterpacker/PackingList.java:67-76 | a written atlas line parses back to the same target, whenever the float parser reads back the text written for its scale |
| PackingList.DirectoryLineRoundTrip | src/main/java/com/winteralexander/gdx/masterpacker/PackingList.java:77-87 | a written directory line parses back to the same target, whenever the float parser reads back the text written for its scale |
| PackingList.FormatParseRoundTrip | src/main/java/com/winteralexander/gdx/masterpacker/PackingList.java:27-110 | every writable target, written as a line, parses back to itself, whenever the float parser reads back the text written for its scale |
| BundleList.ParseResolutionItem | src/main/java/com/winteralexander/gdx/masterpacker/BundleList.java:57-58 | an item names the tier whose constant is `_` plus the upper-cased item, and anything else is an IllegalArgumentException |
| BundleList.ParseResolutionItems | src/main/java/com/winteralexander/gdx/masterpacker/BundleList.java:56-59 | the list parses exactly when every item does, element by element and in order |
| BundleList.ParseResolutions | src/main/java/com/winteralexander/gdx/masterpacker/BundleList.java:52-59 | without `--out-res` all three tiers are used; otherwise the comma-separated items are parsed |
| BundleList.ParseFilterOption | src/main/java/com/winteralexander/gdx/masterpacker/BundleList.java:61-71 | an absent filter gives the default; a present one must name a constant exactly |
| BundleList.ReadBundle | src/main/java/com/winteralexander/gdx/masterpacker/BundleList.java:34-91 | a bundle is built exactly when the line has an id and an output path, its resolutions parse to a non-empty list, and both filters parse; padding defaults to 10 and each axis defaults to it; shaded defaults to true; square is the negation of shrink; `--max-width` sets the height bound and `--max-height` the width bound |
| BundleList.ParseBundle | src/main/java/com/winteralexander/gdx/masterpacker/BundleList.java:29-93 | blank and comment lines and lines that throw yield no bundle, and every bundle built has at least one tier |
| BundleList.ParseFile | src/main/java/com/winteralexander/gdx/masterpacker/BundleList.java:27-95 | every surviving bundle comes from a line that reads |
| BundleList.ParseFileSnoc | src/main/java/com/winteralexander/gdx/masterpacker/BundleList.java:27-95 | a line appended to a bundle list adds its bundle when it is not a comment and reads, and nothing otherwise |
| BundleList.FormatFile | src/main/java/com/winteralexander/gdx/masterpacker/BundleList.java:27-95 | a written bundle list has one line per bundle, each the bundle's own line |
| BundleList.ParseFileRoundTrip | src/main/java/com/winteralexander/gdx/masterpacker/BundleList.java:27-95 | a written bundle list of writable bundles parses back to the same bundles in the same order, whenever the parsers read back each printed base scale and the booleans |
| BundleList.MaxWidthBoundsHeight | src/main/java/com/winteralexander/gdx/masterpacker/BundleList.java:49-50 | a line with only `--max-width w` yields a bundle with height bound `w` and width bound -1 |
| BundleList.SplitAllJoin | src/main/java/com/winteralexander/gdx/masterpacker/BundleList.java:56 | splitting comma-joined items without commas gives the items back, trailing empty items included |
| BundleList.SplitJoin | src/main/java/com/winteralexander/gdx/masterpacker/BundleList.java:56 | `split` on such a join gives the items back when the last one is not empty |
| BundleList.ResolutionItem | src/main/java/com/winteralexander/gdx/masterpacker/AssetResolution.java:15-17 | a tier is written as its constant name without the underscore, upper-case and comma-free |
| BundleList.ResolutionItemsRoundTrip | src/main/java/com/winteralexander/gdx/masterpacker/BundleList.java:56-59 | written tier items parse back to the same tiers |
| BundleList.ResolutionsRoundTrip | src/main/java/com/winteralexander/gdx/masterpacker/BundleList.java:52-59 | a non-empty tier list written as `--out-res` reads back unchanged |
| BundleList.NamesReadBack | src/main/java/com/winteralexander/gdx/masterpacker/BundleList.java:45-48 | a written bundle's atlas name, tiers and filters read back |
| BundleList.SwitchesReadBack | src/main/java/com/winteralexander/gdx/masterpacker/BundleList.java:38-44 | a written bundle's scale, shaded, shrink and grid options read back |
| BundleList.SizesReadBack | src/main/java/com/winteralexander/gdx/masterpacker/BundleList.java:39-50 | a written bundle's padding and size bounds read back, through the swapped options |
| BundleList.ReadBundleOfCarrier | src/main/java/com/winteralexander/gdx/masterpacker/BundleList.java:34-87 | a line carrying every field of a bundle reads as exactly that bundle, whenever the parsers read back the printed base scale and booleans |
| BundleList.FormatParseRoundTrip | src/main/java/com/winteralexander/gdx/masterpacker/BundleList.java:27-95 | every writable bundle, written as a line, parses back to itself, whenever the parsers read back the printed base scale and booleans |
| Downscalator.ReadEntry | src/main/java/com/winteralexander/gdx/masterpacker/Downscalator.java:50-53 | a line without a positional is an index exception; otherwise the entry is its first positional, and downscaling is on exactly when `--nodownscale` is absent |
| Downscalator.ReadEntries | src/main/java/com/winteralexander/gdx/masterpacker/Downscalator.java:49-54 | the entry list reads exactly when every line does, line by line in order |
| Downscalator.MatchAnyPath | src/main/java/com/winteralexander/gdx/masterpacker/Downscalator.java:69-89 | the first entry in list order that matches is returned, and none exactly when no entry matches |
| Downscalator.StarClaimsSubtree | src/main/java/com/winteralexander/gdx/masterpacker/Downscalator.java:76-77 | an entry `dir/*` matches every file under `dir` |
| Downscalator.Round | src/main/java/com/winteralexander/gdx/masterpacker/Downscalator.java:127-129 | `Math.round` gives the integer nearest, with halves rounded up |
| Downscalator.RoundSize | src/main/java/com/winteralexander/gdx/masterpacker/Downscalator.java:157-159 | rounding a non-negative size gives a natural number |
| Downscalator.ProcessFile | src/main/java/com/winteralexander/gdx/masterpacker/Downscalator.java:103-136 | each outcome holds exactly when its conditions do: unlisted; nodownscale below 4K; a wanted file that is not a `.png`; a wanted `.png` cached as at least as new whose output exists; a stale one ImageIO does not decode; one that decodes but cannot be written (the caught exception); and otherwise a resize to the tier's rounded size. The cache changes exactly on a resize, to the time of the run |
| Downscalator.TierRun | src/main/java/com/winteralexander/gdx/masterpacker/Downscalator.java:91-101 | a tier run is the files processed in listing order with the cache threaded from each to the next; it has one outcome per file and keeps every cache key |
| Downscalator.TierRunSteps | src/main/java/com/winteralexander/gdx/masterpacker/Downscalator.java:97-100 | in a tier run, each file is processed on the cache the files before it left, and the run ends with the cache the last file left |
| Downscalator.ThreadOutcomes | src/main/java/com/winteralexander/gdx/masterpacker/Downscalator.java:97-100 | every outcome of a threaded run is its file's processing on the cache its predecessors left |
| Downscalator.ThreadStamps | src/main/java/com/winteralexander/gdx/masterpacker/Downscalator.java:91-132 | through a run, every cache entry either keeps its value or is set to the time of the run |
| Downscalator.ThreadAppend | src/main/java/com/winteralexander/gdx/masterpacker/Downscalator.java:97-100 | running over two file lists in a row is running over their concatenation |
| Downscalator.ThreadOutcomeAt | src/main/java/com/winteralexander/gdx/masterpacker/Downscalator.java:97-100 | the outcome of file i depends on the cache as the files before it left it |
| Downscalator.StampedAt | src/main/java/com/winteralexander/gdx/masterpacker/Downscalator.java:130-132 | right after a file is resized its cache entry holds the time of the run |
| Downscalator.FreshStays | src/main/java/com/winteralexander/gdx/masterpacker/Downscalator.java:91-132 | an entry at least as new as a time stays so through a later run at that time or later |
| Downscalator.ResizedIsFresh | src/main/java/com/winteralexander/gdx/masterpacker/Downscalator.java:132 | after a run, a resized file's cache entry is at least the time of the run |
| Downscalator.RerunSkipsResized | src/main/java/com/winteralexander/gdx/masterpacker/Downscalator.java:114-118 | a later run, with the source unchanged and the output present, finds a resized file up to date |
| Downscalator.RunAll | src/main/java/com/winteralexander/gdx/masterpacker/Downscalator.java:45-66 | the tiers run in the order 720p, 1080p, 4K over all files of the source tree, the first from the stored cache and each later one from the cache the previous tier left |
| Downscalator.NoDownscaleOnlyAtFourK | src/main/java/com/winteralexander/gdx/masterpacker/Downscalator.java:106-107 | a nodownscale entry is resized only at the 4K tier |
| Downscalator.FourKKeepsSize | src/main/java/com/winteralexander/gdx/masterpacker/AssetResolution.java:17 | the 4K tier keeps an image's size |
| Downscalator.DownscaleInPlace | src/main/java/com/winteralexander/gdx/masterpacker/Downscalator.java:147-161 | scale 1 does nothing; at any other scale an image that does not decode is a NullPointerException, an image one pixel wide or tall is left alone, and any other image is resized to its rounded scaled size |
| Downscalator.InPlaceMatchesTier | src/main/java/com/winteralexander/gdx/masterpacker/Downscalator.java:127-159 | resizing in place at a tier's scale gives the same size process gives at that tier, for every image that is not one pixel wide or tall; at 4K both keep the size |

## Left out

- File and image I/O are not modelled: copying, listing, deleting, `ImageIO` reads and writes, and atlas file rewriting. The input tree is a `FileSystem.Node`. Output existence, file contents, image decoding and writes are function parameters.
- The libGDX `TexturePacker` is not modelled: bin-packing, whitespace stripping, bleeding, page writing and the `portion == 0.01f` listener trigger. Its outcome per pass is a parameter (`Packer.PackOutcome`), and so is the rect its stripping returns.
- `ColorBleedEffect` and `ResampleOp` are foreign. Only the target sizes they are asked for are modelled.
- `CLIUtil` tokenising is taken as given: a line arrives as raw text, positionals and options.
- `tryParseFloat` and `tryParseBoolean` are parameters. The effect of `line.split("\\s+")` giving an empty first token on indented lines is part of the given positionals.
- `Hash.sha256` cache-file naming, `SerializationUtil.readMap`/`writeMap` and the `StreamUtil` byte formats are not modelled. The long and int codecs of `BundleCacheEntry` are parameters.
- `System.currentTimeMillis` and console output are not modelled. Each run takes one `now`, where the source reads the clock again for each bundle or file.
- Floats are exact reals, so the float value of 1/3 is not modelled. The list round trips therefore assume, per written scale, that the float parser reads back the text the printer wrote for it, which holds for every value a Java float can take; a scale such as 1/3, which no text reads back as, is outside them.
- `FileUtil.recurse` and `FileUtil.getLastModifiedRecursively` are foreign. They are modelled as all non-directory files of a subtree (`FileSystem.Files`) and as the maximum time over a subtree (`FileSystem.TreeMTime`).
- A missing file's time is 0, as `java.io.File.lastModified` reports.
- `ExtendedRect.java` and its reflection-based field copy are not modelled. The four extensions are an optional `Extents` on `Geometry.Rect`.
- The driving `main` loops are covered only as far as `Packer.RunBundle`, `Packer.RunAll` and `Downscalator.RunAll` reach. Argument parsing, directory creation and deletion of staging files are left out.
- `AssetBundle`'s null checks on `basePaths`, `outPath` and the entries of `outRes` are not modelled, since the model has no null.
- The `Iterable` convenience constructor of `AssetBundle` (`AssetBundle.java:65-95`) is not modelled.
- The timing assertion of `MasterPackerTest` is not modelled. Its cache behaviour is `Packer.SecondRunSkips`.
- `DirectoryPackTarget.java:90-93` replaces every `.png` in the directory's absolute path when looking for a shadowing atlas. The model's `JavaString.Replace` replaces every `.png` too, but of the path from the input root: a `.png` in the working-directory part above the root is not modelled.
- `FilePackTarget` joins segments with `/`. The `$` anchoring detail of its split regex is not modelled.
- Geometry.Extend: requires a non-empty image and non-negative extents. List parsing guarantees the extents. A zero-pixel image makes the source's `drawImage` calls degenerate. The pixels of the freshly allocated `BufferedImage` are the parameter `blank` rather than transparent black; `Geometry.ExtendIsClamped` shows that none of them survives the nine calls.
- Geometry.Draw: models only the nearest-pixel `drawImage` calls that extension issues, not general scaled drawing.
- Downscalator.DownscaleInPlace: requires a positive scale, because `ResampleOp` with a zero or negative size is not modelled. Staging only records each image's scale (`ImageScale`: base scale times target scale times tier scale) without resizing, and a zero or negative `--scale` reaches it unchecked.
- JavaString.ToUpper, JavaString.EqualsIgnoreCase and JavaString.ParseInt: handle ASCII only. Java's `toUpperCase`, `equalsIgnoreCase` and `Integer.parseInt` are Unicode-aware: `"ﬂat"` upper-cases to `"FLAT"`, `"dırectory"` equals `"directory"` ignoring case, and `parseInt("٣")` is 3. The rows that rely on them inherit the restriction, listed next.
- Domain.ParseTextureType: accepts only the words whose ASCII upper-casing names a type; a non-ASCII spelling such as `"ﬂat"`, which Java accepts, is rejected.
- Domain.TryParseRecursionMode: a non-ASCII spelling of a mode falls back to the default, where Java's upper-casing would accept it.
- PackingList.KindOf: matches kind words ASCII case-insensitively; `"dırectory"`, which Java's `equalsIgnoreCase` matches, gives no kind.
- BundleList.ParseResolutionItem: upper-cases ASCII only, so a non-ASCII spelling of a tier is an error where Java would accept it.
- CliLine.TryParseInt: non-ASCII digits are not read and give the default, where `Integer.parseInt` reads them.
- Downscalator.Round: does not model `Math.round` saturating at the `int` range.
- Downscalator.ProcessFile: keys the cache by the output path relative to the working directory (`client/assets/...`), where the source uses the absolute path. It also takes `file.isFile()` to hold for every non-directory entry of the tree.
- Downscalator.RunAll: walks the source tree's files in listing order. `File.listFiles` order is left as the tree's child order.
- Targets.PostProcessAtlas: states only which targets edit the atlas and the read failure. The edit itself is stated by `AtlasSplice.PostProcessAtlas`.
- DirectoryTargets.LastModified: states only a lower bound and definedness. The full bound over staged files is `DirectoryTargets.LastModifiedCoversCandidates`.

=== FILE: atlassplice.dfy ===
/** The atlas splicer (AtlasPackTarget.insertSubAtlas and
    postProcessAtlas): a text-sequence edit that replaces one region block
    of a freshly packed atlas with the region blocks of a previously packed
    sub-atlas, renaming the sub-regions under the replaced region's name and
    translating their `xy:` origins by the replaced region's origin.

    Atlas text is a sequence of lines. A line starting with two spaces is a
    region property; any other line is a region (or page) header. */
module AtlasSplice {
  import opened Wrappers
  import opened JavaString
  import Naming

  /** Lines that begin a sub-atlas file and are not region blocks. */
  const HEADER_LINES: nat := 5

  predicate IsProperty(line: string) {
    StartsWith(line, "  ")
  }

  predicate IsXYLine(line: string) {
    StartsWith(line, "  xy:")
  }

  /** Reads the coordinates of an `xy:` line. The block-level functions
      below take it as a parameter so that their structure is stated
      independently of the coordinate text format; the splicer passes
      ParseXY. */
  type CoordReader = string -> Result<(int, int)>

  /** `line.split("xy:")[1].trim()`, then the coordinates in it. */
  function ParseXY(line: string): (r: Result<(int, int)>)
    ensures r.Ok? ==> IsInt32(r.value.0) && IsInt32(r.value.1)
  {
    var parts := Split(line, "xy:");
    if |parts| < 2 then Fail(IndexOutOfBounds) else ParseCoords(Trim(parts[1]))
  }

  /** `text.split(",")`, then `parseInt(trim())` of the first two pieces,
      in that order. */
  function ParseCoords(text: string): (r: Result<(int, int)>)
    ensures r.Ok? ==> IsInt32(r.value.0) && IsInt32(r.value.1)
  {
    var coords := Split(text, ",");
    if |coords| == 0 then Fail(IndexOutOfBounds)
    else match ParseInt(Trim(coords[0]))
      case None => Fail(NumberFormat(coords[0]))
      case Some(x) =>
        if |coords| < 2 then Fail(IndexOutOfBounds)
        else match ParseInt(Trim(coords[1]))
          case None => Fail(NumberFormat(coords[1]))
          case Some(y) => Ok((x, y))
  }

  /** `"  xy: " + x + ", " + y`. */
  function FormatXY(x: int, y: int): string {
    "  xy: " + IntToString(x) + ", " + IntToString(y)
  }

  /** Text Integer.toString can print: digits and a minus sign, ending in a digit. */
  predicate NumberText(s: string) {
    && |s| > 0
    && (forall i :: 0 <= i < |s| ==> IsDigit(s[i]) || s[i] == '-')
    && IsDigit(s[|s| - 1])
  }

  lemma XYSplit(xs: string, ys: string)
    requires NumberText(xs) && NumberText(ys)
    ensures Split("  xy: " + xs + ", " + ys, "xy:") == ["  ", " " + xs + ", " + ys]
  {
    var tail := " " + xs + ", " + ys;
    var line := "  xy: " + xs + ", " + ys;
    assert line == "  " + "xy:" + tail;
    forall i | 0 <= i < 2 ensures !OccursAt(line, "xy:", i) {
      assert line[i] == ' ';
    }
    forall i | 0 <= i < |tail| ensures tail[i] != 'x' {
      if 1 <= i < 1 + |xs| {
        assert tail[i] == xs[i - 1];
      } else if 1 + |xs| + 2 <= i {
        assert tail[i] == ys[i - 1 - |xs| - 2];
      }
    }
    NoFirstCharNoContains(tail, "xy:");
    SplitOnce("  ", "xy:", tail);
  }

  lemma CommaSplit(xs: string, ys: string)
    requires NumberText(xs) && NumberText(ys)
    ensures Split(xs + ", " + ys, ",") == [xs, " " + ys]
  {
    var coords := xs + ", " + ys;
    var rest := " " + ys;
    assert coords == xs + "," + rest;
    forall i | 0 <= i < |xs| ensures !OccursAt(coords, ",", i) {
      assert coords[i] == xs[i];
    }
    forall i | 0 <= i < |rest| ensures rest[i] != ',' {
      if i > 0 {
        assert rest[i] == ys[i - 1];
      }
    }
    NoFirstCharNoContains(rest, ",");
    SplitOnce(xs, ",", rest);
  }

  lemma ParseXYOfText(xs: string, ys: string)
    requires NumberText(xs) && NumberText(ys)
    requires ParseInt(xs).Some? && ParseInt(ys).Some?
    ensures ParseXY("  xy: " + xs + ", " + ys) == Ok((ParseInt(xs).value, ParseInt(ys).value))
  {
    var coords := xs + ", " + ys;
    XYSplit(xs, ys);
    assert " " + xs + ", " + ys == " " + coords;
    TrimLeadingSpace(coords);
    assert ParseXY("  xy: " + xs + ", " + ys) == ParseCoords(coords);
    CommaSplit(xs, ys);
    TrimVisible(xs);
    TrimLeadingSpace(ys);
  }

  /** A printed coordinate line parses back to the coordinates it was
      printed from, so a spliced atlas can itself be spliced again. */
  lemma FormatXYRoundTrip(x: int, y: int)
    requires IsInt32(x) && IsInt32(y)
    ensures IsXYLine(FormatXY(x, y))
    ensures ParseXY(FormatXY(x, y)) == Ok((x, y))
  {
    var xs, ys := IntToString(x), IntToString(y);
    NumberTextOfInt(x);
    NumberTextOfInt(y);
    ParseIntToString(x);
    ParseIntToString(y);
    ParseXYOfText(xs, ys);
    XYPrefix(xs, ys);
  }

  lemma NumberTextOfInt(n: int)
    ensures NumberText(IntToString(n))
  {
    IntToStringChars(n);
  }

  lemma XYPrefix(xs: string, ys: string)
    ensures IsXYLine("  xy: " + xs + ", " + ys)
  {
    var line := "  xy: " + xs + ", " + ys;
    assert line[..5] == "  xy: "[..5];
  }

  /** The index of the first line equal to `name`. */
  function FirstIndex(lines: seq<string>, name: string): (r: Option<nat>)
    ensures r.None? <==> name !in lines
    ensures r.Some? ==> r.value < |lines| && lines[r.value] == name
    ensures r.Some? ==> forall k :: 0 <= k < r.value ==> lines[k] != name
  {
    if |lines| == 0 then None
    else if lines[0] == name then Some(0)
    else match FirstIndex(lines[1..], name)
      case None => None
      case Some(k) => Some(k + 1)
  }

  /** End (exclusive) of the block whose header is at `i`: the header plus
      the maximal run of property lines right after it. */
  function BlockEnd(lines: seq<string>, i: nat): (j: nat)
    requires i < |lines|
    ensures i < j <= |lines|
    ensures forall k :: i < k < j ==> IsProperty(lines[k])
    ensures j == |lines| || !IsProperty(lines[j])
    decreases |lines| - i
  {
    if i + 1 < |lines| && IsProperty(lines[i + 1]) then BlockEnd(lines, i + 1) else i + 1
  }

  /** The origin of a block: the last `xy:` line's coordinates, (0, 0)
      when there is none; fails on the first malformed `xy:` line. */
  function BlockOrigin(parse: CoordReader, block: seq<string>, acc: (int, int)): (r: Result<(int, int)>)
    decreases |block|
  {
    if |block| == 0 then Ok(acc)
    else if IsXYLine(block[0]) then
      match parse(block[0])
      case Fail(e) => Fail(e)
      case Ok(p) => BlockOrigin(parse, block[1..], p)
    else BlockOrigin(parse, block[1..], acc)
  }

  predicate XYLinesParse(parse: CoordReader, block: seq<string>) {
    forall k :: 0 <= k < |block| && IsXYLine(block[k]) ==> parse(block[k]).Ok?
  }

  /** The block origin fails exactly when some `xy:` line is malformed. */
  lemma {:induction false} BlockOriginOk(parse: CoordReader, block: seq<string>, acc: (int, int))
    ensures BlockOrigin(parse, block, acc).Ok? <==> XYLinesParse(parse, block)
    decreases |block|
  {
    if |block| > 0 {
      var rest := block[1..];
      assert forall k :: 0 < k < |block| ==> block[k] == rest[k - 1];
      var p := parse(block[0]);
      if IsXYLine(block[0]) && p.Ok? {
        BlockOriginOk(parse, rest, p.value);
      } else if !IsXYLine(block[0]) {
        BlockOriginOk(parse, rest, acc);
      }
    }
  }

  /** With no `xy:` line the origin is the accumulator. */
  lemma {:induction false} BlockOriginNoXY(parse: CoordReader, block: seq<string>, acc: (int, int))
    requires forall k :: 0 <= k < |block| ==> !IsXYLine(block[k])
    ensures BlockOrigin(parse, block, acc) == Ok(acc)
    decreases |block|
  {
    if |block| > 0 {
      BlockOriginNoXY(parse, block[1..], acc);
    }
  }

  /** Otherwise it is the coordinates of the last `xy:` line. */
  lemma {:induction false} BlockOriginLastXY(parse: CoordReader, block: seq<string>, acc: (int, int), k: nat)
    requires k < |block| && IsXYLine(block[k])
    requires forall k' :: k < k' < |block| ==> !IsXYLine(block[k'])
    requires BlockOrigin(parse, block, acc).Ok?
    ensures parse(block[k]).Ok? && BlockOrigin(parse, block, acc).value == parse(block[k]).value
    decreases |block|
  {
    var rest := block[1..];
    var p := parse(block[0]);
    if IsXYLine(block[0]) {
      assert p.Ok? && BlockOrigin(parse, block, acc) == BlockOrigin(parse, rest, p.value);
    } else {
      assert BlockOrigin(parse, block, acc) == BlockOrigin(parse, rest, acc);
    }
    if k == 0 {
      forall k' | 0 <= k' < |rest| ensures !IsXYLine(rest[k']) {
        assert rest[k'] == block[k' + 1];
      }
      BlockOriginNoXY(parse, rest, p.value);
    } else {
      forall k' | k - 1 < k' < |rest| ensures !IsXYLine(rest[k']) {
        assert rest[k'] == block[k' + 1];
      }
      assert rest[k - 1] == block[k];
      BlockOriginLastXY(parse, rest, if IsXYLine(block[0]) then p.value else acc, k - 1);
    }
  }

  /** How one sub-atlas line is rewritten: a header gets the parent region
      name as prefix, an `xy:` line is translated by (x, y) with Java `int`
      arithmetic, any other property is copied. */
  function RewriteLine(parse: CoordReader, region: string, x: int, y: int, line: string): Result<string> {
    if !IsProperty(line) then Ok(region + "_" + line)
    else if IsXYLine(line) then
      match parse(line)
      case Fail(e) => Fail(e)
      case Ok(p) => Ok(FormatXY(Wrap32(x + p.0), Wrap32(y + p.1)))
    else Ok(line)
  }

  /** Rewrites every sub-atlas line, last line first as the source does;
      fails if any line fails. */
  function RewriteAll(parse: CoordReader, region: string, x: int, y: int, sub: seq<string>): (r: Result<seq<string>>)
    ensures r.Ok? <==> forall k :: 0 <= k < |sub| ==> RewriteLine(parse, region, x, y, sub[k]).Ok?
    ensures r.Ok? ==> |r.value| == |sub|
    ensures r.Ok? ==> forall k :: 0 <= k < |sub| ==> RewriteLine(parse, region, x, y, sub[k]) == Ok(r.value[k])
    decreases |sub|
  {
    if |sub| == 0 then Ok([])
    else
      match RewriteLine(parse, region, x, y, sub[|sub| - 1])
      case Fail(e) => Fail(e)
      case Ok(last) =>
        match RewriteAll(parse, region, x, y, sub[..|sub| - 1])
        case Fail(e) => Fail(e)
        case Ok(front) => Ok(front + [last])
  }

  /** insertSubAtlas as a function. */
  function Splice(parse: CoordReader, atlas: seq<string>, sub: seq<string>, region: string): (r: Result<seq<string>>)
    // no line equals the region name: the atlas is unchanged
    ensures region !in atlas ==> r == Ok(atlas)
    ensures region in atlas ==>
      var i := FirstIndex(atlas, region).value;
      var j := BlockEnd(atlas, i);
      // fails exactly when an `xy:` line of the deleted block or a sub-atlas line is malformed
      && (r.Ok? <==> BlockOrigin(parse, atlas[i..j], (0, 0)).Ok?
                     && forall k :: 0 <= k < |sub| ==> RewriteLine(parse, region, BlockOrigin(parse, atlas[i..j], (0, 0)).value.0,
                                                                   BlockOrigin(parse, atlas[i..j], (0, 0)).value.1, sub[k]).Ok?)
      && (r.Ok? ==>
            // lines before the block and after it are kept, in order
            && |r.value| == i + |sub| + (|atlas| - j)
            && r.value[..i] == atlas[..i]
            && r.value[i + |sub|..] == atlas[j..]
            // the block is replaced by the rewritten sub-atlas lines, in order
            && forall k :: 0 <= k < |sub| ==>
                 RewriteLine(parse, region, BlockOrigin(parse, atlas[i..j], (0, 0)).value.0,
                             BlockOrigin(parse, atlas[i..j], (0, 0)).value.1, sub[k]) == Ok(r.value[i + k]))
  {
    match FirstIndex(atlas, region)
    case None => Ok(atlas)
    case Some(i) =>
      var j := BlockEnd(atlas, i);
      match BlockOrigin(parse, atlas[i..j], (0, 0))
      case Fail(e) => Fail(e)
      case Ok(origin) =>
        match RewriteAll(parse, region, origin.0, origin.1, sub)
        case Fail(e) => Fail(e)
        case Ok(lines) => Ok(atlas[..i] + lines + atlas[j..])
  }

  /** A failing rewrite of the last failing line is the error RewriteAll reports. */
  lemma {:induction false} RewriteAllFailsAt(parse: CoordReader, region: string, x: int, y: int, sub: seq<string>, k: nat)
    requires k < |sub| && RewriteLine(parse, region, x, y, sub[k]).Fail?
    requires forall k' :: k < k' < |sub| ==> RewriteLine(parse, region, x, y, sub[k']).Ok?
    ensures RewriteAll(parse, region, x, y, sub) == Fail(RewriteLine(parse, region, x, y, sub[k]).error)
    decreases |sub|
  {
    if k < |sub| - 1 {
      RewriteAllFailsAt(parse, region, x, y, sub[..|sub| - 1], k);
    }
  }

  /** Rewriting two runs of lines one after the other is rewriting their
      concatenation. */
  lemma {:induction false} RewriteAllConcat(parse: CoordReader, region: string, x: int, y: int, a: seq<string>, b: seq<string>)
    requires RewriteAll(parse, region, x, y, a).Ok? && RewriteAll(parse, region, x, y, b).Ok?
    ensures RewriteAll(parse, region, x, y, a + b)
            == Ok(RewriteAll(parse, region, x, y, a).value + RewriteAll(parse, region, x, y, b).value)
    decreases |b|
  {
    if |b| == 0 {
      assert a + b == a;
      assert RewriteAll(parse, region, x, y, b) == Ok([]);
      assert RewriteAll(parse, region, x, y, a).value + [] == RewriteAll(parse, region, x, y, a).value;
    } else {
      var front := b[..|b| - 1];
      var last := RewriteLine(parse, region, x, y, b[|b| - 1]);
      var ra, rf := RewriteAll(parse, region, x, y, a).value, RewriteAll(parse, region, x, y, front).value;
      assert last.Ok?;
      assert RewriteAll(parse, region, x, y, front).Ok?;
      assert RewriteAll(parse, region, x, y, b).value == rf + [last.value];
      assert (a + b)[..|a + b| - 1] == a + front;
      assert (a + b)[|a + b| - 1] == b[|b| - 1];
      RewriteAllConcat(parse, region, x, y, a, front);
      assert RewriteAll(parse, region, x, y, a + front).value == ra + rf;
      assert RewriteAll(parse, region, x, y, a + b).value == (ra + rf) + [last.value];
      assert (ra + rf) + [last.value] == ra + (rf + [last.value]);
    }
  }

  /** Rewriting one more line in front extends the rewritten lines in front. */
  lemma RewriteAllPrepend(parse: CoordReader, region: string, x: int, y: int, sub: seq<string>, k: nat)
    requires 0 < k <= |sub|
    requires RewriteAll(parse, region, x, y, sub[k..]).Ok? && RewriteLine(parse, region, x, y, sub[k - 1]).Ok?
    ensures RewriteAll(parse, region, x, y, sub[k - 1..])
            == Ok([RewriteLine(parse, region, x, y, sub[k - 1]).value] + RewriteAll(parse, region, x, y, sub[k..]).value)
  {
    var one := [sub[k - 1]];
    assert sub[k - 1..] == one + sub[k..];
    assert one[..|one| - 1] == [];
    assert one[|one| - 1] == sub[k - 1];
    var e: seq<string> := [];
    assert RewriteAll(parse, region, x, y, e) == Ok([]);
    var r1 := RewriteAll(parse, region, x, y, one);
    assert r1.Ok?;
    assert |r1.value| == 1;
    assert r1.value[0] == RewriteLine(parse, region, x, y, sub[k - 1]).value;
    assert r1.value == [RewriteLine(parse, region, x, y, sub[k - 1]).value];
    RewriteAllConcat(parse, region, x, y, one, sub[k..]);
  }

  /** The header scan: the index of the first line equal to `region`, or
      the line count when there is none. */
  method FindHeader(lines: seq<string>, region: string) returns (i: nat)
    ensures region !in lines ==> i == |lines|
    ensures region in lines ==> FirstIndex(lines, region) == Some(i)
  {
    i := 0;
    while i < |lines| && lines[i] != region
      invariant 0 <= i <= |lines|
      invariant forall k :: 0 <= k < i ==> lines[k] != region
    {
      i := i + 1;
    }
  }

  /** The do-while deletion: removes the block at `i`, reading its `xy:`
      lines as it goes. */
  method DeleteBlock(parse: CoordReader, atlas: seq<string>, i: nat) returns (r: Result<(seq<string>, int, int)>)
    requires i < |atlas|
    ensures var j := BlockEnd(atlas, i);
            match BlockOrigin(parse, atlas[i..j], (0, 0))
            case Fail(e) => r == Fail(e)
            case Ok(p) => r == Ok((atlas[..i] + atlas[j..], p.0, p.1))
  {
    var j := BlockEnd(atlas, i);
    var lines := atlas;
    var x, y := 0, 0;
    var scanned := i;
    var done := false;
    while !done
      invariant i <= scanned <= j
      invariant done ==> scanned == j
      invariant !done ==> scanned < j
      invariant lines == atlas[..i] + atlas[scanned..]
      invariant BlockOrigin(parse, atlas[i..j], (0, 0)) == BlockOrigin(parse, atlas[scanned..j], (x, y))
      decreases j - scanned, !done
    {
      var line := lines[i];
      assert line == atlas[scanned];
      assert atlas[scanned..j][0] == line && atlas[scanned..j][1..] == atlas[scanned + 1..j];
      if IsXYLine(line) {
        var p := parse(line);
        if p.Fail? {
          return Fail(p.error);
        }
        x, y := p.value.0, p.value.1;
      }
      lines := lines[..i] + lines[i + 1..];
      scanned := scanned + 1;
      assert lines == atlas[..i] + atlas[scanned..];
      if !(|lines| > i && IsProperty(lines[i])) {
        done := true;
      }
    }
    assert BlockOrigin(parse, atlas[j..j], (x, y)) == Ok((x, y));
    return Ok((lines, x, y));
  }

  /** Inserting at the end of a prefix extends the run that follows it. */
  lemma InsertAt(pre: seq<string>, mid: seq<string>, post: seq<string>, v: string)
    ensures var out := pre + mid + post;
            out[..|pre|] + [v] + out[|pre|..] == pre + ([v] + mid) + post
  {
    var out := pre + mid + post;
    assert out[..|pre|] == pre;
    assert out[|pre|..] == mid + post;
  }

  /** The reverse insertion loop: every sub-atlas line, last first, is
      rewritten and inserted at index `i`. */
  method InsertRewritten(parse: CoordReader, lines: seq<string>, i: nat, region: string, x: int, y: int, sub: seq<string>)
    returns (r: Result<seq<string>>)
    requires i <= |lines|
    ensures match RewriteAll(parse, region, x, y, sub)
            case Fail(e) => r == Fail(e)
            case Ok(ls) => r == Ok(lines[..i] + ls + lines[i..])
  {
    var out := lines;
    var k := |sub|;
    assert sub[k..] == [];
    while k > 0
      invariant 0 <= k <= |sub|
      invariant forall k' :: k <= k' < |sub| ==> RewriteLine(parse, region, x, y, sub[k']).Ok?
      invariant RewriteAll(parse, region, x, y, sub[k..]).Ok?
      invariant out == lines[..i] + RewriteAll(parse, region, x, y, sub[k..]).value + lines[i..]
    {
      var rewritten := RewriteLine(parse, region, x, y, sub[k - 1]);
      if rewritten.Fail? {
        RewriteAllFailsAt(parse, region, x, y, sub, k - 1);
        return Fail(rewritten.error);
      }
      RewriteAllPrepend(parse, region, x, y, sub, k);
      InsertAt(lines[..i], RewriteAll(parse, region, x, y, sub[k..]).value, lines[i..], rewritten.value);
      out := out[..i] + [rewritten.value] + out[i..];
      k := k - 1;
    }
    assert sub[0..] == sub;
    return Ok(out);
  }

  /** The source's in-place algorithm, step by step: scan for the header,
      delete its block, insert the rewritten sub-atlas at the same index. */
  method InsertSubAtlas(atlas: seq<string>, sub: seq<string>, region: string) returns (r: Result<seq<string>>)
    ensures r == Splice(ParseXY, atlas, sub, region)
  {
    var i := FindHeader(atlas, region);
    if i == |atlas| {
      return Ok(atlas);
    }
    var deleted := DeleteBlock(ParseXY, atlas, i);
    if deleted.Fail? {
      return Fail(deleted.error);
    }
    var (lines, x, y) := deleted.value;
    r := InsertRewritten(ParseXY, lines, i, region, x, y, sub);
    var j := BlockEnd(atlas, i);
    assert lines[..i] == atlas[..i] && lines[i..] == atlas[j..];
  }

  /** Each line of the spliced-in block is the rewrite of the sub-atlas
      line at the same offset, under the replaced block's origin. */
  lemma SplicedLine(parse: CoordReader, atlas: seq<string>, sub: seq<string>, region: string, k: nat)
    requires region in atlas && Splice(parse, atlas, sub, region).Ok? && k < |sub|
    ensures var r := Splice(parse, atlas, sub, region).value;
            var i := FirstIndex(atlas, region).value;
            var o := BlockOrigin(parse, atlas[i..BlockEnd(atlas, i)], (0, 0)).value;
            RewriteLine(parse, region, o.0, o.1, sub[k]) == Ok(r[i + k])
  {
  }

  /** What a rewritten line is: a sub-atlas region header is renamed under
      the replaced region, a plain property is copied, and an `xy:` line is
      reprinted as the sub-region's origin translated by (x, y) with `int`
      wrap-around. */
  lemma RewriteLineCases(parse: CoordReader, region: string, x: int, y: int, line: string, out: string)
    requires RewriteLine(parse, region, x, y, line) == Ok(out)
    ensures !IsProperty(line) ==> out == region + "_" + line
    ensures IsProperty(line) && !IsXYLine(line) ==> out == line
    ensures IsXYLine(line) ==>
              parse(line).Ok? && out == FormatXY(Wrap32(x + parse(line).value.0), Wrap32(y + parse(line).value.1))
  {
    assert IsXYLine(line) ==> IsProperty(line);
  }

  /** A rewritten coordinate line reads back as the translated origin, so a
      spliced atlas can itself be spliced into another one. */
  lemma RewrittenXYReadsBack(parse: CoordReader, region: string, x: int, y: int, line: string, out: string)
    requires RewriteLine(parse, region, x, y, line) == Ok(out) && IsXYLine(line)
    ensures parse(line).Ok?
    ensures IsXYLine(out)
    ensures ParseXY(out) == Ok((Wrap32(x + parse(line).value.0), Wrap32(y + parse(line).value.1)))
  {
    RewriteLineCases(parse, region, x, y, line, out);
    TranslatedReadsBack(x, y, parse(line).value, out);
  }

  lemma TranslatedReadsBack(x: int, y: int, p: (int, int), out: string)
    requires out == FormatXY(Wrap32(x + p.0), Wrap32(y + p.1))
    ensures IsXYLine(out)
    ensures ParseXY(out) == Ok((Wrap32(x + p.0), Wrap32(y + p.1)))
  {
    FormatXYRoundTrip(Wrap32(x + p.0), Wrap32(y + p.1));
  }

  /** A sub-region at (10, 20) spliced into a region at (50, 100) lands
      at (60, 120). */
  lemma TranslationExample(region: string, line: string, out: string)
    requires IsXYLine(line) && ParseXY(line) == Ok((10, 20))
    requires RewriteLine(ParseXY, region, 50, 100, line) == Ok(out)
    ensures ParseXY(out) == Ok((60, 120))
  {
    RewrittenXYReadsBack(ParseXY, region, 50, 100, line, out);
  }

  /** AtlasPackTarget.postProcessAtlas: only an atlas of the target's own
      texture type is edited; the sub-atlas file (None when it cannot be
      read) loses its first five lines and is spliced in under the target's
      region name. */
  function PostProcessAtlas(
    sameType: bool, path: string, bases: seq<string>,
    subFile: Option<seq<string>>, atlas: seq<string>): (r: Result<seq<string>>)
    ensures !sameType ==> r == Ok(atlas)
    ensures sameType && subFile.None? ==> r.Fail? && r.error.Io?
    ensures sameType && subFile.Some? && |subFile.value| < HEADER_LINES ==> r.Fail? && r.error.IllegalArgument?
    ensures sameType && subFile.Some? && |subFile.value| >= HEADER_LINES ==>
              r == Splice(ParseXY, atlas, subFile.value[HEADER_LINES..], Naming.AtlasRegionName(path, bases))
  {
    if !sameType then Ok(atlas)
    else match subFile
      case None => Fail(Io(path))
      case Some(lines) =>
        if |lines| < HEADER_LINES then Fail(IllegalArgument("fromIndex(5) > toIndex"))
        else Splice(ParseXY, atlas, lines[HEADER_LINES..], Naming.AtlasRegionName(path, bases))
  }
}

=== FILE: bundlelist.dfy ===
/** BundleList.parseFile: one asset bundle per line,
    `<id> <outPath> <basePath>... [options]`. A line whose positionals are
    missing or whose resolution or filter names are unknown is reported and
    skipped. */
module BundleList {
  import opened Wrappers
  import opened JavaString
  import opened Domain
  import opened CliLine

  /** One `--out-res` item: upper-cased, prefixed with `_` and looked up as
      a constant name. */
  function ParseResolutionItem(item: string): (r: Result<AssetResolution>)
    ensures forall x: AssetResolution :: r == Ok(x) <==> "_" + ToUpper(item) == x.Name()
    ensures r.Fail? ==> r.error.IllegalArgument?
  {
    ParseResolution("_" + ToUpper(item))
  }

  /** Every item looked up in order; the first unknown one fails the list. */
  function ParseResolutionItems(items: seq<string>): (r: Result<seq<AssetResolution>>)
    ensures r.Ok? <==> forall i :: 0 <= i < |items| ==> ParseResolutionItem(items[i]).Ok?
    ensures r.Ok? ==> |r.value| == |items| && forall i :: 0 <= i < |items| ==> ParseResolutionItem(items[i]) == Ok(r.value[i])
    ensures r.Fail? ==> r.error.IllegalArgument?
  {
    MapAll(items, ParseResolutionItem)
  }

  /** `--out-res`: all tiers when absent, otherwise the comma-separated
      list (trailing empty items dropped, as String.split does). */
  function ParseResolutions(v: Option<string>): (r: Result<seq<AssetResolution>>)
    ensures v.None? ==> r == Ok(AllResolutions())
    ensures v.Some? ==> r == ParseResolutionItems(Split(v.value, ","))
  {
    match v
    case None => Ok(AllResolutions())
    case Some(s) => ParseResolutionItems(Split(s, ","))
  }

  /** `--min-filter`/`--mag-filter`: the default when absent, otherwise a
      case-sensitive constant name. */
  function ParseFilterOption(v: Option<string>, default: TextureFilter): (r: Result<TextureFilter>)
    ensures v.None? ==> r == Ok(default)
    ensures v.Some? ==> forall f: TextureFilter :: r == Ok(f) <==> v.value == FilterName(f)
    ensures r.Fail? ==> r.error.IllegalArgument?
  {
    match v
    case None => Ok(default)
    case Some(s) => ParseFilter(s)
  }

  /** The try block of parseFile for a line that is neither blank nor a
      comment. Both exceptions it catches are modelled: a missing
      positional is IndexOutOfBounds, an unknown name or an empty
      resolution list is IllegalArgument. `--max-width` lands in the
      bundle's maxHeight and `--max-height` in its maxWidth, as written. */
  function ReadBundle(l: ParsedLine, floats: string -> Option<real>, bools: string -> Option<bool>)
    : (r: Result<AssetBundle>)
    ensures r.Fail? ==> r.error.IndexOutOfBounds? || r.error.IllegalArgument?
    ensures r.Fail? && |l.positional| >= 2 ==> r.error.IllegalArgument?
    ensures r.Ok? <==> && |l.positional| >= 2
                       && ParseResolutions(Param(l, "--out-res")).Ok?
                       && |ParseResolutions(Param(l, "--out-res")).value| > 0
                       && ParseFilterOption(Param(l, "--min-filter"), MipMapLinearLinear).Ok?
                       && ParseFilterOption(Param(l, "--mag-filter"), Linear).Ok?
    ensures r.Ok? ==> var b := r.value;
              && b.bundleId == l.positional[0] && b.outPath == l.positional[1] && b.basePaths == l.positional[2..]
              && b.outRes == ParseResolutions(Param(l, "--out-res")).value
              && b.minFilter == ParseFilterOption(Param(l, "--min-filter"), MipMapLinearLinear).value
              && b.magFilter == ParseFilterOption(Param(l, "--mag-filter"), Linear).value
              && b.baseScale == TryParse(Param(l, "--scale"), floats, 1.0)
              && b.paddingX == TryParseInt(Param(l, "--padding-x"), TryParseInt(Param(l, "--padding"), 10))
              && b.paddingY == TryParseInt(Param(l, "--padding-y"), TryParseInt(Param(l, "--padding"), 10))
              && b.shaded == TryParse(Param(l, "--shaded"), bools, true)
              && b.square == !TryParse(Param(l, "--shrink"), bools, false)
              && b.grid == TryParse(Param(l, "--grid"), bools, false)
              && b.maxHeight == TryParseInt(Param(l, "--max-width"), -1)
              && b.maxWidth == TryParseInt(Param(l, "--max-height"), -1)
              && b.atlasName == Param(l, "--atlas-name")
  {
    var padding := TryParseInt(Param(l, "--padding"), 10);
    var outRes :- ParseResolutions(Param(l, "--out-res"));
    var minFilter :- ParseFilterOption(Param(l, "--min-filter"), MipMapLinearLinear);
    var magFilter :- ParseFilterOption(Param(l, "--mag-filter"), Linear);
    if |l.positional| < 2 then Fail(IndexOutOfBounds)
    else
      MakeBundle(l.positional[0],
                 TryParse(Param(l, "--shaded"), bools, true),
                 !TryParse(Param(l, "--shrink"), bools, false),
                 TryParse(Param(l, "--grid"), bools, false),
                 TryParse(Param(l, "--scale"), floats, 1.0),
                 TryParseInt(Param(l, "--padding-x"), padding),
                 TryParseInt(Param(l, "--padding-y"), padding),
                 TryParseInt(Param(l, "--max-height"), -1),
                 TryParseInt(Param(l, "--max-width"), -1),
                 minFilter, magFilter, Param(l, "--atlas-name"), outRes,
                 l.positional[1], l.positional[2..])
  }

  /** The lambda of parseFile: nothing for a blank or comment line or a line
      the try block rejects. */
  function ParseBundle(l: ParsedLine, floats: string -> Option<real>, bools: string -> Option<bool>)
    : (r: Option<AssetBundle>)
    ensures r.Some? <==> !Ignored(l.raw) && ReadBundle(l, floats, bools).Ok?
    ensures r.Some? ==> r.value == ReadBundle(l, floats, bools).value && ValidBundle(r.value)
  {
    if Ignored(l.raw) then None
    else match ReadBundle(l, floats, bools)
      case Ok(b) => Some(b)
      case Fail(_) => None
  }

  /** parseFile: the bundles of the accepted lines, in file order. */
  function ParseFile(lines: seq<ParsedLine>, floats: string -> Option<real>, bools: string -> Option<bool>)
    : (r: seq<AssetBundle>)
    ensures |r| <= |lines|
    ensures forall b :: b in r ==>
              ValidBundle(b) && exists i :: 0 <= i < |lines| && ParseBundle(lines[i], floats, bools) == Some(b)
  {
    ParseLines(lines, BundleParser(floats, bools))
  }

  /** The per-line parser of parseFile. */
  function BundleParser(floats: string -> Option<real>, bools: string -> Option<bool>): ParsedLine -> Option<AssetBundle> {
    (l: ParsedLine) => ParseBundle(l, floats, bools)
  }

  /** A line added at the end of a bundle list adds its bundle when it is
      not ignored and reads, and nothing otherwise. */
  lemma ParseFileSnoc(lines: seq<ParsedLine>, l: ParsedLine, floats: string -> Option<real>, bools: string -> Option<bool>)
    ensures ParseFile(lines + [l], floats, bools)
            == ParseFile(lines, floats, bools)
               + if !Ignored(l.raw) && ReadBundle(l, floats, bools).Ok? then [ReadBundle(l, floats, bools).value] else []
  {
    ParseLinesSnoc(lines, l, BundleParser(floats, bools));
  }

  // ---- defaults and the width/height swap ------------------------------------------------

  /** A line of positionals only gives the documented defaults: shaded,
      square pages, no grid, scale 1, padding 10, no size bound, every
      tier, trilinear minification, linear magnification, a derived atlas
      name. */
  lemma DefaultBundle(raw: string, pos: seq<string>, floats: string -> Option<real>, bools: string -> Option<bool>)
    requires !Ignored(raw) && |pos| >= 2
    ensures ParseBundle(ParsedLine(raw, pos, map[]), floats, bools)
            == Some(AssetBundle(pos[0], true, true, false, 1.0, 10, 10, -1, -1, MipMapLinearLinear, Linear,
                                None, AllResolutions(), pos[1], pos[2..]))
  {
  }

  /** `--max-width w` bounds the page height and leaves the width unbounded. */
  lemma MaxWidthBoundsHeight(raw: string, pos: seq<string>, w: int, floats: string -> Option<real>, bools: string -> Option<bool>)
    requires !Ignored(raw) && |pos| >= 2 && IsInt32(w)
    ensures var b := ParseBundle(ParsedLine(raw, pos, map["--max-width" := IntToString(w)]), floats, bools);
            b.Some? && b.value.maxHeight == w && b.value.maxWidth == -1
  {
    ParseIntToString(w);
    var l := ParsedLine(raw, pos, map["--max-width" := IntToString(w)]);
    assert Param(l, "--max-height") == None;
    assert Param(l, "--out-res") == None;
    assert Param(l, "--min-filter") == None;
    assert Param(l, "--mag-filter") == None;
  }

  // ---- writing a bundle back as a line ----------------------------------------------------

  /** Comma-joined pieces without commas split back into the same pieces
      when the last one is not empty. */
  lemma {:induction false} SplitAllJoin(items: seq<string>)
    requires |items| >= 1
    requires forall i, k :: 0 <= i < |items| && 0 <= k < |items[i]| ==> items[i][k] != ','
    ensures SplitAll(Join(items, ","), ",") == items
    decreases |items|
  {
    var a := items[0];
    if |items| == 1 {
      NoFirstCharNoContains(a, ",");
      assert Join(items, ",") == a;
    } else {
      var rest := Join(items[1..], ",");
      assert Join(items, ",") == a + "," + rest;
      FirstCommaAfter(a, rest);
      SplitAllJoin(items[1..]);
      assert items == [a] + items[1..];
    }
  }

  /** In a piece without commas followed by a comma, the first comma is the
      one after the piece. */
  lemma FirstCommaAfter(a: string, rest: string)
    requires forall k :: 0 <= k < |a| ==> a[k] != ','
    ensures var s := a + "," + rest;
            IndexOf(s, ",") == Some(|a|) && s[..|a|] == a && s[|a| + 1..] == rest
  {
    var s := a + "," + rest;
    assert OccursAt(s, ",", |a|);
    forall j | 0 <= j < |a| ensures !OccursAt(s, ",", j) {
      assert s[j] == a[j];
    }
    assert s[..|a|] == a && s[|a| + 1..] == rest;
  }

  lemma SplitJoin(items: seq<string>)
    requires |items| >= 1 && items[|items| - 1] != ""
    requires forall i, k :: 0 <= i < |items| && 0 <= k < |items[i]| ==> items[i][k] != ','
    ensures Split(Join(items, ","), ",") == items
  {
    SplitAllJoin(items);
    if IndexOf(Join(items, ","), ",").None? {
      assert |items| == 1;
    }
  }

  /** The name an `--out-res` item is written with: the constant's name
      without its leading underscore. */
  function ResolutionItem(x: AssetResolution): (s: string)
    ensures |s| > 0 && ToUpper(s) == s && "_" + s == x.Name()
    ensures forall k :: 0 <= k < |s| ==> s[k] != ','
  {
    match x
    case R720P => "720P"
    case R1080P => "1080P"
    case R4K => "4K"
  }

  function ResolutionItems(rs: seq<AssetResolution>): (items: seq<string>)
    ensures |items| == |rs| && forall i :: 0 <= i < |rs| ==> items[i] == ResolutionItem(rs[i])
  {
    seq(|rs|, i requires 0 <= i < |rs| => ResolutionItem(rs[i]))
  }

  lemma ResolutionItemsRoundTrip(rs: seq<AssetResolution>)
    ensures ParseResolutionItems(ResolutionItems(rs)) == Ok(rs)
  {
    var items := ResolutionItems(rs);
    forall i | 0 <= i < |rs| ensures ParseResolutionItem(items[i]) == Ok(rs[i]) {
      assert "_" + ToUpper(items[i]) == rs[i].Name();
    }
    var r := ParseResolutionItems(items);
    assert r.Ok?;
    assert forall i :: 0 <= i < |rs| ==> r.value[i] == rs[i];
    assert r.value == rs;
  }

  /** A non-empty tier list written as `--out-res` reads back as itself. */
  lemma ResolutionsRoundTrip(rs: seq<AssetResolution>)
    requires |rs| > 0
    ensures ParseResolutions(Some(Join(ResolutionItems(rs), ","))) == Ok(rs)
  {
    SplitJoin(ResolutionItems(rs));
    ResolutionItemsRoundTrip(rs);
  }

  /** The parsers read back exactly what the printers write for the
      bundle: its base scale, and either boolean. Only scales with such a
      text (a Java float value, say) can be written and read back. */
  ghost predicate ReadsBack(b: AssetBundle, showFloat: real -> string, floats: string -> Option<real>,
                            showBool: bool -> string, bools: string -> Option<bool>) {
    && floats(showFloat(b.baseScale)) == Some(b.baseScale)
    && (forall v: bool :: bools(showBool(v)) == Some(v))
  }

  /** The options that reproduce a bundle. `--max-width` carries the
      bundle's maxHeight and `--max-height` its maxWidth. */
  function BundleOptions(b: AssetBundle, showFloat: real -> string, showBool: bool -> string): map<string, string> {
    var always := map["--scale" := showFloat(b.baseScale),
                      "--padding-x" := IntToString(b.paddingX), "--padding-y" := IntToString(b.paddingY),
                      "--shaded" := showBool(b.shaded), "--shrink" := showBool(!b.square),
                      "--grid" := showBool(b.grid),
                      "--max-width" := IntToString(b.maxHeight), "--max-height" := IntToString(b.maxWidth),
                      "--min-filter" := FilterName(b.minFilter), "--mag-filter" := FilterName(b.magFilter),
                      "--out-res" := Join(ResolutionItems(b.outRes), ",")];
    match b.atlasName
    case None => always
    case Some(name) => always["--atlas-name" := name]
  }

  /** A bundle written as a bundle-list line. */
  function FormatBundle(b: AssetBundle, showFloat: real -> string, showBool: bool -> string): ParsedLine {
    var pos := [b.bundleId, b.outPath] + b.basePaths;
    ParsedLine(Join(pos, " "), pos, BundleOptions(b, showFloat, showBool))
  }

  /** A bundle the line format can carry: at least one tier, 32-bit
      numbers, and an id that starts with a visible character other than
      the comment mark. */
  predicate Writable(b: AssetBundle) {
    && ValidBundle(b)
    && IsInt32(b.paddingX) && IsInt32(b.paddingY) && IsInt32(b.maxWidth) && IsInt32(b.maxHeight)
    && |b.bundleId| > 0 && b.bundleId[0] > ' ' && b.bundleId[0] != '#'
  }

  /** The options of a written bundle read back as the values they were
      written from: the tier list and the filters, */
  lemma NamesReadBack(b: AssetBundle, showFloat: real -> string, showBool: bool -> string)
    ensures var l := FormatBundle(b, showFloat, showBool);
            && Param(l, "--out-res") == Some(Join(ResolutionItems(b.outRes), ","))
            && Param(l, "--min-filter") == Some(FilterName(b.minFilter))
            && Param(l, "--mag-filter") == Some(FilterName(b.magFilter))
            && Param(l, "--atlas-name") == b.atlasName
  {
  }

  /** the scale and the switches, */
  lemma SwitchesReadBack(b: AssetBundle, showFloat: real -> string, showBool: bool -> string)
    ensures var l := FormatBundle(b, showFloat, showBool);
            && Param(l, "--scale") == Some(showFloat(b.baseScale))
            && Param(l, "--shaded") == Some(showBool(b.shaded))
            && Param(l, "--shrink") == Some(showBool(!b.square))
            && Param(l, "--grid") == Some(showBool(b.grid))
  {
  }

  /** and the sizes. */
  lemma SizesReadBack(b: AssetBundle, showFloat: real -> string, showBool: bool -> string)
    ensures var l := FormatBundle(b, showFloat, showBool);
            && Param(l, "--padding-x") == Some(IntToString(b.paddingX))
            && Param(l, "--padding-y") == Some(IntToString(b.paddingY))
            && Param(l, "--max-width") == Some(IntToString(b.maxHeight))
            && Param(l, "--max-height") == Some(IntToString(b.maxWidth))
  {
  }

  /** A line whose options hold the bundle's printed values. */
  predicate Carries(l: ParsedLine, b: AssetBundle, showFloat: real -> string, showBool: bool -> string) {
    && l.positional == [b.bundleId, b.outPath] + b.basePaths
    && Param(l, "--out-res") == Some(Join(ResolutionItems(b.outRes), ","))
    && Param(l, "--min-filter") == Some(FilterName(b.minFilter))
    && Param(l, "--mag-filter") == Some(FilterName(b.magFilter))
    && Param(l, "--atlas-name") == b.atlasName
    && Param(l, "--scale") == Some(showFloat(b.baseScale))
    && Param(l, "--shaded") == Some(showBool(b.shaded))
    && Param(l, "--shrink") == Some(showBool(!b.square))
    && Param(l, "--grid") == Some(showBool(b.grid))
    && Param(l, "--padding-x") == Some(IntToString(b.paddingX))
    && Param(l, "--padding-y") == Some(IntToString(b.paddingY))
    && Param(l, "--max-width") == Some(IntToString(b.maxHeight))
    && Param(l, "--max-height") == Some(IntToString(b.maxWidth))
  }

  /** Any line carrying a writable bundle reads back as that bundle. */
  lemma ReadBundleOfCarrier(l: ParsedLine, b: AssetBundle, showFloat: real -> string, floats: string -> Option<real>,
                            showBool: bool -> string, bools: string -> Option<bool>)
    requires Writable(b) && ReadsBack(b, showFloat, floats, showBool, bools)
    requires Carries(l, b, showFloat, showBool)
    ensures ReadBundle(l, floats, bools) == Ok(b)
  {
    ResolutionsRoundTrip(b.outRes);
    ParseIntToString(b.paddingX);
    ParseIntToString(b.paddingY);
    ParseIntToString(b.maxWidth);
    ParseIntToString(b.maxHeight);
    assert l.positional[2..] == b.basePaths;
  }

  /** Every writable bundle written as a line parses back to itself. */
  lemma FormatParseRoundTrip(b: AssetBundle, showFloat: real -> string, floats: string -> Option<real>,
                             showBool: bool -> string, bools: string -> Option<bool>)
    requires Writable(b) && ReadsBack(b, showFloat, floats, showBool, bools)
    ensures ParseBundle(FormatBundle(b, showFloat, showBool), floats, bools) == Some(b)
  {
    var l := FormatBundle(b, showFloat, showBool);
    VisibleJoinNotIgnored([b.bundleId, b.outPath] + b.basePaths);
    NamesReadBack(b, showFloat, showBool);
    SwitchesReadBack(b, showFloat, showBool);
    SizesReadBack(b, showFloat, showBool);
    ReadBundleOfCarrier(l, b, showFloat, floats, showBool, bools);
  }

  /** A bundle list written one bundle per line. */
  function FormatFile(bs: seq<AssetBundle>, showFloat: real -> string, showBool: bool -> string): (lines: seq<ParsedLine>)
    ensures |lines| == |bs|
    ensures forall i :: 0 <= i < |bs| ==> lines[i] == FormatBundle(bs[i], showFloat, showBool)
  {
    seq(|bs|, (i: int) requires 0 <= i < |bs| => FormatBundle(bs[i], showFloat, showBool))
  }

  /** A written bundle list parses back to the same bundles in the same
      order. */
  lemma ParseFileRoundTrip(bs: seq<AssetBundle>, showFloat: real -> string, floats: string -> Option<real>,
                           showBool: bool -> string, bools: string -> Option<bool>)
    requires forall i :: 0 <= i < |bs| ==> Writable(bs[i]) && ReadsBack(bs[i], showFloat, floats, showBool, bools)
    ensures ParseFile(FormatFile(bs, showFloat, showBool), floats, bools) == bs
  {
    var lines := FormatFile(bs, showFloat, showBool);
    forall i | 0 <= i < |lines| ensures BundleParser(floats, bools)(lines[i]) == Some(bs[i]) {
      FormatParseRoundTrip(bs[i], showFloat, floats, showBool, bools);
    }
    ParseLinesAll(lines, BundleParser(floats, bools), bs);
  }
}

=== FILE: cache.dfy ===
/** BundleCacheEntry: what the packer remembers about a bundle between runs
    (the time of its last pack and how many targets it had then) and its
    binary form. The byte encodings of a long and an int belong to a
    stream library outside this model, so they are parameters; the entry
    fixes only the order of its two fields. */
module BundleCache {
  import opened Wrappers

  type Byte = bv8

  const LONG_MIN: int := -0x8000_0000_0000_0000
  const LONG_MAX: int := 0x7FFF_FFFF_FFFF_FFFF
  const INT_MIN: int := -0x8000_0000
  const INT_MAX: int := 0x7FFF_FFFF

  predicate IsLong(v: int) { LONG_MIN <= v <= LONG_MAX }
  predicate IsInt(v: int) { INT_MIN <= v <= INT_MAX }

  datatype CacheEntry = CacheEntry(lastModification: int, lastTargetCount: int)

  /** The no-argument constructor: never packed, no targets. */
  const DefaultEntry: CacheEntry := CacheEntry(-1, 0)

  /** A field fits its Java type. */
  predicate ValidEntry(e: CacheEntry) {
    IsLong(e.lastModification) && IsInt(e.lastTargetCount)
  }

  /** An encoder writes a value's bytes; a decoder reads one value off the
      front of a byte string and returns the rest, None at a short read. */
  type Encoder = int -> seq<Byte>
  type Decoder = seq<Byte> -> Option<(int, seq<Byte>)>

  /** Decoding what was encoded gives the value back and leaves what
      followed untouched, for every value in range. */
  ghost predicate Inverse(enc: Encoder, dec: Decoder, inRange: int -> bool) {
    forall v: int, rest: seq<Byte> :: inRange(v) ==> dec(enc(v) + rest) == Some((v, rest))
  }

  /** writeTo: the long, then the int. */
  function WriteTo(e: CacheEntry, writeLong: Encoder, writeInt: Encoder): (r: seq<Byte>)
    ensures |r| == |writeLong(e.lastModification)| + |writeInt(e.lastTargetCount)|
    ensures r[..|writeLong(e.lastModification)|] == writeLong(e.lastModification)
    ensures r[|writeLong(e.lastModification)|..] == writeInt(e.lastTargetCount)
  {
    writeLong(e.lastModification) + writeInt(e.lastTargetCount)
  }

  /** readFrom: the long, then the int; a short read fails. */
  function ReadFrom(bytes: seq<Byte>, readLong: Decoder, readInt: Decoder): (r: Option<(CacheEntry, seq<Byte>)>)
    ensures r.Some? <==> readLong(bytes).Some? && readInt(readLong(bytes).value.1).Some?
  {
    match readLong(bytes)
    case None => None
    case Some((m, rest)) =>
      match readInt(rest)
      case None => None
      case Some((c, rest')) => Some((CacheEntry(m, c), rest'))
  }

  /** Reading back what writeTo wrote restores both fields and consumes
      exactly the entry's bytes, given inverse codecs. */
  lemma ReadAfterWrite(e: CacheEntry, rest: seq<Byte>,
                       writeLong: Encoder, readLong: Decoder, writeInt: Encoder, readInt: Decoder)
    requires ValidEntry(e)
    requires Inverse(writeLong, readLong, IsLong) && Inverse(writeInt, readInt, IsInt)
    ensures ReadFrom(WriteTo(e, writeLong, writeInt) + rest, readLong, readInt) == Some((e, rest))
  {
    var l := writeLong(e.lastModification);
    var i := writeInt(e.lastTargetCount);
    assert WriteTo(e, writeLong, writeInt) + rest == l + (i + rest);
    assert readLong(l + (i + rest)) == Some((e.lastModification, i + rest));
    assert readInt(i + rest) == Some((e.lastTargetCount, rest));
  }
}

=== FILE: cli.dfy ===
/** A line of a packing list or bundle list after tokenisation. The
    tokeniser (CLIUtil) is outside the model: a line arrives as its raw
    text, its positional arguments and its options, an option being
    present when it appears on the line. The number parsers the lists use
    for floats and booleans are outside it too and are parameters. */
module CliLine {
  import opened Wrappers
  import opened JavaString

  datatype ParsedLine = ParsedLine(raw: string, positional: seq<string>, options: map<string, string>)

  /** CLIUtil.getParamValue: the option's value, None when absent. */
  function Param(l: ParsedLine, key: string): (r: Option<string>)
    ensures r.Some? <==> key in l.options
    ensures r.Some? ==> r.value == l.options[key]
  {
    if key in l.options then Some(l.options[key]) else None
  }

  /** A flag is on when its option is present, whatever its value. */
  predicate Flag(l: ParsedLine, key: string) {
    key in l.options
  }

  /** Blank or whitespace-only lines and comment lines yield nothing. */
  predicate Ignored(raw: string) {
    Trim(raw) == "" || StartsWith(raw, "#")
  }

  /** tryParseInt: the default when the option is absent or not a number. */
  function TryParseInt(v: Option<string>, default: int): (r: int)
    ensures v.None? ==> r == default
    ensures v.Some? && ParseInt(v.value).Some? ==> r == ParseInt(v.value).value
    ensures v.Some? && ParseInt(v.value).None? ==> r == default
  {
    match v
    case None => default
    case Some(s) => match ParseInt(s) case Some(n) => n case None => default
  }

  /** The same for a parser given as a parameter (tryParseFloat,
      tryParseBoolean). */
  function TryParse<T>(v: Option<string>, parse: string -> Option<T>, default: T): (r: T)
    ensures v.None? ==> r == default
    ensures v.Some? && parse(v.value).Some? ==> r == parse(v.value).value
    ensures v.Some? && parse(v.value).None? ==> r == default
  {
    match v
    case None => default
    case Some(s) => match parse(s) case Some(x) => x case None => default
  }

  /** The stream of a list file: each line mapped, the lines that give
      nothing dropped, the rest kept in file order. */
  function ParseLines<T>(lines: seq<ParsedLine>, parse: ParsedLine -> Option<T>): (r: seq<T>)
    ensures |r| <= |lines|
    ensures forall x :: x in r ==> exists i :: 0 <= i < |lines| && parse(lines[i]) == Some(x)
    decreases |lines|
  {
    if |lines| == 0 then []
    else
      var rest := ParseLines(lines[1..], parse);
      assert forall i :: 1 <= i < |lines| ==> lines[i] == lines[1..][i - 1];
      ParseOne(lines[0], parse) + rest
  }

  /** What one line contributes: its value, or nothing. */
  function ParseOne<T>(line: ParsedLine, parse: ParsedLine -> Option<T>): (r: seq<T>)
    ensures |r| <= 1
    ensures forall x :: x in r ==> parse(line) == Some(x)
  {
    match parse(line) case Some(x) => [x] case None => []
  }

  /** Lines are parsed independently: a bad line costs only itself, and the
      results of two parts of a file are concatenated in order. */
  lemma {:induction false} ParseLinesAppend<T>(a: seq<ParsedLine>, b: seq<ParsedLine>, parse: ParsedLine -> Option<T>)
    ensures ParseLines(a + b, parse) == ParseLines(a, parse) + ParseLines(b, parse)
    decreases |a|
  {
    if |a| == 0 {
      assert a + b == b;
    } else {
      var head := ParseOne(a[0], parse);
      assert (a + b)[0] == a[0];
      assert (a + b)[1..] == a[1..] + b;
      assert ParseLines(a + b, parse) == head + ParseLines(a[1..] + b, parse);
      ParseLinesAppend(a[1..], b, parse);
      assert ParseLines(a, parse) == head + ParseLines(a[1..], parse);
    }
  }

  /** A file of one line gives that line's value, or nothing. */
  lemma ParseLinesSingle<T>(l: ParsedLine, parse: ParsedLine -> Option<T>)
    ensures ParseLines([l], parse) == if parse(l).Some? then [parse(l).value] else []
  {
    assert [l][1..] == [];
  }

  /** A line added at the end of a file adds exactly its own value, or
      nothing when it gives none. */
  lemma ParseLinesSnoc<T>(lines: seq<ParsedLine>, l: ParsedLine, parse: ParsedLine -> Option<T>)
    ensures ParseLines(lines + [l], parse)
            == ParseLines(lines, parse) + if parse(l).Some? then [parse(l).value] else []
  {
    ParseLinesAppend(lines, [l], parse);
    ParseLinesSingle(l, parse);
  }

  /** Lines that each give a value give exactly those values, in order:
      nothing is dropped, duplicated or reordered. */
  lemma {:induction false} ParseLinesAll<T>(lines: seq<ParsedLine>, parse: ParsedLine -> Option<T>, vals: seq<T>)
    requires |vals| == |lines|
    requires forall i :: 0 <= i < |lines| ==> parse(lines[i]) == Some(vals[i])
    ensures ParseLines(lines, parse) == vals
    decreases |lines|
  {
    if |lines| > 0 {
      var n := |lines| - 1;
      assert lines == lines[..n] + [lines[n]];
      ParseLinesSnoc(lines[..n], lines[n], parse);
      ParseLinesAll(lines[..n], parse, vals[..n]);
      assert vals == vals[..n] + [vals[n]];
    }
  }

  /** A line whose first character is visible is not blank. */
  lemma TrimNonEmpty(s: string)
    requires |s| > 0 && s[0] > ' '
    ensures Trim(s) != ""
  {
    assert TrimStart(s) == s;
    TrimEndKeeps(s, 0);
  }

  lemma {:induction false} TrimEndKeeps(s: string, i: nat)
    requires i < |s| && s[i] > ' '
    ensures |TrimEnd(s)| > i
    decreases |s|
  {
    if s[|s| - 1] <= ' ' {
      TrimEndKeeps(s[..|s| - 1], i);
    }
  }

  /** The text a line of positional arguments is written as. */
  lemma JoinStartsWithFirst(parts: seq<string>, sep: string)
    requires |parts| > 0
    ensures StartsWith(Join(parts, sep), parts[0])
  {
  }

  /** Words joined by spaces, the first starting with a visible character
      other than the comment mark, are not an ignored line. */
  lemma VisibleJoinNotIgnored(pos: seq<string>)
    requires |pos| > 0 && |pos[0]| > 0 && pos[0][0] > ' ' && pos[0][0] != '#'
    ensures !Ignored(Join(pos, " "))
  {
    var raw := Join(pos, " ");
    JoinStartsWithFirst(pos, " ");
    assert raw[0] == pos[0][0];
    TrimNonEmpty(raw);
  }
}

=== FILE: directory.dfy ===
/** DirectoryPackTarget: which files of a directory are staged, into which
    staging tree and under which name, which region names the target claims
    in `recurMatches`, its modification time, and the `has*Texture` probes.
    Paths are relative to the input directory. */
module DirectoryTargets {
  import opened Wrappers
  import opened JavaString
  import opened Domain
  import opened FileSystem
  import opened Naming

  // ---- selection ---------------------------------------------------------------

  /** The top-level child filter of DISABLED and SUB_DIRS_ONLY: DISABLED keeps
      files, SUB_DIRS_ONLY keeps directories. */
  predicate Selected(mode: RecursionMode, c: Node) {
    (mode == Disabled) != c.DirNode?
  }

  /** The files reached from the selected children of a directory, each
      selected child walked to the bottom. */
  function SelectedFiles(mode: RecursionMode, cs: seq<Node>, dir: string): seq<FileRef>
    decreases |cs|
  {
    if |cs| == 0 then []
    else (if Selected(mode, cs[0]) then Files(cs[0], dir) else []) + SelectedFiles(mode, cs[1..], dir)
  }

  /** The files `process` visits, in visiting order. ENABLED walks the path
      itself (a missing path is visited as a file of that name); the other
      modes list the directory, which fails like Java's null from
      listFiles() when the path is not a directory. */
  function CandidateFiles(root: Node, mode: RecursionMode, path: string): (r: Result<seq<FileRef>>)
    ensures r.Fail? <==> mode != Enabled && !IsDirectory(root, path)
    ensures r.Fail? ==> r.error == NullPointer
  {
    var segs := Segments(path);
    if mode == Enabled then
      match Lookup(root, segs)
      case None => Ok([FileRef(ParentPath(segs), segs[|segs| - 1], 0)])
      case Some(_) => Ok(FilesAt(root, path))
    else
      match ListFiles(root, path)
      case None => Fail(NullPointer)
      case Some(cs) => Ok(SelectedFiles(mode, cs, NodePath(segs)))
  }

  // ---- classification and staging -----------------------------------------------

  /** The prebuilt atlas whose presence makes an image part of an atlas
      target instead (every `.png` in the path becomes `.atlas`). */
  predicate Shadowed(root: Node, path: string) {
    Exists(root, Replace(path, ".png", ".atlas"))
  }

  /** The `_f.png` sibling that turns a plain `.png` into a preshaded image. */
  function FlatSibling(f: FileRef): string {
    JoinPath(f.dir, Replace(f.name, ".png", "_f.png"))
  }

  /** The staging tree of a file, from its name and whether its flat
      sibling exists; None for a file that is not a `.png`. */
  function Classify(name: string, flatSiblingExists: bool): (r: Option<TextureType>)
    ensures r.Some? <==> EndsWith(name, ".png")
    ensures r == Some(Normal) <==> EndsWith(name, "_n.png")
    ensures r == Some(Flat) <==>
              !EndsWith(name, "_n.png") && (EndsWith(name, "_f.png") || (EndsWith(name, ".png") && !flatSiblingExists))
    ensures r == Some(Preshaded) <==>
              EndsWith(name, ".png") && !EndsWith(name, "_n.png") && !EndsWith(name, "_f.png") && flatSiblingExists
  {
    EndsWithPart(name, "_n", ".png");
    EndsWithPart(name, "_f", ".png");
    if EndsWith(name, "_n.png") then Some(Normal)
    else if EndsWith(name, "_f.png") || (EndsWith(name, ".png") && !flatSiblingExists) then Some(Flat)
    else if EndsWith(name, ".png") && flatSiblingExists then Some(Preshaded)
    else None
  }

  /** A name ending in `a + b` ends in `b`. */
  lemma EndsWithPart(s: string, a: string, b: string)
    ensures EndsWith(s, a + b) ==> EndsWith(s, b)
  {
    if EndsWith(s, a + b) {
      assert s[|s| - |b|..] == s[|s| - |a + b|..][|a|..];
    }
  }

  /** A suffix of the tail is a suffix of the whole. */
  lemma EndsWithConcat(a: string, b: string, t: string)
    requires EndsWith(b, t)
    ensures EndsWith(a + b, t)
  {
    assert (a + b)[|a + b| - |t|..] == b[|b| - |t|..];
  }

  /** The staging name: relative name, flattened, markers dropped. */
  function StagingName(path: string, bases: seq<string>): string {
    StagingSuffix(Flatten(RelativeName(path, bases)))
  }

  /** What staging one visited file asks for, if anything. */
  function StageOf(root: Node, bases: seq<string>, f: FileRef, ext: Extents, scale: real): Option<StageAction> {
    if Shadowed(root, Path(f)) then None
    else match Classify(f.name, Exists(root, FlatSibling(f)))
      case None => None
      case Some(kind) => Some(StageImage(Path(f), kind, StagingName(Path(f), bases), ext, scale))
  }

  /** Staging every visited file in order; copying a file that is not there
      fails the whole target. */
  function StageAll(root: Node, bases: seq<string>, fs: seq<FileRef>, ext: Extents, scale: real): (r: Result<seq<StageAction>>)
    ensures r.Ok? <==> forall f :: f in fs && StageOf(root, bases, f, ext, scale).Some? ==> IsFile(root, Path(f))
    ensures r.Fail? ==> r.error.Io?
    ensures r.Ok? ==> forall a :: a in r.value <==>
              exists f :: f in fs && StageOf(root, bases, f, ext, scale) == Some(a)
    decreases |fs|
  {
    if |fs| == 0 then Ok([])
    else
      var first: Result<seq<StageAction>> :=
        match StageOf(root, bases, fs[0], ext, scale)
        case None => Ok([])
        case Some(a) => if IsFile(root, Path(fs[0])) then Ok([a]) else Fail(Io(Path(fs[0])));
      if first.Fail? then first
      else
        var rest := StageAll(root, bases, fs[1..], ext, scale);
        if rest.Fail? then rest else Ok(first.value + rest.value)
  }

  /** DirectoryPackTarget.process. */
  function Process(root: Node, bundle: AssetBundle, res: AssetResolution, mode: RecursionMode, path: string,
                   scale: real, noDownscale: bool, ext: Extents): (r: Result<seq<StageAction>>)
    ensures mode != Enabled && !IsDirectory(root, path) ==> r == Fail(NullPointer)
    ensures r.Ok? ==> forall a :: a in r.value ==> (
              && a.StageImage? && a.extents == ext
              && a.scale == ImageScale(bundle, scale, noDownscale, res)
              && a.name == StagingName(a.src, bundle.basePaths)
              && !Shadowed(root, a.src) && IsFile(root, a.src))
  {
    var fs :- CandidateFiles(root, mode, path);
    StageAll(root, bundle.basePaths, fs, ext, ImageScale(bundle, scale, noDownscale, res))
  }

  // ---- recurMatches -----------------------------------------------------------------

  /** What a match is asked about: the tree, the bundle's base paths, the pass's
      texture type and the region name. */
  datatype Query = Query(root: Node, bases: seq<string>, textureType: TextureType, name: string)

  /** The per-file tail of recurMatches, after the depth tests: no shadowing
      atlas, the `_n`/`_f` type filters on the relative path, then the name
      comparison. */
  predicate FileMatches(q: Query, path: string) {
    var rel := RelativeName(path, q.bases);
    && !Shadowed(q.root, path)
    && !(EndsWith(rel, "_n") && q.textureType != Normal)
    && !(EndsWith(rel, "_f") && q.textureType != Flat)
    && DirectoryMatchSuffix(Flatten(rel)) == q.name
  }

  /** The per-file test recurMatches applies at the leaves. The traversal is
      stated for any such test so that its proofs never look inside one. */
  type PathTest = string -> bool

  /** recurMatches on a node whose parent path is `dir`. */
  predicate RecurMatches(test: PathTest, mode: RecursionMode, n: Node, dir: string, depth: nat)
    decreases n, 1
  {
    if mode == Disabled && depth > 1 then false
    else match n
      case DirNode(nm, _, cs) => ForestMatches(test, mode, cs, JoinPath(dir, nm), depth + 1)
      case FileNode(nm, _) => !(mode == SubDirsOnly && depth == 1) && test(JoinPath(dir, nm))
  }

  /** The any-child loop of recurMatches. */
  predicate ForestMatches(test: PathTest, mode: RecursionMode, cs: seq<Node>, dir: string, depth: nat)
    decreases cs, 0
  {
    |cs| > 0 && (RecurMatches(test, mode, cs[0], dir, depth) || ForestMatches(test, mode, cs[1..], dir, depth))
  }

  /** recurMatches at depth 0 on the target's path (the input directory
      itself when the path is empty). */
  predicate MatchesFrom(root: Node, test: PathTest, mode: RecursionMode, path: string) {
    var segs := Segments(path);
    match Lookup(root, segs)
    case None => |segs| > 0 && test(NodePath(segs))
    case Some(n) =>
      if |segs| > 0 then RecurMatches(test, mode, n, ParentPath(segs), 0)
      else match n
        case DirNode(_, _, cs) => ForestMatches(test, mode, cs, "", 1)
        case FileNode(nm, _) => test(nm)
  }

  /** DirectoryPackTarget.matches. */
  predicate Matches(q: Query, mode: RecursionMode, path: string) {
    MatchesFrom(q.root, (p: string) => FileMatches(q, p), mode, path)
  }

  /** Some file of the list passes the test. */
  predicate AnyMatch(test: PathTest, fs: seq<FileRef>) {
    exists f :: f in fs && test(Path(f))
  }

  lemma AnyMatchAppend(test: PathTest, a: seq<FileRef>, b: seq<FileRef>)
    ensures AnyMatch(test, a + b) <==> AnyMatch(test, a) || AnyMatch(test, b)
  {
    if AnyMatch(test, a + b) {
      var f :| f in a + b && test(Path(f));
      assert f in a || f in b;
    }
    if AnyMatch(test, a) {
      var f :| f in a && test(Path(f));
      assert f in a + b;
    }
    if AnyMatch(test, b) {
      var f :| f in b && test(Path(f));
      assert f in a + b;
    }
  }

  lemma AnyMatchSingle(test: PathTest, f: FileRef)
    ensures AnyMatch(test, [f]) <==> test(Path(f))
  {
    if test(Path(f)) {
      assert f in [f];
    }
  }

  /** Where no depth test can fire (ENABLED, or below the first level of
      SUB_DIRS_ONLY), recurMatches asks exactly whether some file of the
      subtree passes the per-file test. */
  lemma {:induction false} RecurMatchesWalksAll(test: PathTest, mode: RecursionMode, n: Node, dir: string, depth: nat)
    requires mode == Enabled || (mode == SubDirsOnly && depth >= 2)
    ensures RecurMatches(test, mode, n, dir, depth) <==> AnyMatch(test, Files(n, dir))
    decreases n, 1
  {
    match n
    case FileNode(nm, m) =>
      assert Files(n, dir) == [FileRef(dir, nm, m)];
      AnyMatchSingle(test, FileRef(dir, nm, m));
    case DirNode(nm, _, cs) =>
      ForestMatchesWalksAll(test, mode, cs, JoinPath(dir, nm), depth + 1);
  }

  lemma {:induction false} ForestMatchesWalksAll(test: PathTest, mode: RecursionMode, cs: seq<Node>, dir: string, depth: nat)
    requires mode == Enabled || (mode == SubDirsOnly && depth >= 2)
    ensures ForestMatches(test, mode, cs, dir, depth) <==> AnyMatch(test, ForestFiles(cs, dir))
    decreases cs, 0
  {
    if |cs| > 0 {
      RecurMatchesWalksAll(test, mode, cs[0], dir, depth);
      ForestMatchesWalksAll(test, mode, cs[1..], dir, depth);
      AnyMatchAppend(test, Files(cs[0], dir), ForestFiles(cs[1..], dir));
    }
  }

  /** DISABLED matches nothing below depth 1. */
  lemma {:induction false} DisabledDeepForest(test: PathTest, cs: seq<Node>, dir: string, depth: nat)
    requires depth > 1
    ensures !ForestMatches(test, Disabled, cs, dir, depth)
    decreases |cs|
  {
    if |cs| > 0 {
      DisabledDeepForest(test, cs[1..], dir, depth);
    }
  }

  /** At depth 1, the children recurMatches accepts are exactly those the
      selection filter of `process` keeps. */
  lemma {:induction false} FirstLevelIsSelection(test: PathTest, mode: RecursionMode, cs: seq<Node>, dir: string)
    requires mode != Enabled
    ensures ForestMatches(test, mode, cs, dir, 1) <==> AnyMatch(test, SelectedFiles(mode, cs, dir))
    decreases |cs|
  {
    if |cs| > 0 {
      var c := cs[0];
      var own := if Selected(mode, c) then Files(c, dir) else [];
      FirstLevelIsSelection(test, mode, cs[1..], dir);
      AnyMatchAppend(test, own, SelectedFiles(mode, cs[1..], dir));
      match c
      case FileNode(nm, m) =>
        assert Files(c, dir) == [FileRef(dir, nm, m)];
        AnyMatchSingle(test, FileRef(dir, nm, m));
      case DirNode(nm, _, ccs) =>
        if mode == Disabled {
          DisabledDeepForest(test, ccs, JoinPath(dir, nm), 2);
        } else {
          ForestMatchesWalksAll(test, mode, ccs, JoinPath(dir, nm), 2);
        }
    }
  }

  /** recurMatches mirrors staging selection: whenever `process` can list
      the target, matching holds exactly when some file `process` visits
      passes the per-file test. */
  lemma MatchesFromMirrorsSelection(root: Node, test: PathTest, mode: RecursionMode, path: string)
    requires CandidateFiles(root, mode, path).Ok?
    ensures MatchesFrom(root, test, mode, path) <==> AnyMatch(test, CandidateFiles(root, mode, path).value)
  {
    var segs := Segments(path);
    var fs := CandidateFiles(root, mode, path).value;
    match Lookup(root, segs)
    case None =>
      assert fs == [FileRef(ParentPath(segs), segs[|segs| - 1], 0)];
      AnyMatchSingle(test, fs[0]);
    case Some(n) =>
      if mode == Enabled {
        if |segs| > 0 {
          RecurMatchesWalksAll(test, mode, n, ParentPath(segs), 0);
        } else if n.DirNode? {
          ForestMatchesWalksAll(test, mode, n.children, "", 1);
        } else {
          assert fs == [FileRef("", n.name, n.mtime)];
          AnyMatchSingle(test, fs[0]);
        }
      } else {
        assert n.DirNode?;
        if |segs| > 0 {
          assert JoinPath(ParentPath(segs), n.name) == NodePath(segs);
        }
        FirstLevelIsSelection(test, mode, n.children, NodePath(segs));
      }
  }

  /** The same for DirectoryPackTarget.matches itself. */
  lemma MatchesMirrorsSelection(q: Query, mode: RecursionMode, path: string)
    requires CandidateFiles(q.root, mode, path).Ok?
    ensures Matches(q, mode, path) <==>
              exists f :: f in CandidateFiles(q.root, mode, path).value && FileMatches(q, Path(f))
  {
    var test := (p: string) => FileMatches(q, p);
    MatchesFromMirrorsSelection(q.root, test, mode, path);
    assert AnyMatch(test, CandidateFiles(q.root, mode, path).value) <==>
           exists f :: f in CandidateFiles(q.root, mode, path).value && FileMatches(q, Path(f));
  }

  /** The `_n`/`_f` type filters test a path that still carries its
      extension, so they never fire for a `.png` file: such a file passes
      the per-file test for every texture type alike. */
  lemma PngIgnoresTypeFilter(q: Query, path: string)
    requires EndsWith(RelativeName(path, q.bases), ".png")
    ensures FileMatches(q, path) <==>
              !Shadowed(q.root, path) && DirectoryMatchSuffix(Flatten(RelativeName(path, q.bases))) == q.name
  {
    var rel := RelativeName(path, q.bases);
    assert rel[|rel| - 1] == 'g';
    assert !EndsWith(rel, "_n") && !EndsWith(rel, "_f");
  }

  /** For a texture file named stem + ending, staging puts it under
      stem + ".png" and matching claims the region stem for every type. */
  lemma StagedNameIsMatched(q: Query, path: string, stem: string, x: string)
    requires TextureStem(stem) && IsPngEnding(x)
    requires Flatten(RelativeName(path, q.bases)) == stem + x
    requires !Shadowed(q.root, path) && q.name == stem
    ensures StagingName(path, q.bases) == stem + ".png"
    ensures FileMatches(q, path)
  {
    var rel := RelativeName(path, q.bases);
    StagingSuffixOfStem(stem, x);
    DirectoryMatchSuffixOfStem(stem, x);
    assert EndsWith(x, ".png");
    EndsWithConcat(stem, x, ".png");
    FlattenKeepsPng(rel);
    PngIgnoresTypeFilter(q, path);
  }

  /** Flattening only rewrites '/', so the last four characters of a
      flattened path ending in a `.png` ending are the original ones. */
  lemma FlattenKeepsPng(rel: string)
    requires EndsWith(Flatten(rel), ".png")
    ensures EndsWith(rel, ".png")
  {
    var fl := Flatten(rel);
    assert |fl| == |rel|;
    var k := |rel| - 4;
    assert fl[k..] == ".png";
    forall i | 0 <= i < 4 ensures rel[k + i] == ".png"[i] {
      assert fl[k + i] == fl[k..][i] == ".png"[i];
      assert fl[k + i] == if rel[k + i] == '/' then '_' else rel[k + i];
      assert fl[k + i] != '_';
    }
    assert rel[k..] == ".png" by {
      forall i | 0 <= i < 4 ensures rel[k..][i] == ".png"[i] {
        assert rel[k..][i] == rel[k + i];
      }
    }
  }

  // ---- lastModified -------------------------------------------------------------------

  /** The max over the selected children's recursive times, starting at `acc`. */
  function SelectedMTime(mode: RecursionMode, cs: seq<Node>, acc: nat): (r: nat)
    ensures r >= acc
    decreases |cs|
  {
    if |cs| == 0 then acc
    else SelectedMTime(mode, cs[1..], if Selected(mode, cs[0]) then Max(acc, TreeMTime(cs[0])) else acc)
  }

  /** DirectoryPackTarget.lastModified. */
  function LastModified(root: Node, mode: RecursionMode, path: string): (r: Result<nat>)
    ensures r.Ok? <==> CandidateFiles(root, mode, path).Ok?
    ensures r.Ok? && mode != Enabled ==> r.value >= FileSystem.LastModified(root, path)
  {
    if mode == Enabled then Ok(RecursiveMTime(root, path))
    else match ListFiles(root, path)
      case None => Fail(NullPointer)
      case Some(cs) => Ok(SelectedMTime(mode, cs, FileSystem.LastModified(root, path)))
  }

  lemma {:induction false} SelectedMTimeBounds(mode: RecursionMode, cs: seq<Node>, dir: string, acc: nat)
    ensures forall f :: f in SelectedFiles(mode, cs, dir) ==> f.mtime <= SelectedMTime(mode, cs, acc)
    decreases |cs|
  {
    if |cs| > 0 {
      var acc' := if Selected(mode, cs[0]) then Max(acc, TreeMTime(cs[0])) else acc;
      TreeMTimeBoundsFiles(cs[0], dir);
      SelectedMTimeBounds(mode, cs[1..], dir, acc');
    }
  }

  /** The target's time is at least the time of every file `process` would
      stage, so editing any of them is seen by the bundle's skip test. */
  lemma LastModifiedCoversCandidates(root: Node, mode: RecursionMode, path: string)
    requires CandidateFiles(root, mode, path).Ok?
    ensures forall f :: f in CandidateFiles(root, mode, path).value ==>
              f.mtime <= LastModified(root, mode, path).value
  {
    var segs := Segments(path);
    match Lookup(root, segs)
    case None =>
    case Some(n) =>
      if mode == Enabled {
        if |segs| > 0 {
          TreeMTimeBoundsFiles(n, ParentPath(segs));
        } else if n.DirNode? {
          ForestMTimeBoundsFiles(n.children, "", n.mtime);
        }
      } else {
        SelectedMTimeBounds(mode, n.children, NodePath(segs), FileSystem.LastModified(root, path));
      }
  }

  // ---- has*Texture ---------------------------------------------------------------------

  /** hasFlatTexture: some `.png` of the whole subtree that is not a normal map. */
  predicate HasFlat(root: Node, path: string) {
    exists f :: f in FilesAt(root, path) && EndsWith(f.name, ".png") && !EndsWith(f.name, "_n.png")
  }

  /** hasNormalTexture: some `_n.png` of the whole subtree. */
  predicate HasNormal(root: Node, path: string) {
    exists f :: f in FilesAt(root, path) && EndsWith(f.name, "_n.png")
  }

  /** hasPreshadedTexture: some plain `.png` of the whole subtree with a flat sibling. */
  predicate HasPreshaded(root: Node, path: string) {
    exists f :: f in FilesAt(root, path) && EndsWith(f.name, ".png") && !EndsWith(f.name, "_f.png")
                && !EndsWith(f.name, "_n.png") && Exists(root, FlatSibling(f))
  }

  lemma {:induction false} SelectedWithinForest(mode: RecursionMode, cs: seq<Node>, dir: string)
    ensures forall f :: f in SelectedFiles(mode, cs, dir) ==> f in ForestFiles(cs, dir)
    decreases |cs|
  {
    if |cs| > 0 {
      SelectedWithinForest(mode, cs[1..], dir);
    }
  }

  /** Every file `process` visits on an existing path lies in the subtree
      the `has*` probes inspect. */
  lemma CandidatesWithinSubtree(root: Node, mode: RecursionMode, path: string)
    requires CandidateFiles(root, mode, path).Ok? && Exists(root, path)
    ensures forall f :: f in CandidateFiles(root, mode, path).value ==> f in FilesAt(root, path)
  {
    if mode != Enabled {
      var segs := Segments(path);
      var n := Lookup(root, segs).value;
      SelectedWithinForest(mode, n.children, NodePath(segs));
      if |segs| > 0 {
        assert JoinPath(ParentPath(segs), n.name) == NodePath(segs);
      }
    }
  }

  /** A file staged into a tree is seen by that tree's `has*` probe, so the
      missing-output test inspects every atlas a pass would write. */
  lemma StagedKindIsProbed(root: Node, bases: seq<string>, mode: RecursionMode, path: string,
                           f: FileRef, ext: Extents, scale: real)
    requires CandidateFiles(root, mode, path).Ok? && Exists(root, path)
    requires f in CandidateFiles(root, mode, path).value
    requires StageOf(root, bases, f, ext, scale).Some?
    ensures StageOf(root, bases, f, ext, scale).value.kind == Flat ==> HasFlat(root, path)
    ensures StageOf(root, bases, f, ext, scale).value.kind == Normal ==> HasNormal(root, path)
    ensures StageOf(root, bases, f, ext, scale).value.kind == Preshaded ==> HasPreshaded(root, path)
  {
    CandidatesWithinSubtree(root, mode, path);
  }
}

=== FILE: domain.dfy ===
/** The enumerations and immutable records every component shares:
    texture types, recursion modes, resolution tiers, texture filters and
    asset bundles. */
module Domain {
  import opened Wrappers
  import opened JavaString

  /** Which staging tree and output atlas an image belongs to. */
  datatype TextureType = Flat | Normal | Preshaded

  function TextureTypeName(t: TextureType): string {
    match t
    case Flat => "FLAT"
    case Normal => "NORMAL"
    case Preshaded => "PRESHADED"
  }

  /** TextureType.valueOf(s.toUpperCase(Locale.ROOT)). */
  function ParseTextureType(s: string): (r: Result<TextureType>)
    ensures forall t: TextureType :: r == Ok(t) <==> ToUpper(s) == TextureTypeName(t)
    ensures r.Fail? ==> r.error.IllegalArgument?
  {
    var u := ToUpper(s);
    if u == "FLAT" then Ok(Flat)
    else if u == "NORMAL" then Ok(Normal)
    else if u == "PRESHADED" then Ok(Preshaded)
    else Fail(IllegalArgument(s))
  }

  /** How a directory target walks its directory. */
  datatype RecursionMode = Enabled | Disabled | SubDirsOnly

  function RecursionModeName(m: RecursionMode): string {
    match m
    case Enabled => "ENABLED"
    case Disabled => "DISABLED"
    case SubDirsOnly => "SUB_DIRS_ONLY"
  }

  /** PackingList.tryParseRecursionMode: an absent value or one that names
      no constant after upper-casing and mapping `-` to `_` gives the default. */
  function TryParseRecursionMode(input: Option<string>, default: RecursionMode): (r: RecursionMode)
    ensures input.None? ==> r == default
    ensures input.Some? ==> forall m: RecursionMode ::
              ReplaceChar(ToUpper(input.value), '-', '_') == RecursionModeName(m) ==> r == m
    ensures input.Some? && r != default ==>
              ReplaceChar(ToUpper(input.value), '-', '_') == RecursionModeName(r)
  {
    match input
    case None => default
    case Some(s) =>
      var key := ReplaceChar(ToUpper(s), '-', '_');
      if key == "ENABLED" then Enabled
      else if key == "DISABLED" then Disabled
      else if key == "SUB_DIRS_ONLY" then SubDirsOnly
      else default
  }

  /** The three output tiers, lowest first. */
  datatype AssetResolution = R720P | R1080P | R4K {
    /** Output directory under the asset root. */
    function Directory(): string {
      match this
      case R720P => "gfx_720"
      case R1080P => "gfx_1080"
      case R4K => "gfx"
    }
    /** Default maximum atlas page size. */
    function AtlasMaxSize(): int {
      match this
      case R720P => 2048
      case R1080P => 4096
      case R4K => 8192
    }
    /** Scale relative to the 4K source art. */
    function Scale(): real {
      match this
      case R720P => 1.0 / 3.0
      case R1080P => 0.5
      case R4K => 1.0
    }
    function Name(): string {
      match this
      case R720P => "_720P"
      case R1080P => "_1080P"
      case R4K => "_4K"
    }
  }

  /** AssetResolution.values: the tiers in declaration order. Scales
      strictly increase, the top tier has scale 1, page sizes and
      directory names are pairwise distinct. */
  function AllResolutions(): (r: seq<AssetResolution>)
    ensures |r| == 3
    ensures forall i, j :: 0 <= i < j < |r| ==> r[i].Scale() < r[j].Scale()
    ensures forall i, j :: 0 <= i < j < |r| ==> r[i].AtlasMaxSize() < r[j].AtlasMaxSize()
    ensures forall i, j :: 0 <= i < j < |r| ==> r[i].Directory() != r[j].Directory()
    ensures r[|r| - 1].Scale() == 1.0
  {
    [R720P, R1080P, R4K]
  }

  /** AssetResolution.valueOf. */
  function ParseResolution(s: string): (r: Result<AssetResolution>)
    ensures forall x: AssetResolution :: r == Ok(x) <==> s == x.Name()
  {
    if s == "_720P" then Ok(R720P)
    else if s == "_1080P" then Ok(R1080P)
    else if s == "_4K" then Ok(R4K)
    else Fail(IllegalArgument(s))
  }

  /** libGDX Texture.TextureFilter. */
  datatype TextureFilter =
    | Nearest | Linear | MipMap
    | MipMapNearestNearest | MipMapLinearNearest | MipMapNearestLinear | MipMapLinearLinear

  function FilterName(f: TextureFilter): string {
    match f
    case Nearest => "Nearest"
    case Linear => "Linear"
    case MipMap => "MipMap"
    case MipMapNearestNearest => "MipMapNearestNearest"
    case MipMapLinearNearest => "MipMapLinearNearest"
    case MipMapNearestLinear => "MipMapNearestLinear"
    case MipMapLinearLinear => "MipMapLinearLinear"
  }

  /** TextureFilter.valueOf: case-sensitive constant names. */
  function ParseFilter(s: string): (r: Result<TextureFilter>)
    ensures forall f: TextureFilter :: r == Ok(f) <==> s == FilterName(f)
  {
    if s == "Nearest" then Ok(Nearest)
    else if s == "Linear" then Ok(Linear)
    else if s == "MipMap" then Ok(MipMap)
    else if s == "MipMapNearestNearest" then Ok(MipMapNearestNearest)
    else if s == "MipMapLinearNearest" then Ok(MipMapLinearNearest)
    else if s == "MipMapNearestLinear" then Ok(MipMapNearestLinear)
    else if s == "MipMapLinearLinear" then Ok(MipMapLinearLinear)
    else Fail(IllegalArgument(s))
  }

  /** A named group of assets packed together. `maxWidth`/`maxHeight` of -1
      mean "use the tier's page size"; an absent `atlasName` means the atlas
      name is derived. All fields are final in the source. */
  datatype AssetBundle = AssetBundle(
    bundleId: string,
    shaded: bool,
    square: bool,
    grid: bool,
    baseScale: real,
    paddingX: int,
    paddingY: int,
    maxWidth: int,
    maxHeight: int,
    minFilter: TextureFilter,
    magFilter: TextureFilter,
    atlasName: Option<string>,
    outRes: seq<AssetResolution>,
    outPath: string,
    basePaths: seq<string>)

  /** The AssetBundle constructor: it refuses an empty resolution list and
      otherwise stores every argument unchanged. */
  function MakeBundle(
    bundleId: string, shaded: bool, square: bool, grid: bool, baseScale: real,
    paddingX: int, paddingY: int, maxWidth: int, maxHeight: int,
    minFilter: TextureFilter, magFilter: TextureFilter, atlasName: Option<string>,
    outRes: seq<AssetResolution>, outPath: string, basePaths: seq<string>): (r: Result<AssetBundle>)
    ensures r.Ok? <==> |outRes| > 0
    ensures r.Fail? ==> r.error.IllegalArgument?
    ensures r.Ok? ==> (
              && r.value.bundleId == bundleId && r.value.outRes == outRes
              && r.value.outPath == outPath && r.value.basePaths == basePaths
              && r.value.shaded == shaded && r.value.square == square && r.value.grid == grid
              && r.value.paddingX == paddingX && r.value.paddingY == paddingY
              && r.value.maxWidth == maxWidth && r.value.maxHeight == maxHeight
              && r.value.minFilter == minFilter && r.value.magFilter == magFilter
              && r.value.atlasName == atlasName && r.value.baseScale == baseScale)
  {
    if |outRes| == 0 then Fail(IllegalArgument("outRes"))
    else Ok(AssetBundle(bundleId, shaded, square, grid, baseScale, paddingX, paddingY,
                        maxWidth, maxHeight, minFilter, magFilter, atlasName,
                        outRes, outPath, basePaths))
  }

  /** Every bundle built by MakeBundle has at least one output tier. */
  predicate ValidBundle(b: AssetBundle) {
    |b.outRes| > 0
  }

  /** Pixels of edge replication added around an image before packing. */
  datatype Extents = Extents(left: int, right: int, top: int, bottom: int)

  const NoExtents: Extents := Extents(0, 0, 0, 0)

  predicate NonNegative(e: Extents) {
    e.left >= 0 && e.right >= 0 && e.top >= 0 && e.bottom >= 0
  }

  /** What a pack target asks of the staging step: an image copied into the
      staging directory of `kind` under `name`, then extended and rescaled;
      or a plain file copied to its final destination. */
  datatype StageAction =
    | StageImage(src: string, kind: TextureType, name: string, extents: Extents, scale: real)
    | CopyFile(src: string, dest: string)

  /** The factor a staged image is resampled by: the bundle's base scale
      times the target's scale times the tier's scale, the last one left out
      for `--nodownscale` targets (float arithmetic taken as exact). */
  function ImageScale(bundle: AssetBundle, scale: real, noDownscale: bool, res: AssetResolution): real {
    bundle.baseScale * scale * (if noDownscale then 1.0 else res.Scale())
  }

  lemma TextureTypeNameRoundTrip(t: TextureType)
    ensures ParseTextureType(TextureTypeName(t)) == Ok(t)
  {
    var n := TextureTypeName(t);
    assert ToUpper(n) == n;
  }
}

=== FILE: downscalator.dfy ===
/** Downscalator: resizes the 4K source art under client/assets/gfx_src
    into each tier's directory, for the files its list names, and
    remembers per output file when it last did so. The file tree is a
    FileSystem node; whether an output exists, what ImageIO reads and
    whether the write succeeds are parameters, and so is the clock. */
module Downscalator {
  import opened Wrappers
  import opened JavaString
  import opened Domain
  import opened CliLine
  import opened FileSystem

  /** DownscalatorEntry: a listed path, resized for every tier unless the
      line says `--nodownscale`, in which case it is copied at 4K only. */
  datatype Entry = Entry(path: string, doDownscale: bool)

  /** One list line; a line without a positional throws, and the exception
      ends the run. */
  function ReadEntry(l: ParsedLine): (r: Result<Entry>)
    ensures r.Fail? <==> |l.positional| == 0
    ensures r.Fail? ==> r.error == IndexOutOfBounds
    ensures r.Ok? ==> r.value.path == l.positional[0] && (r.value.doDownscale <==> !Flag(l, "--nodownscale"))
  {
    if |l.positional| == 0 then Fail(IndexOutOfBounds)
    else Ok(Entry(l.positional[0], !Flag(l, "--nodownscale")))
  }

  /** The whole list, in file order; blank and comment lines are not
      skipped here. */
  function ReadEntries(lines: seq<ParsedLine>): (r: Result<seq<Entry>>)
    ensures r.Ok? <==> forall i :: 0 <= i < |lines| ==> ReadEntry(lines[i]).Ok?
    ensures r.Ok? ==> |r.value| == |lines| && forall i :: 0 <= i < |lines| ==> ReadEntry(lines[i]) == Ok(r.value[i])
    ensures r.Fail? ==> r.error == IndexOutOfBounds
    decreases |lines|
  {
    if |lines| == 0 then Ok([])
    else
      match ReadEntry(lines[0])
      case Fail(e) => Fail(e)
      case Ok(x) =>
        match ReadEntries(lines[1..])
        case Fail(e) =>
          assert exists i :: 0 <= i < |lines[1..]| && ReadEntry(lines[1..][i]).Fail?;
          Fail(e)
        case Ok(rest) =>
          assert forall i :: 1 <= i < |lines| ==> lines[i] == lines[1..][i - 1];
          Ok([x] + rest)
  }

  // ---- matching --------------------------------------------------------------------------

  /** The `**` rule: the input starts with what precedes the first `**` and
      ends with what follows the last one. */
  predicate WildcardMatch(path: string, input: string) {
    match IndexOf(path, "**")
    case None => false
    case Some(first) =>
      match LastIndexOf(path, "**")
      case None => false
      case Some(last) => StartsWith(input, path[..first]) && EndsWith(input, path[last + 2..])
  }

  /** One entry against a path relative to gfx_src. The prefix test runs
      from the entry to the input: an entry matches every input it starts
      with. A trailing `*` matches every input starting with what precedes
      it. */
  predicate EntryMatches(path: string, input: string) {
    || path == input
    || StartsWith(path, input)
    || (EndsWith(path, "*") && StartsWith(input, path[..|path| - 1]))
    || WildcardMatch(path, input)
  }

  /** matchAnyPath: the first entry that matches, None when none does. */
  function MatchAnyPath(paths: seq<Entry>, input: string): (r: Option<Entry>)
    ensures r.None? <==> forall i :: 0 <= i < |paths| ==> !EntryMatches(paths[i].path, input)
    ensures r.Some? ==> exists i :: 0 <= i < |paths| && paths[i] == r.value && EntryMatches(paths[i].path, input)
                                    && forall j :: 0 <= j < i ==> !EntryMatches(paths[j].path, input)
    decreases |paths|
  {
    if |paths| == 0 then None
    else if EntryMatches(paths[0].path, input) then Some(paths[0])
    else
      var r := MatchAnyPath(paths[1..], input);
      assert forall i :: 1 <= i < |paths| ==> paths[i] == paths[1..][i - 1];
      if r.Some? then
        var i :| 0 <= i < |paths[1..]| && paths[1..][i] == r.value && EntryMatches(paths[1..][i].path, input)
                 && forall j :: 0 <= j < i ==> !EntryMatches(paths[1..][j].path, input);
        assert paths[i + 1] == r.value;
        r
      else r
  }

  /** An entry made of a directory, a slash and a star claims every file
      below that directory. */
  lemma StarClaimsSubtree(dir: string, rest: string)
    ensures EntryMatches(dir + "/*", dir + "/" + rest)
  {
    var p := dir + "/*";
    assert EndsWith(p, "*");
    assert p[..|p| - 1] == dir + "/";
    assert (dir + "/" + rest)[..|dir + "/"|] == dir + "/";
  }

  // ---- one file ----------------------------------------------------------------------------

  /** Math.round on a float: the nearest integer, halves rounded up. */
  function Round(x: real): (r: int)
    ensures r as real <= x + 0.5 < r as real + 1.0
  {
    (x + 0.5).Floor
  }

  datatype Size = Size(width: nat, height: nat)

  /** Rounding a non-negative number gives a size. */
  function RoundSize(x: real): (r: nat)
    requires x >= 0.0
    ensures r == Round(x)
  {
    Round(x)
  }

  /** What the tool sees of the world: whether an output file exists,
      the size of the image ImageIO reads from a source (None when it is
      not an image), and whether resizing and writing an output succeeds. */
  datatype World = World(outExists: string -> bool, image: string -> Option<Size>, writes: string -> bool)

  /** The output file of a source at a tier: the same relative path under
      the tier's directory next to gfx_src. */
  function OutPath(res: AssetResolution, relative: string): string {
    JoinPath(JoinPath("client/assets", res.Directory()), relative)
  }

  datatype Outcome =
    | NotListed          // no entry matches
    | FourKOnly          // a --nodownscale entry, at a lower tier
    | NotPng
    | UpToDate           // resized since its last change, and still there
    | NotImage           // ImageIO returns null
    | Failed             // an exception inside the try block
    | Resized(size: Size)

  datatype Step = Step(outcome: Outcome, cache: map<string, int>)

  /** The last resize time remembered for an output, -1 when none. */
  function LastDownscale(cache: map<string, int>, out: string): int {
    if out in cache then cache[out] else -1
  }

  /** The size a source of `s` pixels is resized to at a tier. */
  function TierSize(s: Size, res: AssetResolution): Size {
    Size(RoundSize(s.width as real * res.Scale()), RoundSize(s.height as real * res.Scale()))
  }

  /** A file the tier is asked to produce: some entry lists it, and it
      is not a --nodownscale entry's file below 4K. */
  predicate Wanted(paths: seq<Entry>, res: AssetResolution, f: FileRef) {
    MatchAnyPath(paths, Path(f)).Some? && (MatchAnyPath(paths, Path(f)).value.doDownscale || res == R4K)
  }

  /** A `.png` whose output is missing, or older than the source by the
      cache. */
  predicate Stale(res: AssetResolution, f: FileRef, cache: map<string, int>, w: World) {
    EndsWith(f.name, ".png")
    && !(LastDownscale(cache, OutPath(res, Path(f))) >= f.mtime && w.outExists(OutPath(res, Path(f))))
  }

  /** process, for a non-directory file. */
  function ProcessFile(paths: seq<Entry>, res: AssetResolution, f: FileRef, cache: map<string, int>, w: World, now: int)
    : (r: Step)
    ensures var out := OutPath(res, Path(f));
            r.cache == if r.outcome.Resized? then cache[out := now] else cache
    ensures r.outcome == NotListed <==> MatchAnyPath(paths, Path(f)).None?
    ensures r.outcome == FourKOnly <==> MatchAnyPath(paths, Path(f)).Some? && !MatchAnyPath(paths, Path(f)).value.doDownscale && res != R4K
    ensures r.outcome == NotPng <==> Wanted(paths, res, f) && !EndsWith(f.name, ".png")
    ensures r.outcome == UpToDate <==>
              && Wanted(paths, res, f) && EndsWith(f.name, ".png")
              && LastDownscale(cache, OutPath(res, Path(f))) >= f.mtime && w.outExists(OutPath(res, Path(f)))
    ensures r.outcome == NotImage <==> Wanted(paths, res, f) && Stale(res, f, cache, w) && w.image(Path(f)).None?
    ensures r.outcome == Failed <==>
              Wanted(paths, res, f) && Stale(res, f, cache, w) && w.image(Path(f)).Some? && !w.writes(OutPath(res, Path(f)))
    ensures r.outcome.Resized? <==>
              Wanted(paths, res, f) && Stale(res, f, cache, w) && w.image(Path(f)).Some? && w.writes(OutPath(res, Path(f)))
    ensures r.outcome.Resized? ==> r.outcome.size == TierSize(w.image(Path(f)).value, res)
  {
    var relative := Path(f);
    match MatchAnyPath(paths, relative)
    case None => Step(NotListed, cache)
    case Some(entry) =>
      if !entry.doDownscale && res != R4K then Step(FourKOnly, cache)
      else if !EndsWith(f.name, ".png") then Step(NotPng, cache)
      else
        var out := OutPath(res, relative);
        if LastDownscale(cache, out) >= f.mtime && w.outExists(out) then Step(UpToDate, cache)
        else match w.image(relative)
          case None => Step(NotImage, cache)
          case Some(s) =>
            if !w.writes(out) then Step(Failed, cache)
            else Step(Resized(TierSize(s, res)), cache[out := now])
  }

  // ---- a tier and a run -------------------------------------------------------------------

  datatype Run = Run(outcomes: seq<Outcome>, cache: map<string, int>)

  /** What processing one file does, given the cache the files before it
      left. */
  type Processor = (FileRef, map<string, int>) -> Step

  /** A processor that stamps the output of a file it resizes with the clock
      `now` and leaves the cache alone otherwise. */
  ghost predicate Stamps(process: Processor, res: AssetResolution, now: int) {
    forall f, c :: process(f, c).cache == if process(f, c).outcome.Resized? then c[OutPath(res, Path(f)) := now] else c
  }

  /** Files processed in listing order, the cache threaded through. */
  function Thread(process: Processor, files: seq<FileRef>, cache: map<string, int>): (r: Run)
    ensures |r.outcomes| == |files|
    decreases |files|
  {
    if |files| == 0 then Run([], cache)
    else
      var before := Thread(process, files[..|files| - 1], cache);
      var step := process(files[|files| - 1], before.cache);
      Run(before.outcomes + [step.outcome], step.cache)
  }

  /** The processing of one tier. */
  function Processing(paths: seq<Entry>, res: AssetResolution, w: World, now: int): Processor {
    (f, c) => ProcessFile(paths, res, f, c, w, now)
  }

  lemma ProcessingStamps(paths: seq<Entry>, res: AssetResolution, w: World, now: int)
    ensures Stamps(Processing(paths, res, w, now), res, now)
  {
  }

  /** A run only stamps entries with its clock: every key survives, and
      every entry either keeps its time or carries the run's clock. */
  lemma {:induction false} ThreadStamps(process: Processor, res: AssetResolution, now: int,
                                        files: seq<FileRef>, cache: map<string, int>)
    requires Stamps(process, res, now)
    ensures var r := Thread(process, files, cache);
            && cache.Keys <= r.cache.Keys
            && forall k :: k in r.cache ==> (k in cache && r.cache[k] == cache[k]) || r.cache[k] == now
    decreases |files|
  {
    if |files| > 0 {
      var last := files[|files| - 1];
      var before := Thread(process, files[..|files| - 1], cache);
      ThreadStamps(process, res, now, files[..|files| - 1], cache);
      var step := process(last, before.cache);
      assert step.cache == if step.outcome.Resized? then before.cache[OutPath(res, Path(last)) := now] else before.cache;
      assert Thread(process, files, cache).cache == step.cache;
    }
  }

  /** Every outcome of a run is the processing of its file on the cache
      the files before it left. */
  lemma ThreadOutcomes(process: Processor, files: seq<FileRef>, cache: map<string, int>)
    ensures forall i :: 0 <= i < |files| ==>
              Thread(process, files, cache).outcomes[i] == process(files[i], Thread(process, files[..i], cache).cache).outcome
  {
    forall i | 0 <= i < |files|
      ensures Thread(process, files, cache).outcomes[i] == process(files[i], Thread(process, files[..i], cache).cache).outcome
    {
      ThreadOutcomeAt(process, files, cache, i);
    }
  }

  /** The files of gfx_src processed in listing order for one tier, the
      cache threaded from each file to the next. */
  function TierRun(paths: seq<Entry>, res: AssetResolution, files: seq<FileRef>, cache: map<string, int>, w: World, now: int)
    : (r: Run)
    ensures |r.outcomes| == |files|
    ensures cache.Keys <= r.cache.Keys
    ensures r == Thread(Processing(paths, res, w, now), files, cache)
  {
    ProcessingStamps(paths, res, w, now);
    ThreadStamps(Processing(paths, res, w, now), res, now, files, cache);
    Thread(Processing(paths, res, w, now), files, cache)
  }

  /** In a tier run, file i is processed on the cache the files before it
      left, and the tier leaves the cache the last file left. */
  lemma TierRunSteps(paths: seq<Entry>, res: AssetResolution, files: seq<FileRef>, cache: map<string, int>, w: World, now: int)
    ensures var r := TierRun(paths, res, files, cache, w, now);
            forall i :: 0 <= i < |files| ==>
              r.outcomes[i] == ProcessFile(paths, res, files[i], TierRun(paths, res, files[..i], cache, w, now).cache, w, now).outcome
    ensures |files| == 0 ==> TierRun(paths, res, files, cache, w, now).cache == cache
    ensures |files| > 0 ==>
              var last := |files| - 1;
              TierRun(paths, res, files, cache, w, now).cache
              == ProcessFile(paths, res, files[last], TierRun(paths, res, files[..last], cache, w, now).cache, w, now).cache
  {
    ThreadOutcomes(Processing(paths, res, w, now), files, cache);
  }

  /** Running two runs of files one after the other is running their
      concatenation. */
  lemma {:induction false} ThreadAppend(process: Processor, a: seq<FileRef>, b: seq<FileRef>, cache: map<string, int>)
    ensures var ra := Thread(process, a, cache);
            var rb := Thread(process, b, ra.cache);
            Thread(process, a + b, cache) == Run(ra.outcomes + rb.outcomes, rb.cache)
    decreases |b|
  {
    var ra := Thread(process, a, cache);
    if |b| == 0 {
      assert a + b == a;
      assert ra.outcomes + [] == ra.outcomes;
    } else {
      var front := b[..|b| - 1];
      var rf := Thread(process, front, ra.cache);
      var step := process(b[|b| - 1], rf.cache);
      assert Thread(process, b, ra.cache) == Run(rf.outcomes + [step.outcome], step.cache);
      assert (a + b)[..|a + b| - 1] == a + front;
      assert (a + b)[|a + b| - 1] == b[|b| - 1];
      ThreadAppend(process, a, front, cache);
      assert Thread(process, a + front, cache) == Run(ra.outcomes + rf.outcomes, rf.cache);
      assert Thread(process, a + b, cache) == Run((ra.outcomes + rf.outcomes) + [step.outcome], step.cache);
      assert (ra.outcomes + rf.outcomes) + [step.outcome] == ra.outcomes + (rf.outcomes + [step.outcome]);
    }
  }

  /** The outcome of the i-th file is the processing of that file on the
      cache the files before it left. */
  lemma ThreadOutcomeAt(process: Processor, files: seq<FileRef>, cache: map<string, int>, i: nat)
    requires i < |files|
    ensures Thread(process, files, cache).outcomes[i] == process(files[i], Thread(process, files[..i], cache).cache).outcome
  {
    var pre := files[..i + 1];
    assert files == pre + files[i + 1..];
    assert pre[..i] == files[..i] && pre[i] == files[i];
    ThreadAppend(process, pre, files[i + 1..], cache);
  }

  /** A cache entry at least `t` stays so through a run whose clock reads
      at least `t`. */
  lemma FreshStays(process: Processor, res: AssetResolution, now: int, files: seq<FileRef>, cache: map<string, int>,
                   k: string, t: int)
    requires Stamps(process, res, now)
    requires LastDownscale(cache, k) >= t && now >= t
    ensures LastDownscale(Thread(process, files, cache).cache, k) >= t
  {
    ThreadStamps(process, res, now, files, cache);
  }

  /** Right after a file is resized, its output carries the run's clock. */
  lemma StampedAt(process: Processor, res: AssetResolution, now: int, files: seq<FileRef>, cache: map<string, int>, i: nat)
    requires Stamps(process, res, now)
    requires i < |files|
    requires process(files[i], Thread(process, files[..i], cache).cache).outcome.Resized?
    ensures LastDownscale(Thread(process, files[..i + 1], cache).cache, OutPath(res, Path(files[i]))) == now
  {
    var pre := files[..i + 1];
    assert pre[..i] == files[..i] && pre[i] == files[i];
    var c := Thread(process, files[..i], cache).cache;
    var step := process(files[i], c);
    assert step.cache == c[OutPath(res, Path(files[i])) := now];
    assert Thread(process, pre, cache).cache == step.cache;
  }

  /** A file resized in a run leaves its output's time at the run's clock
      or later. */
  lemma ResizedIsFresh(process: Processor, res: AssetResolution, now: int, files: seq<FileRef>, cache: map<string, int>, i: nat)
    requires Stamps(process, res, now)
    requires i < |files|
    requires Thread(process, files, cache).outcomes[i].Resized?
    ensures LastDownscale(Thread(process, files, cache).cache, OutPath(res, Path(files[i]))) >= now
  {
    var out := OutPath(res, Path(files[i]));
    var pre := files[..i + 1];
    ThreadOutcomeAt(process, files, cache, i);
    StampedAt(process, res, now, files, cache, i);
    var mid := Thread(process, pre, cache);
    var post := files[i + 1..];
    assert files == pre + post;
    ThreadAppend(process, pre, post, cache);
    assert Thread(process, files, cache).cache == Thread(process, post, mid.cache).cache;
    FreshStays(process, res, now, post, mid.cache, out, now);
  }

  /** Running a tier again, later, over unchanged sources whose outputs are
      still there, resizes nothing the first run resized. */
  lemma RerunSkipsResized(paths: seq<Entry>, res: AssetResolution, files: seq<FileRef>, cache: map<string, int>,
                          w1: World, now1: int, w2: World, now2: int, i: nat)
    requires i < |files| && now1 >= files[i].mtime && now2 >= now1
    requires TierRun(paths, res, files, cache, w1, now1).outcomes[i].Resized?
    requires w2.outExists(OutPath(res, Path(files[i])))
    ensures TierRun(paths, res, files, TierRun(paths, res, files, cache, w1, now1).cache, w2, now2).outcomes[i] == UpToDate
  {
    var p1, p2 := Processing(paths, res, w1, now1), Processing(paths, res, w2, now2);
    ProcessingStamps(paths, res, w1, now1);
    ProcessingStamps(paths, res, w2, now2);
    var first := Thread(p1, files, cache);
    var out := OutPath(res, Path(files[i]));
    ResizedIsFresh(p1, res, now1, files, cache, i);
    ThreadOutcomeAt(p1, files, cache, i);
    var resized := ProcessFile(paths, res, files[i], Thread(p1, files[..i], cache).cache, w1, now1);
    assert resized.outcome.Resized?;
    ThreadOutcomeAt(p2, files, first.cache, i);
    FreshStays(p2, res, now2, files[..i], first.cache, out, now1);
    var again := ProcessFile(paths, res, files[i], Thread(p2, files[..i], first.cache).cache, w2, now2);
    assert again.outcome == UpToDate;
  }

  /** main: every tier in order, the cache carried from one to the next;
      the cache is written back after each tier. */
  function RunAll(paths: seq<Entry>, root: Node, cache: map<string, int>, w: World, now: int): (r: seq<Run>)
    requires root.DirNode?
    ensures |r| == |AllResolutions()|
    ensures forall i :: 0 <= i < |r| ==> |r[i].outcomes| == |ForestFiles(root.children, "")|
    ensures forall i :: 0 <= i < |r| ==>
              r[i] == TierRun(paths, AllResolutions()[i], ForestFiles(root.children, ""), if i == 0 then cache else r[i - 1].cache, w, now)
  {
    var files := ForestFiles(root.children, "");
    var r720 := TierRun(paths, R720P, files, cache, w, now);
    var r1080 := TierRun(paths, R1080P, files, r720.cache, w, now);
    var r4k := TierRun(paths, R4K, files, r1080.cache, w, now);
    [r720, r1080, r4k]
  }

  /** A --nodownscale entry's files are produced at 4K only. */
  lemma NoDownscaleOnlyAtFourK(paths: seq<Entry>, res: AssetResolution, f: FileRef, cache: map<string, int>, w: World, now: int)
    requires MatchAnyPath(paths, Path(f)).Some? && !MatchAnyPath(paths, Path(f)).value.doDownscale
    requires ProcessFile(paths, res, f, cache, w, now).outcome.Resized?
    ensures res == R4K
  {
  }

  /** At 4K the copy keeps the source's size. */
  lemma FourKKeepsSize(s: Size)
    ensures TierSize(s, R4K) == s
  {
  }

  // ---- downscaleInPlace --------------------------------------------------------------------

  /** downscaleInPlace: nothing at scale 1 (the file is not even read), an
      image that does not decode (ImageIO returns null) throws, a
      one-pixel-wide or -high image is left alone,
      anything else is resized to its rounded scaled size (after colour
      bleeding, which does not change the size). Ok(None) means untouched. */
  function DownscaleInPlace(scale: real, image: Option<Size>): (r: Result<Option<Size>>)
    requires scale > 0.0
    ensures scale == 1.0 ==> r == Ok(None)
    ensures r.Fail? <==> scale != 1.0 && image.None?
    ensures r.Fail? ==> r.error == NullPointer
    ensures r.Ok? && r.value.Some? ==>
              && scale != 1.0 && image.Some? && image.value.width != 1 && image.value.height != 1
              && r.value.value.width as real <= image.value.width as real * scale + 0.5
              && image.value.width as real * scale + 0.5 < r.value.value.width as real + 1.0
              && r.value.value.height as real <= image.value.height as real * scale + 0.5
              && image.value.height as real * scale + 0.5 < r.value.value.height as real + 1.0
    ensures scale != 1.0 && image.Some? && (image.value.width == 1 || image.value.height == 1) ==> r == Ok(None)
    ensures scale != 1.0 && image.Some? && image.value.width != 1 && image.value.height != 1 ==>
              r == Ok(Some(Size(RoundSize(image.value.width as real * scale), RoundSize(image.value.height as real * scale))))
  {
    if scale == 1.0 then Ok(None)
    else if image.None? then Fail(NullPointer)
    else if image.value.width == 1 || image.value.height == 1 then Ok(None)
    else Ok(Some(Size(RoundSize(image.value.width as real * scale), RoundSize(image.value.height as real * scale))))
  }

  /** Downscaling in place at a tier's scale gives the size process
      resizes the same image to at that tier, except for one-pixel images,
      which downscaleInPlace leaves alone, and at 4K, where both keep it. */
  lemma InPlaceMatchesTier(s: Size, res: AssetResolution)
    ensures res.Scale() == 1.0 ==> DownscaleInPlace(res.Scale(), Some(s)) == Ok(None) && TierSize(s, res) == s
    ensures res.Scale() != 1.0 && s.width != 1 && s.height != 1 ==>
              DownscaleInPlace(res.Scale(), Some(s)) == Ok(Some(TierSize(s, res)))
  {
    assert res.Scale() > 0.0 by { assert res in AllResolutions(); }
    if res.Scale() == 1.0 {
      assert res == R4K by { assert res in AllResolutions(); }
    }
  }
}

=== FILE: filesystem.dfy ===
/** An abstract, read-only file system: a tree of named files and
    directories with modification times, rooted at the packer's input
    directory. Paths are '/'-separated and relative to the root; java.io.File
    ignores empty segments, and so does Segments. The order of `children` is
    the order File.listFiles() returns. */
module FileSystem {
  import opened Wrappers
  import opened JavaString

  datatype Node =
    | FileNode(name: string, mtime: nat)
    | DirNode(name: string, mtime: nat, children: seq<Node>)

  /** A non-directory file found under some directory: its parent path and name. */
  datatype FileRef = FileRef(dir: string, name: string, mtime: nat)

  /** Joins a parent path and a child name the way relativize prints it. */
  function JoinPath(dir: string, name: string): string {
    if dir == "" then name else dir + "/" + name
  }

  function Path(f: FileRef): string {
    JoinPath(f.dir, f.name)
  }

  /** The non-empty '/'-separated segments of a path. */
  function Segments(p: string): (r: seq<string>)
    ensures forall i :: 0 <= i < |r| ==> r[i] != ""
  {
    NonEmpty(SplitAll(p, "/"))
  }

  function NonEmpty(parts: seq<string>): (r: seq<string>)
    ensures forall i :: 0 <= i < |r| ==> r[i] != ""
    ensures |r| <= |parts|
  {
    if |parts| == 0 then []
    else if parts[0] == "" then NonEmpty(parts[1..])
    else [parts[0]] + NonEmpty(parts[1..])
  }

  /** The first child with the given name. */
  function ChildNamed(children: seq<Node>, name: string): (r: Option<Node>)
    ensures r.Some? ==> r.value in children && r.value.name == name
    ensures r.None? ==> forall c :: c in children ==> c.name != name
  {
    if |children| == 0 then None
    else if children[0].name == name then Some(children[0])
    else ChildNamed(children[1..], name)
  }

  /** The node a segment path leads to from `n`. */
  function Lookup(n: Node, segs: seq<string>): (r: Option<Node>)
    ensures |segs| == 0 ==> r == Some(n)
    ensures |segs| > 0 && r.Some? ==> r.value.name == segs[|segs| - 1]
    decreases |segs|
  {
    if |segs| == 0 then Some(n)
    else if n.FileNode? then None
    else match ChildNamed(n.children, segs[0])
      case None => None
      case Some(c) => Lookup(c, segs[1..])
  }

  function Find(root: Node, path: string): Option<Node> {
    Lookup(root, Segments(path))
  }

  /** File.exists(). */
  predicate Exists(root: Node, path: string) {
    Find(root, path).Some?
  }

  /** File.isDirectory(): false for a missing path. */
  predicate IsDirectory(root: Node, path: string) {
    var f := Find(root, path);
    f.Some? && f.value.DirNode?
  }

  /** File.lastModified(): 0 for a missing path. */
  function LastModified(root: Node, path: string): nat {
    match Find(root, path)
    case None => 0
    case Some(n) => n.mtime
  }

  function Max(a: int, b: int): (r: int)
    ensures r >= a && r >= b && (r == a || r == b)
  {
    if a >= b then a else b
  }

  /** The newest modification time in a subtree, the node itself included. */
  function TreeMTime(n: Node): (r: nat)
    ensures r >= n.mtime
    decreases n, 1
  {
    match n
    case FileNode(_, m) => m
    case DirNode(_, m, cs) => Max(m, ForestMTime(cs, m))
  }

  /** The newest modification time among `floor` and a list of subtrees. */
  function ForestMTime(cs: seq<Node>, floor: int): (r: int)
    ensures r >= floor
    decreases cs, 0
  {
    if |cs| == 0 then floor
    else ForestMTime(cs[1..], Max(floor, TreeMTime(cs[0])))
  }

  /** Every non-directory file of a subtree, in listing order; a file node
      lists itself. `dir` is the path of the node's parent. */
  function Files(n: Node, dir: string): (r: seq<FileRef>)
    decreases n, 1
  {
    match n
    case FileNode(name, m) => [FileRef(dir, name, m)]
    case DirNode(name, _, cs) => ForestFiles(cs, JoinPath(dir, name))
  }

  function ForestFiles(cs: seq<Node>, dir: string): (r: seq<FileRef>)
    decreases cs, 0
  {
    if |cs| == 0 then [] else Files(cs[0], dir) + ForestFiles(cs[1..], dir)
  }

  /** Files of the subtree found at `path`, with paths relative to the root;
      empty for a missing path. */
  function FilesAt(root: Node, path: string): seq<FileRef> {
    var segs := Segments(path);
    match Lookup(root, segs)
    case None => []
    case Some(n) =>
      if |segs| == 0 then
        (if n.FileNode? then [FileRef("", n.name, n.mtime)] else ForestFiles(n.children, ""))
      else Files(n, Join(segs[..|segs| - 1], "/"))
  }

  /** An existing non-directory file. */
  predicate IsFile(root: Node, path: string) {
    var f := Find(root, path);
    f.Some? && f.value.FileNode?
  }

  /** File.listFiles(): the children in listing order, None (Java null)
      when the path is not a directory. */
  function ListFiles(root: Node, path: string): (r: Option<seq<Node>>)
    ensures r.Some? <==> IsDirectory(root, path)
  {
    match Find(root, path)
    case Some(DirNode(_, _, cs)) => Some(cs)
    case _ => None
  }

  /** FileUtil.getLastModifiedRecursively: the newest time in the subtree;
      for a missing path, File.lastModified's 0. */
  function RecursiveMTime(root: Node, path: string): nat {
    match Find(root, path)
    case None => 0
    case Some(n) => TreeMTime(n)
  }

  /** The path of the node reached by a segment list, spelled the way the
      listing functions spell paths. */
  function NodePath(segs: seq<string>): string {
    if |segs| == 0 then "" else JoinPath(ParentPath(segs), segs[|segs| - 1])
  }

  /** The path of the parent of the node reached by a non-empty segment list. */
  function ParentPath(segs: seq<string>): string
    requires |segs| > 0
  {
    Join(segs[..|segs| - 1], "/")
  }

  lemma {:induction false} ForestMTimeMonotone(cs: seq<Node>, a: int, b: int)
    requires a <= b
    ensures ForestMTime(cs, a) <= ForestMTime(cs, b)
    decreases |cs|
  {
    if |cs| > 0 {
      ForestMTimeMonotone(cs[1..], Max(a, TreeMTime(cs[0])), Max(b, TreeMTime(cs[0])));
    }
  }

  /** No file below a node is newer than the node's recursive time. */
  lemma {:induction false} TreeMTimeBoundsFiles(n: Node, dir: string)
    ensures forall f :: f in Files(n, dir) ==> f.mtime <= TreeMTime(n)
    decreases n, 1
  {
    match n
    case FileNode(_, _) =>
    case DirNode(name, m, cs) =>
      ForestMTimeBoundsFiles(cs, JoinPath(dir, name), m);
  }

  lemma {:induction false} ForestMTimeBoundsFiles(cs: seq<Node>, dir: string, floor: int)
    ensures forall f :: f in ForestFiles(cs, dir) ==> f.mtime <= ForestMTime(cs, floor)
    decreases cs, 0
  {
    if |cs| > 0 {
      var floor' := Max(floor, TreeMTime(cs[0]));
      TreeMTimeBoundsFiles(cs[0], dir);
      ForestMTimeBoundsFiles(cs[1..], dir, floor');
    }
  }
}

=== FILE: filetarget.dfy ===
/** FilePackTarget: where a verbatim file copy lands. With keep-structure the
    source path is appended to the output directory after removing the
    longest run of segments the two share (the output directory's tail and
    the source path's head); otherwise only the file name is kept. Paths
    are '/'-separated strings; an output directory is absolute and has no
    trailing separator. */
module FileTargets {
  import opened Wrappers
  import opened JavaString
  import opened FileSystem

  function Min(a: int, b: int): (r: int)
    ensures r <= a && r <= b && (r == a || r == b)
  {
    if a <= b then a else b
  }

  /** The output directory's segments: one trailing and one leading
      separator removed, then String.split on the separator. */
  function OutParts(outDir: string): seq<string> {
    var a := if EndsWith(outDir, "/") then outDir[..|outDir| - 1] else outDir;
    var b := if StartsWith(a, "/") then a[1..] else a;
    Split(b, "/")
  }

  /** `path.split("/")`. */
  function PathParts(path: string): seq<string> {
    Split(path, "/")
  }

  /** FilePackTarget.match: the last k output segments are the first k path
      segments. */
  predicate Overlaps(out: seq<string>, parts: seq<string>, k: nat)
    requires k <= |out| && k <= |parts|
  {
    out[|out| - k..] == parts[..k]
  }

  /** An empty overlap always matches, which is why the search loop ends. */
  lemma OverlapsZero(out: seq<string>, parts: seq<string>)
    ensures Overlaps(out, parts, 0)
  {
    assert out[|out|..] == [] == parts[..0];
  }

  /** The overlap the search settles on: the largest k ≤ min(|out|, |parts|)
      for which the segments overlap. */
  function Overlap(out: seq<string>, parts: seq<string>): (k: nat)
    ensures k <= |out| && k <= |parts| && Overlaps(out, parts, k)
    ensures forall j :: k < j <= |out| && j <= |parts| ==> !Overlaps(out, parts, j)
  {
    OverlapFrom(out, parts, Min(|out|, |parts|))
  }

  function OverlapFrom(out: seq<string>, parts: seq<string>, j: nat): (k: nat)
    requires j <= |out| && j <= |parts|
    requires forall i :: j < i <= |out| && i <= |parts| ==> !Overlaps(out, parts, i)
    ensures k <= j && Overlaps(out, parts, k)
    ensures forall i :: k < i <= |out| && i <= |parts| ==> !Overlaps(out, parts, i)
    decreases j
  {
    OverlapsZero(out, parts);
    if Overlaps(out, parts, j) then j else OverlapFrom(out, parts, j - 1)
  }

  /** FilePackTarget.match, segment by segment. */
  method MatchAt(out: seq<string>, parts: seq<string>, offset: nat) returns (b: bool)
    requires offset <= |out| && offset <= |parts|
    ensures b == Overlaps(out, parts, offset)
  {
    var i := 0;
    while i < offset
      invariant 0 <= i <= offset
      invariant out[|out| - offset..|out| - offset + i] == parts[..i]
    {
      if out[|out| - offset + i] != parts[i] {
        assert out[|out| - offset..][i] != parts[..offset][i];
        return false;
      }
      assert out[|out| - offset..|out| - offset + i + 1] == out[|out| - offset..|out| - offset + i] + [out[|out| - offset + i]];
      assert parts[..i + 1] == parts[..i] + [parts[i]];
      i := i + 1;
    }
    return true;
  }

  /** The search loop of getDestinationFile: start at the shorter length and
      step down until the segments overlap. */
  method FindMatchPos(out: seq<string>, parts: seq<string>) returns (k: nat)
    ensures k == Overlap(out, parts)
  {
    OverlapsZero(out, parts);
    k := Min(|out|, |parts|);
    var m := MatchAt(out, parts, k);
    while !m
      invariant k <= |out| && k <= |parts|
      invariant m == Overlaps(out, parts, k)
      invariant forall i :: k < i <= |out| && i <= |parts| ==> !Overlaps(out, parts, i)
      decreases k
    {
      k := k - 1;
      m := MatchAt(out, parts, k);
    }
  }

  /** The path segments keep-structure appends: those after the overlap.
      Appending them to the output segments never repeats the shared run:
      the result is the output segments without the shared run followed by
      the whole source path. */
  function KeptTail(out: seq<string>, parts: seq<string>): (tail: seq<string>)
    ensures |tail| <= |parts| && |parts| - |tail| <= |out|
    ensures out + tail == out[..|out| - (|parts| - |tail|)] + parts
    ensures tail == parts[|parts| - |tail|..]
    ensures forall j :: |parts| - |tail| < j <= |out| && j <= |parts| ==> !Overlaps(out, parts, j)
  {
    var k := Overlap(out, parts);
    assert out == out[..|out| - k] + out[|out| - k..];
    assert parts == parts[..k] + parts[k..];
    parts[k..]
  }

  /** File.getName(): the last non-empty segment, "" when there is none. */
  function Basename(path: string): (r: string)
    ensures r == "" <==> |Segments(path)| == 0
  {
    var segs := Segments(path);
    if |segs| == 0 then "" else segs[|segs| - 1]
  }

  /** new File(dir, child): the child's non-empty segments appended to the
      directory; an empty child names the directory itself. */
  function JoinFile(dir: string, child: string): (r: string)
    ensures StartsWith(r, dir)
    ensures |Segments(child)| == 0 ==> r == dir
  {
    var segs := Segments(child);
    if |segs| == 0 then dir else dir + "/" + Join(segs, "/")
  }

  /** FilePackTarget.getDestinationFile. */
  function Destination(outDir: string, path: string, keepStructure: bool): (r: string)
    ensures StartsWith(r, outDir)
  {
    if keepStructure then JoinFile(outDir, Join(KeptTail(OutParts(outDir), PathParts(path)), "/"))
    else JoinFile(outDir, Basename(path))
  }

  /** The destination exactly as the Java loop computes it. */
  method DestinationFile(outDir: string, path: string, keepStructure: bool) returns (r: string)
    ensures r == Destination(outDir, path, keepStructure)
  {
    if keepStructure {
      var out := OutParts(outDir);
      var parts := PathParts(path);
      var k := FindMatchPos(out, parts);
      r := JoinFile(outDir, Join(parts[k..], "/"));
    } else {
      r := JoinFile(outDir, Basename(path));
    }
  }

  /** File.getParentFile() on a path: everything before the last separator,
      None when there is no separator. */
  function ParentDir(p: string): Option<string> {
    match LastIndexOf(p, "/")
    case None => None
    case Some(i) => Some(p[..i])
  }

  /** The parent of `dir/name` is `dir` for a plain name. */
  lemma ParentOfChild(dir: string, name: string)
    requires forall i :: 0 <= i < |name| ==> name[i] != '/'
    ensures ParentDir(dir + "/" + name) == Some(dir)
  {
    var p := dir + "/" + name;
    assert OccursAt(p, "/", |dir|) by { assert p[|dir|..|dir| + 1] == "/"; }
    forall j | |dir| < j ensures !OccursAt(p, "/", j) {
      if j + 1 <= |p| {
        assert p[j..j + 1][0] == name[j - |dir| - 1];
      }
    }
    var r := LastIndexOf(p, "/");
    if r.None? {
      assert Contains(p, "/") by { assert OccursAt(p, "/", |dir|); }
    } else {
      assert r.value == |dir|;
      assert p[..|dir|] == dir;
    }
  }

  /** FilePackTarget.process: copy the source to the destination computed
      for the parent of the flat staging directory. */
  function Process(root: Node, path: string, keepStructure: bool, flatDir: string): (r: Result<string>)
    ensures ParentDir(flatDir).None? ==> r == Fail(NullPointer)
    ensures ParentDir(flatDir).Some? ==> (r.Ok? <==> Exists(root, path))
    ensures r.Ok? ==> r.value == Destination(ParentDir(flatDir).value, path, keepStructure)
  {
    match ParentDir(flatDir)
    case None => Fail(NullPointer)
    case Some(outDir) =>
      if Exists(root, path) then Ok(Destination(outDir, path, keepStructure))
      else Fail(Io(path))
  }
}

=== FILE: geometry.dfy ===
/** Extending an image's borders and undoing the extension on packed
    regions. TexturePackTarget.extendInPlace grows an image by replicating
    its edge rows and columns, in nine drawImage calls; in the FLAT pass,
    the only one run through the file processor, each packed region of an
    extended image is shrunk back to the original size afterwards. Images
    are grids of rows; a pixel is any value. */
module Geometry {
  import opened Wrappers
  import opened Domain

  /** A grid of `h` rows of `w` pixels each. */
  predicate IsImage<P>(img: seq<seq<P>>, w: nat, h: nat) {
    |img| == h && forall y :: 0 <= y < h ==> |img[y]| == w
  }

  function Clamp(v: int, lo: int, hi: int): (r: int)
    requires lo <= hi
    ensures lo <= r <= hi
    ensures lo <= v <= hi ==> r == v
  {
    if v < lo then lo else if v > hi then hi else v
  }

  /** The source offset a copy samples for destination offset `a`, for the
      two kinds of copy extendInPlace makes: a span drawn at its own size
      reads the same offset; a one-pixel span is stretched over the whole
      destination. */
  function ScaleIndex(a: int, sw: int, dw: int): (r: int)
    requires 0 <= a < dw && (sw == dw || sw == 1)
    ensures 0 <= r < sw
  {
    if sw == 1 then 0 else a
  }

  /** One Graphics.drawImage(img, dx1, dy1, dx2, dy2, sx1, sy1, sx2, sy2)
      call: the source rectangle [sx1, sx2) x [sy1, sy2) is scaled onto the
      destination rectangle [dx1, dx2) x [dy1, dy2). */
  datatype DrawCall = DrawCall(dx1: int, dy1: int, dx2: int, dy2: int, sx1: int, sy1: int, sx2: int, sy2: int)

  /** The call's rectangles lie inside a `cw` x `ch` canvas and a `w` x `h`
      image, and each axis is copied at its own size or from one pixel. */
  predicate Fits(d: DrawCall, cw: nat, ch: nat, w: nat, h: nat) {
    && 0 <= d.dx1 < d.dx2 <= cw && 0 <= d.dy1 < d.dy2 <= ch
    && 0 <= d.sx1 < d.sx2 <= w && 0 <= d.sy1 < d.sy2 <= h
    && (d.sx2 - d.sx1 == d.dx2 - d.dx1 || d.sx2 - d.sx1 == 1)
    && (d.sy2 - d.sy1 == d.dy2 - d.dy1 || d.sy2 - d.sy1 == 1)
  }

  predicate Covers(d: DrawCall, y: int, x: int) {
    d.dx1 <= x < d.dx2 && d.dy1 <= y < d.dy2
  }

  /** The source pixel a call paints at a destination pixel it covers. */
  function Sample<P>(img: seq<seq<P>>, w: nat, h: nat, cw: nat, ch: nat, d: DrawCall, y: int, x: int): P
    requires IsImage(img, w, h) && Fits(d, cw, ch, w, h) && Covers(d, y, x)
  {
    img[d.sy1 + ScaleIndex(y - d.dy1, d.sy2 - d.sy1, d.dy2 - d.dy1)][d.sx1 + ScaleIndex(x - d.dx1, d.sx2 - d.sx1, d.dx2 - d.dx1)]
  }

  /** The canvas after one call: the covered pixels are painted, every
      other pixel stays. */
  function Draw<P>(canvas: seq<seq<P>>, cw: nat, ch: nat, img: seq<seq<P>>, w: nat, h: nat, d: DrawCall): (r: seq<seq<P>>)
    requires IsImage(canvas, cw, ch) && IsImage(img, w, h) && Fits(d, cw, ch, w, h)
    ensures IsImage(r, cw, ch)
    ensures forall y, x :: 0 <= y < ch && 0 <= x < cw ==>
              r[y][x] == if Covers(d, y, x) then Sample(img, w, h, cw, ch, d, y, x) else canvas[y][x]
  {
    seq(ch, (y: int) requires 0 <= y < ch =>
      seq(cw, (x: int) requires 0 <= x < cw =>
        if Covers(d, y, x) then Sample(img, w, h, cw, ch, d, y, x) else canvas[y][x]))
  }

  /** The nine calls extendInPlace may make, in order (k < 9): the image
      at (left, top), the four edge strips stretched from the edge row or
      column, then the four corners stretched from the corner pixel. */
  function Candidate(w: nat, h: nat, e: Extents, k: nat): DrawCall
    requires k < 9
  {
    var l, rt, t, b := e.left, e.right, e.top, e.bottom;
    var fw, fh := w + l + rt, h + t + b;
    match k
    case 0 => DrawCall(l, t, l + w, t + h, 0, 0, w, h)
    case 1 => DrawCall(0, t, l, h + t, 0, 0, 1, h)
    case 2 => DrawCall(l + w, t, fw, h + t, w - 1, 0, w, h)
    case 3 => DrawCall(l, 0, w + l, t, 0, 0, w, 1)
    case 4 => DrawCall(l, h + t, w + l, fh, 0, h - 1, w, h)
    case 5 => DrawCall(0, 0, l, t, 0, 0, 1, 1)
    case 6 => DrawCall(w + l, 0, fw, t, w - 1, 0, w, 1)
    case 7 => DrawCall(0, h + t, l, fh, 0, h - 1, 1, h)
    case _ => DrawCall(w + l, h + t, fw, fh, w - 1, h - 1, w, h)
  }

  /** Whether the k-th call is made: the image always, a strip or a corner
      only when its margins are positive. */
  predicate Drawn(e: Extents, k: nat) {
    match k
    case 0 => true
    case 1 => e.left > 0
    case 2 => e.right > 0
    case 3 => e.top > 0
    case 4 => e.bottom > 0
    case 5 => e.top > 0 && e.left > 0
    case 6 => e.top > 0 && e.right > 0
    case 7 => e.bottom > 0 && e.left > 0
    case 8 => e.bottom > 0 && e.right > 0
    case _ => false
  }

  /** Each call that is made fits the extended canvas and the image. */
  lemma CandidateFits(w: nat, h: nat, e: Extents, k: nat)
    requires w > 0 && h > 0 && NonNegative(e)
    requires k < 9 && Drawn(e, k)
    ensures Fits(Candidate(w, h, e, k), w + e.left + e.right, h + e.top + e.bottom, w, h)
  {
  }

  /** How many drawImage calls extendInPlace may make. */
  const CallCount: nat := 9

  /** The canvas after the first `n` of the nine calls, each made only
      when its margins are positive. */
  function PaintUpTo<P>(canvas: seq<seq<P>>, img: seq<seq<P>>, w: nat, h: nat, e: Extents, n: nat): (r: seq<seq<P>>)
    requires IsImage(img, w, h) && w > 0 && h > 0 && NonNegative(e)
    requires IsImage(canvas, w + e.left + e.right, h + e.top + e.bottom)
    requires n <= 9
    ensures IsImage(r, w + e.left + e.right, h + e.top + e.bottom)
    decreases n
  {
    if n == 0 then canvas
    else
      var before := PaintUpTo(canvas, img, w, h, e, n - 1);
      if Drawn(e, n - 1) then
        CandidateFits(w, h, e, n - 1);
        Draw(before, w + e.left + e.right, h + e.top + e.bottom, img, w, h, Candidate(w, h, e, n - 1))
      else before
  }

  /** extendInPlace: nothing when every extent is zero, otherwise the calls
      on the new image `blank` of the extended size, whatever its pixels
      start as. */
  function Extend<P>(img: seq<seq<P>>, w: nat, h: nat, e: Extents, blank: seq<seq<P>>): (r: seq<seq<P>>)
    requires IsImage(img, w, h) && w > 0 && h > 0 && NonNegative(e)
    requires IsImage(blank, w + e.left + e.right, h + e.top + e.bottom)
    ensures e == NoExtents ==> r == img
    ensures IsImage(r, w + e.left + e.right, h + e.top + e.bottom)
  {
    if e.left == 0 && e.right == 0 && e.top == 0 && e.bottom == 0 then img
    else PaintUpTo(blank, img, w, h, e, CallCount)
  }

  /** The nearest source pixel to a pixel of the extended canvas. */
  function Nearest<P>(img: seq<seq<P>>, w: nat, h: nat, e: Extents, y: int, x: int): P
    requires IsImage(img, w, h) && w > 0 && h > 0
  {
    img[Clamp(y - e.top, 0, h - 1)][Clamp(x - e.left, 0, w - 1)]
  }

  /** Each call of extendInPlace paints, at every pixel it covers, the
      source pixel nearest to it. */
  lemma CallPaintsNearest<P>(img: seq<seq<P>>, w: nat, h: nat, e: Extents, k: nat, y: int, x: int)
    requires IsImage(img, w, h) && w > 0 && h > 0 && NonNegative(e)
    requires k < 9 && Drawn(e, k) && Covers(Candidate(w, h, e, k), y, x)
    ensures Fits(Candidate(w, h, e, k), w + e.left + e.right, h + e.top + e.bottom, w, h)
    ensures Sample(img, w, h, w + e.left + e.right, h + e.top + e.bottom, Candidate(w, h, e, k), y, x) == Nearest(img, w, h, e, y, x)
  {
    var d := Candidate(w, h, e, k);
    CandidateFits(w, h, e, k);
    var sy := if d.sy2 - d.sy1 == 1 then d.sy1 else d.sy1 + (y - d.dy1);
    var sx := if d.sx2 - d.sx1 == 1 then d.sx1 else d.sx1 + (x - d.dx1);
    assert Sample(img, w, h, w + e.left + e.right, h + e.top + e.bottom, d, y, x) == img[sy][sx];
    assert sy == Clamp(y - e.top, 0, h - 1);
    assert sx == Clamp(x - e.left, 0, w - 1);
  }

  /** Together the calls cover the whole canvas: every pixel lies under
      some call that is made. */
  lemma CandidatesCover(w: nat, h: nat, e: Extents, y: int, x: int) returns (k: nat)
    requires w > 0 && h > 0 && NonNegative(e)
    requires 0 <= y < h + e.top + e.bottom && 0 <= x < w + e.left + e.right
    ensures k < 9 && Drawn(e, k) && Covers(Candidate(w, h, e, k), y, x)
  {
    var row := if y < e.top then 0 else if y < e.top + h then 1 else 2;
    var col := if x < e.left then 0 else if x < e.left + w then 1 else 2;
    k :=
      if row == 1 && col == 1 then 0
      else if row == 1 && col == 0 then 1
      else if row == 1 then 2
      else if row == 0 && col == 1 then 3
      else if col == 1 then 4
      else if row == 0 && col == 0 then 5
      else if row == 0 then 6
      else if col == 0 then 7
      else 8;
  }

  /** After the first `n` calls, a pixel some made call among them covers
      holds its nearest source pixel: every call that covers it paints
      that same value. */
  lemma {:induction false} PaintUpToNearest<P>(canvas: seq<seq<P>>, img: seq<seq<P>>, w: nat, h: nat, e: Extents,
                                               n: nat, k: nat, y: int, x: int)
    requires IsImage(img, w, h) && w > 0 && h > 0 && NonNegative(e)
    requires IsImage(canvas, w + e.left + e.right, h + e.top + e.bottom)
    requires k < n <= 9 && Drawn(e, k) && Covers(Candidate(w, h, e, k), y, x)
    requires 0 <= y < h + e.top + e.bottom && 0 <= x < w + e.left + e.right
    ensures PaintUpTo(canvas, img, w, h, e, n)[y][x] == Nearest(img, w, h, e, y, x)
    decreases n
  {
    PaintStep(canvas, img, w, h, e, n, y, x);
    if !(Drawn(e, n - 1) && Covers(Candidate(w, h, e, n - 1), y, x)) {
      PaintUpToNearest(canvas, img, w, h, e, n - 1, k, y, x);
    }
  }

  /** The n-th call either paints a pixel's nearest source pixel or leaves
      the pixel as the earlier calls left it. */
  lemma PaintStep<P>(canvas: seq<seq<P>>, img: seq<seq<P>>, w: nat, h: nat, e: Extents, n: nat, y: int, x: int)
    requires IsImage(img, w, h) && w > 0 && h > 0 && NonNegative(e)
    requires IsImage(canvas, w + e.left + e.right, h + e.top + e.bottom)
    requires 0 < n <= 9
    requires 0 <= y < h + e.top + e.bottom && 0 <= x < w + e.left + e.right
    ensures PaintUpTo(canvas, img, w, h, e, n)[y][x]
            == if Drawn(e, n - 1) && Covers(Candidate(w, h, e, n - 1), y, x) then Nearest(img, w, h, e, y, x)
               else PaintUpTo(canvas, img, w, h, e, n - 1)[y][x]
  {
    if Drawn(e, n - 1) && Covers(Candidate(w, h, e, n - 1), y, x) {
      CallPaintsNearest(img, w, h, e, n - 1, y, x);
    }
  }

  /** Every pixel of the extended image is the source pixel nearest to it:
      the image sits at (left, top), margins repeat the adjacent edge row or
      column and corners the corner pixel. The initial pixel never shows. */
  lemma ExtendIsClamped<P>(img: seq<seq<P>>, w: nat, h: nat, e: Extents, blank: seq<seq<P>>, y: int, x: int)
    requires IsImage(img, w, h) && w > 0 && h > 0 && NonNegative(e)
    requires IsImage(blank, w + e.left + e.right, h + e.top + e.bottom)
    requires 0 <= y < h + e.top + e.bottom && 0 <= x < w + e.left + e.right
    ensures Extend(img, w, h, e, blank)[y][x] == img[Clamp(y - e.top, 0, h - 1)][Clamp(x - e.left, 0, w - 1)]
  {
    if e.left == 0 && e.right == 0 && e.top == 0 && e.bottom == 0 {
      assert Clamp(y - e.top, 0, h - 1) == y && Clamp(x - e.left, 0, w - 1) == x;
    } else {
      PaintAllNearest(blank, img, w, h, e, y, x);
    }
  }

  /** After all nine calls, every pixel holds its nearest source pixel,
      whatever the canvas underneath. */
  lemma PaintAllNearest<P>(canvas: seq<seq<P>>, img: seq<seq<P>>, w: nat, h: nat, e: Extents, y: int, x: int)
    requires IsImage(img, w, h) && w > 0 && h > 0 && NonNegative(e)
    requires IsImage(canvas, w + e.left + e.right, h + e.top + e.bottom)
    requires 0 <= y < h + e.top + e.bottom && 0 <= x < w + e.left + e.right
    ensures PaintUpTo(canvas, img, w, h, e, CallCount)[y][x] == Nearest(img, w, h, e, y, x)
  {
    var k := CandidatesCover(w, h, e, y, x);
    PaintUpToNearest(canvas, img, w, h, e, CallCount, k, y, x);
  }

  /** The original image reappears unchanged at offset (left, top). */
  lemma ExtendKeepsOriginal<P>(img: seq<seq<P>>, w: nat, h: nat, e: Extents, blank: seq<seq<P>>, y: int, x: int)
    requires IsImage(img, w, h) && w > 0 && h > 0 && NonNegative(e)
    requires IsImage(blank, w + e.left + e.right, h + e.top + e.bottom)
    requires 0 <= y < h && 0 <= x < w
    ensures Extend(img, w, h, e, blank)[y + e.top][x + e.left] == img[y][x]
  {
    var ey, ex := y + e.top, x + e.left;
    ExtendIsClamped(img, w, h, e, blank, ey, ex);
    assert Clamp(ey - e.top, 0, h - 1) == y;
    assert Clamp(ex - e.left, 0, w - 1) == x;
  }

  // ---- regions ----------------------------------------------------------------------

  /** A TexturePacker.Rect as far as the un-extension touches it; `ext` is
      the extension an ExtendedRect carries, None for a plain rect. */
  datatype Rect = Rect(
    name: string, x: int, y: int,
    originalWidth: int, originalHeight: int, regionWidth: int, regionHeight: int,
    ext: Option<Extents>)

  /** The position of the first input rect with the given name, if any:
      the listener's search breaks at the first hit. */
  function FirstNamedFrom(rects: seq<Rect>, name: string, from: nat): (r: Option<nat>)
    requires from <= |rects|
    requires forall j :: 0 <= j < from ==> rects[j].name != name
    ensures r.Some? ==> r.value < |rects| && rects[r.value].name == name
                        && forall j :: 0 <= j < r.value ==> rects[j].name != name
    ensures r.None? ==> forall j :: 0 <= j < |rects| ==> rects[j].name != name
    decreases |rects| - from
  {
    if from == |rects| then None
    else if rects[from].name == name then Some(from)
    else FirstNamedFrom(rects, name, from + 1)
  }

  /** The input rect an output rect is paired with. */
  function FirstNamed(rects: seq<Rect>, name: string): (r: Option<Rect>)
    ensures r.None? <==> forall i :: 0 <= i < |rects| ==> rects[i].name != name
    ensures r.Some? ==> exists i :: 0 <= i < |rects| && rects[i] == r.value && r.value.name == name
                          && forall j :: 0 <= j < i ==> rects[j].name != name
  {
    match FirstNamedFrom(rects, name, 0)
    case None => None
    case Some(i) => Some(rects[i])
  }

  /** The progress listener's correction of one packed rect against the
      input rect it matched: an extended match moves the rect right by its
      left extension and down (libGDX y) by its top extension, and shrinks
      both sizes by the extensions of that axis. */
  function Unextend(out: Rect, matching: Option<Rect>): (r: Rect)
    ensures r.name == out.name && r.ext == out.ext
    ensures (matching.None? || matching.value.ext.None?) ==> r == out
    ensures matching.Some? && matching.value.ext.Some? ==>
              var e := matching.value.ext.value;
              && r.x == out.x + e.left && r.y == out.y - e.top
              && r.originalWidth + e.left + e.right == out.originalWidth
              && r.regionWidth + e.left + e.right == out.regionWidth
              && r.originalHeight + e.top + e.bottom == out.originalHeight
              && r.regionHeight + e.top + e.bottom == out.regionHeight
  {
    match matching
    case Some(Rect(_, _, _, _, _, _, _, Some(e))) =>
      out.(x := out.x + e.left, y := out.y - e.top,
           originalWidth := out.originalWidth - (e.left + e.right),
           originalHeight := out.originalHeight - (e.top + e.bottom),
           regionWidth := out.regionWidth - (e.left + e.right),
           regionHeight := out.regionHeight - (e.top + e.bottom))
    case _ => out
  }

  /** The listener's loop over a page's output rects. */
  function UnextendAll(outs: seq<Rect>, inputs: seq<Rect>): (r: seq<Rect>)
    ensures |r| == |outs|
    ensures forall i :: 0 <= i < |outs| ==> r[i] == Unextend(outs[i], FirstNamed(inputs, outs[i].name))
  {
    seq(|outs|, (i: int) requires 0 <= i < |outs| => Unextend(outs[i], FirstNamed(inputs, outs[i].name)))
  }

  /** A region cut from an image extended by `e` and carrying `e` comes back
      to the image's own size, placed at the original's corner. */
  lemma UnextendRestoresSize<P>(img: seq<seq<P>>, w: nat, h: nat, e: Extents, blank: seq<seq<P>>, name: string,
                                 px: int, py: int, input: Rect)
    requires IsImage(img, w, h) && w > 0 && h > 0 && NonNegative(e)
    requires IsImage(blank, w + e.left + e.right, h + e.top + e.bottom)
    requires var big := Extend(img, w, h, e, blank);
             input == Rect(name, 0, 0, |big[0]|, |big|, |big[0]|, |big|, Some(e))
    ensures var big := Extend(img, w, h, e, blank);
            var packed := Rect(name, px, py, |big[0]|, |big|, |big[0]|, |big|, None);
            Unextend(packed, Some(input)) == Rect(name, px + e.left, py - e.top, w, h, w, h, None)
  {
  }
}

=== FILE: imageproc.dfy ===
/** MasterPackerImageProcessor.stripWhitespace: which pack target an input
    image belongs to, and the rect the packer receives for it. The image
    is known here by its name and size only; whitespace stripping itself is
    the packer's and its result is a parameter. */
module ImageProcessor {
  import opened Wrappers
  import opened Domain
  import opened Geometry
  import Targets
  import Packer
  import opened FileSystem

  /** How many of the targets claim the image. */
  function MatchCount(ts: seq<Targets.PackTarget>, matches: Targets.PackTarget -> bool): (n: nat)
    ensures n <= |ts|
    ensures n == 0 <==> forall i :: 0 <= i < |ts| ==> !matches(ts[i])
    decreases |ts|
  {
    if |ts| == 0 then 0
    else
      var rest := MatchCount(ts[..|ts| - 1], matches);
      assert forall i :: 0 <= i < |ts| - 1 ==> ts[..|ts| - 1][i] == ts[i];
      rest + if matches(ts[|ts| - 1]) then 1 else 0
  }

  /** The target search: None when no target claims the image, the target
      when exactly one does, an error naming the image when a second one
      does. */
  function SoleMatch(ts: seq<Targets.PackTarget>, matches: Targets.PackTarget -> bool, name: string)
    : (r: Result<Option<Targets.PackTarget>>)
    ensures r.Fail? <==> MatchCount(ts, matches) >= 2
    ensures r.Fail? ==> r.error == AmbiguousTarget(name)
    ensures r == Ok(None) <==> MatchCount(ts, matches) == 0
    ensures r.Ok? && r.value.Some? ==> r.value.value in ts && matches(r.value.value)
  {
    if |ts| == 0 then Ok(None)
    else
      var last := ts[|ts| - 1];
      var rest := SoleMatch(ts[..|ts| - 1], matches, name);
      if rest.Fail? then rest
      else if !matches(last) then
        (if rest.value.Some? then
           assert rest.value.value in ts[..|ts| - 1];
           rest
         else rest)
      else if rest.value.Some? then Fail(AmbiguousTarget(name))
      else Ok(Some(last))
  }

  /** The Java loop: it remembers the first match and throws at the second. */
  method FindTarget(ts: seq<Targets.PackTarget>, matches: Targets.PackTarget -> bool, name: string)
    returns (r: Result<Option<Targets.PackTarget>>)
    ensures r == SoleMatch(ts, matches, name)
  {
    var found: Option<Targets.PackTarget> := None;
    var i := 0;
    while i < |ts|
      invariant 0 <= i <= |ts|
      invariant SoleMatch(ts[..i], matches, name) == Ok(found)
    {
      assert ts[..i + 1][..i] == ts[..i];
      if matches(ts[i]) {
        if found.Some? {
          assert SoleMatch(ts[..i + 1], matches, name).Fail?;
          r := Fail(AmbiguousTarget(name));
          FailureSticks(ts, matches, name, i + 1);
          return;
        }
        found := Some(ts[i]);
      }
      i := i + 1;
    }
    assert ts[..i] == ts;
    r := Ok(found);
  }

  /** Once two targets have matched, the search fails whatever follows. */
  lemma {:induction false} FailureSticks(ts: seq<Targets.PackTarget>, matches: Targets.PackTarget -> bool, name: string, k: nat)
    requires k <= |ts|
    requires SoleMatch(ts[..k], matches, name).Fail?
    ensures SoleMatch(ts, matches, name) == Fail(AmbiguousTarget(name))
    decreases |ts| - k
  {
    if k < |ts| {
      assert ts[..k + 1][..k] == ts[..k];
      FailureSticks(ts, matches, name, k + 1);
    } else {
      assert ts[..k] == ts;
    }
  }

  /** stripWhitespace for an image `name` of `w` x `h` pixels: among the
      bundle's targets, a unique stripping match hands the image to the
      packer's own stripping (`stripped`); otherwise the rect is the whole
      image, carrying the matched target's extents when there is one. */
  function StripWhitespace(ts: seq<Targets.PackTarget>, matches: Targets.PackTarget -> bool, name: string,
                           w: int, h: int, stripped: Rect): (r: Result<Rect>)
    ensures r.Fail? <==> MatchCount(ts, matches) >= 2
    ensures MatchCount(ts, matches) == 0 ==> r == Ok(Rect(name, 0, 0, w, h, w, h, None))
    ensures r.Ok? && r.value != stripped ==>
              r.value.x == 0 && r.value.y == 0 && r.value.originalWidth == w && r.value.originalHeight == h
              && r.value.regionWidth == w && r.value.regionHeight == h
    ensures MatchCount(ts, matches) == 1 ==>
              var t := SoleMatch(ts, matches, name).value.value;
              r == if Targets.StripWhitespace(t) then Ok(stripped) else Ok(Rect(name, 0, 0, w, h, w, h, Some(Targets.ExtentsOf(t))))
  {
    var target :- SoleMatch(ts, matches, name);
    match target
    case Some(t) =>
      if Targets.StripWhitespace(t) then Ok(stripped)
      else Ok(Rect(name, 0, 0, w, h, w, h, Some(Targets.ExtentsOf(t))))
    case None => Ok(Rect(name, 0, 0, w, h, w, h, None))
  }

  /** Whether a target claims the image `name` in the FLAT pass. */
  function FlatClaim(root: Node, bundle: AssetBundle, name: string): Targets.PackTarget -> bool {
    (t: Targets.PackTarget) => Targets.Matches(t, root, bundle, Flat, name)
  }

  /** The processor as the FLAT pass calls it, the only pass that runs
      through it: only the bundle's own targets are asked whether they
      claim the image. Two claims are an error naming the image; no claim
      gives the whole image, unextended; one claim gives the packer's
      stripped rect for a stripping target and otherwise the whole image
      carrying the target's extents. */
  function ProcessImage(targets: seq<Targets.PackTarget>, root: Node, bundle: AssetBundle,
                        name: string, w: int, h: int, stripped: Rect): (r: Result<Rect>)
    ensures var n := MatchCount(Packer.BundleTargets(targets, bundle.bundleId), FlatClaim(root, bundle, name));
            (r.Fail? <==> n >= 2) && (r.Fail? ==> r.error == AmbiguousTarget(name))
    ensures MatchCount(Packer.BundleTargets(targets, bundle.bundleId), FlatClaim(root, bundle, name)) == 0 ==>
              r == Ok(Rect(name, 0, 0, w, h, w, h, None))
    ensures MatchCount(Packer.BundleTargets(targets, bundle.bundleId), FlatClaim(root, bundle, name)) == 1 ==>
              exists t :: t in targets && t.bundleId == bundle.bundleId && Targets.Matches(t, root, bundle, Flat, name)
                          && r == if Targets.StripWhitespace(t) then Ok(stripped)
                                  else Ok(Rect(name, 0, 0, w, h, w, h, Some(Targets.ExtentsOf(t))))
  {
    var ts := Packer.BundleTargets(targets, bundle.bundleId);
    var claims := FlatClaim(root, bundle, name);
    var r := StripWhitespace(ts, claims, name, w, h, stripped);
    if MatchCount(ts, claims) == 1 then
      var t := SoleMatch(ts, claims, name).value.value;
      assert t in ts && claims(t);
      r
    else r
  }

  /** A target of another bundle never changes what the processor returns,
      wherever it sits in the packing list. */
  lemma OtherBundleIgnored(a: seq<Targets.PackTarget>, t: Targets.PackTarget, b: seq<Targets.PackTarget>,
                           root: Node, bundle: AssetBundle, name: string, w: int, h: int, stripped: Rect)
    requires t.bundleId != bundle.bundleId
    ensures ProcessImage(a + [t] + b, root, bundle, name, w, h, stripped)
            == ProcessImage(a + b, root, bundle, name, w, h, stripped)
  {
    Packer.OtherBundleDropped(a, t, b, bundle.bundleId);
  }

  /** An image extended for its target and packed unrotated comes out of
      the listener's correction at its original size, moved to where the
      original's corner lies inside the packed region. */
  lemma ExtendedRegionRestored<P>(ts: seq<Targets.PackTarget>, matches: Targets.PackTarget -> bool, name: string,
                                  img: seq<seq<P>>, w: nat, h: nat, blank: seq<seq<P>>, stripped: Rect, px: int, py: int)
    requires MatchCount(ts, matches) == 1
    requires var t := SoleMatch(ts, matches, name).value.value;
             !Targets.StripWhitespace(t) && NonNegative(Targets.ExtentsOf(t))
    requires IsImage(img, w, h) && w > 0 && h > 0
    requires var e := Targets.ExtentsOf(SoleMatch(ts, matches, name).value.value);
             IsImage(blank, w + e.left + e.right, h + e.top + e.bottom)
    ensures var t := SoleMatch(ts, matches, name).value.value;
            var e := Targets.ExtentsOf(t);
            var big := Extend(img, w, h, e, blank);
            var input := StripWhitespace(ts, matches, name, |big[0]|, |big|, stripped).value;
            var packed := input.(x := px, y := py, ext := None);
            Unextend(packed, FirstNamed([input], name)) == Rect(name, px + e.left, py - e.top, w, h, w, h, None)
  {
    var t := SoleMatch(ts, matches, name).value.value;
    var e := Targets.ExtentsOf(t);
    var big := Extend(img, w, h, e, blank);
    var input := StripWhitespace(ts, matches, name, |big[0]|, |big|, stripped).value;
    assert input.name == name;
    assert FirstNamed([input], name) == Some(input);
  }
}

=== FILE: javastring.dfy ===
/** The java.lang.String and java.lang.Integer operations the packer relies on,
    with their Java semantics written out: `replace` rewrites every
    non-overlapping occurrence from left to right, `split` on a literal drops
    trailing empty pieces, `trim` drops characters up to U+0020, `parseInt`
    rejects anything outside the 32-bit range. */
module JavaString {
  import opened Wrappers

  predicate StartsWith(s: string, p: string) {
    |p| <= |s| && s[..|p|] == p
  }

  predicate EndsWith(s: string, p: string) {
    |p| <= |s| && s[|s| - |p|..] == p
  }

  /** `t` occurs in `s` starting at index `i`. */
  predicate OccursAt(s: string, t: string, i: int) {
    0 <= i && i + |t| <= |s| && s[i..i + |t|] == t
  }

  predicate Contains(s: string, t: string) {
    exists i :: 0 <= i <= |s| && OccursAt(s, t, i)
  }

  /** String.indexOf: the first index where `t` occurs. */
  function IndexOf(s: string, t: string): (r: Option<nat>)
    ensures r.Some? ==> OccursAt(s, t, r.value) && forall j :: 0 <= j < r.value ==> !OccursAt(s, t, j)
    ensures r.None? ==> !Contains(s, t)
  {
    IndexOfFrom(s, t, 0)
  }

  function IndexOfFrom(s: string, t: string, k: nat): (r: Option<nat>)
    requires forall j :: 0 <= j < k ==> !OccursAt(s, t, j)
    ensures r.Some? ==> k <= r.value && OccursAt(s, t, r.value) && forall j :: 0 <= j < r.value ==> !OccursAt(s, t, j)
    ensures r.None? ==> !Contains(s, t)
    decreases |s| - k
  {
    if k + |t| > |s| then None
    else if s[k..k + |t|] == t then Some(k)
    else IndexOfFrom(s, t, k + 1)
  }

  /** String.lastIndexOf: the last index where `t` occurs. */
  function LastIndexOf(s: string, t: string): (r: Option<nat>)
    ensures r.Some? ==> OccursAt(s, t, r.value) && forall j :: r.value < j ==> !OccursAt(s, t, j)
    ensures r.None? ==> !Contains(s, t)
  {
    if |t| > |s| then None else LastIndexDownFrom(s, t, |s| - |t|)
  }

  function LastIndexDownFrom(s: string, t: string, k: nat): (r: Option<nat>)
    requires k + |t| <= |s|
    requires forall j :: k < j ==> !OccursAt(s, t, j)
    ensures r.Some? ==> r.value <= k && OccursAt(s, t, r.value) && forall j :: r.value < j ==> !OccursAt(s, t, j)
    ensures r.None? ==> !Contains(s, t)
    decreases k
  {
    if s[k..k + |t|] == t then Some(k)
    else if k == 0 then None
    else LastIndexDownFrom(s, t, k - 1)
  }

  /** String.replace(CharSequence, CharSequence): every non-overlapping
      occurrence of `t`, scanning from the left, becomes `r`. */
  function Replace(s: string, t: string, r: string): string
    requires |t| > 0
    decreases |s|
  {
    if StartsWith(s, t) then r + Replace(s[|t|..], t, r)
    else if |s| == 0 then s
    else [s[0]] + Replace(s[1..], t, r)
  }

  /** String.replace(char, char). */
  function ReplaceChar(s: string, a: char, b: char): (r: string)
    ensures |r| == |s|
    ensures forall i :: 0 <= i < |s| ==> r[i] == (if s[i] == a then b else s[i])
  {
    seq(|s|, i requires 0 <= i < |s| => if s[i] == a then b else s[i])
  }

  /** Repeated `while(s.startsWith(c)) s = s.substring(1)`. */
  function StripLeading(s: string, c: char): (r: string)
    ensures |r| <= |s| && r == s[|s| - |r|..]
    ensures |r| > 0 ==> r[0] != c
    ensures forall i :: 0 <= i < |s| - |r| ==> s[i] == c
    decreases |s|
  {
    if |s| > 0 && s[0] == c then StripLeading(s[1..], c) else s
  }

  /** String.trim: drops leading and trailing characters up to U+0020. */
  function Trim(s: string): (r: string)
    ensures |r| <= |s|
    ensures |r| > 0 ==> r[0] > ' ' && r[|r| - 1] > ' '
  {
    TrimEnd(TrimStart(s))
  }

  function TrimStart(s: string): (r: string)
    ensures |r| <= |s| && r == s[|s| - |r|..]
    ensures |r| > 0 ==> r[0] > ' '
    decreases |s|
  {
    if |s| > 0 && s[0] <= ' ' then TrimStart(s[1..]) else s
  }

  function TrimEnd(s: string): (r: string)
    ensures |r| <= |s| && r == s[..|r|]
    ensures |r| > 0 ==> r[|r| - 1] > ' '
    decreases |s|
  {
    if |s| > 0 && s[|s| - 1] <= ' ' then TrimEnd(s[..|s| - 1]) else s
  }

  /** Every piece between occurrences of `sep`, empty pieces included. */
  function SplitAll(s: string, sep: string): (r: seq<string>)
    requires |sep| > 0
    ensures |r| >= 1
    decreases |s|
  {
    match IndexOf(s, sep)
    case None => [s]
    case Some(i) => [s[..i]] + SplitAll(s[i + |sep|..], sep)
  }

  function DropTrailingEmpty(parts: seq<string>): (r: seq<string>)
    ensures |r| <= |parts| && r == parts[..|r|]
    ensures |r| > 0 ==> r[|r| - 1] != ""
    ensures forall i :: |r| <= i < |parts| ==> parts[i] == ""
  {
    if |parts| > 0 && parts[|parts| - 1] == "" then DropTrailingEmpty(parts[..|parts| - 1]) else parts
  }

  /** String.split with a separator free of regex metacharacters: a string
      without the separator splits into itself; otherwise trailing empty
      pieces are removed. */
  function Split(s: string, sep: string): seq<string>
    requires |sep| > 0
  {
    if IndexOf(s, sep).None? then [s] else DropTrailingEmpty(SplitAll(s, sep))
  }

  function Join(parts: seq<string>, sep: string): string {
    if |parts| == 0 then ""
    else if |parts| == 1 then parts[0]
    else parts[0] + sep + Join(parts[1..], sep)
  }

  function UpperAscii(c: char): char {
    if 'a' <= c <= 'z' then (c as int - 32) as char else c
  }

  /** String.toUpperCase(Locale.ROOT), on ASCII letters. */
  function ToUpper(s: string): (r: string)
    ensures |r| == |s|
    ensures forall i :: 0 <= i < |s| ==> r[i] == UpperAscii(s[i])
  {
    seq(|s|, i requires 0 <= i < |s| => UpperAscii(s[i]))
  }

  /** String.equalsIgnoreCase, on ASCII letters. */
  predicate EqualsIgnoreCase(a: string, b: string) {
    ToUpper(a) == ToUpper(b)
  }

  // ---- integers ----------------------------------------------------------

  const INT_MIN: int := -0x8000_0000
  const INT_MAX: int := 0x7fff_ffff

  predicate IsInt32(n: int) { INT_MIN <= n <= INT_MAX }

  /** Java `int` addition: the mathematical sum wrapped into 32 bits. */
  function Wrap32(n: int): (r: int)
    ensures IsInt32(r)
    ensures IsInt32(n) ==> r == n
    ensures (r - n) % 0x1_0000_0000 == 0
  {
    (n - INT_MIN) % 0x1_0000_0000 + INT_MIN
  }

  predicate IsDigit(c: char) { '0' <= c <= '9' }

  predicate AllDigits(s: string) {
    forall i :: 0 <= i < |s| ==> IsDigit(s[i])
  }

  function DigitValue(c: char): nat
    requires IsDigit(c)
  {
    c as int - '0' as int
  }

  function DigitChar(d: nat): (c: char)
    requires d < 10
    ensures IsDigit(c) && DigitValue(c) == d
  {
    ('0' as int + d) as char
  }

  /** The decimal value of a digit string. */
  function DigitsValue(s: string): nat
    requires AllDigits(s)
    decreases |s|
  {
    if |s| == 0 then 0 else 10 * DigitsValue(s[..|s| - 1]) + DigitValue(s[|s| - 1])
  }

  /** Decimal digits of `n`, no leading zero. */
  function NatToString(n: nat): (r: string)
    ensures |r| > 0 && AllDigits(r)
    decreases n
  {
    if n < 10 then [DigitChar(n)] else NatToString(n / 10) + [DigitChar(n % 10)]
  }

  /** Integer.toString, as used by string concatenation of an `int`. */
  function IntToString(n: int): string {
    if n < 0 then "-" + NatToString(-n) else NatToString(n)
  }

  /** Integer.parseInt for ASCII digits: an optional sign, at least one
      digit, and a value inside the 32-bit range. */
  function ParseInt(s: string): (r: Option<int>)
    ensures r.Some? ==> IsInt32(r.value)
  {
    if |s| == 0 then None
    else
      var neg := s[0] == '-';
      var digits := if s[0] == '-' || s[0] == '+' then s[1..] else s;
      if |digits| == 0 || !AllDigits(digits) then None
      else
        var mag: int := DigitsValue(digits);
        var v := if neg then -mag else mag;
        if IsInt32(v) then Some(v) else None
  }

  lemma {:induction false} NatToStringValue(n: nat)
    ensures DigitsValue(NatToString(n)) == n
    ensures NatToString(n)[0] != '-' && NatToString(n)[0] != '+'
    decreases n
  {
    if n >= 10 {
      NatToStringValue(n / 10);
      var s := NatToString(n);
      assert s[..|s| - 1] == NatToString(n / 10);
    }
  }

  /** Printing an `int` and parsing it back gives the same number. */
  lemma ParseIntToString(n: int)
    requires IsInt32(n)
    ensures ParseInt(IntToString(n)) == Some(n)
  {
    if n < 0 {
      NatToStringValue(-n);
      assert ("-" + NatToString(-n))[1..] == NatToString(-n);
    } else {
      NatToStringValue(n);
    }
  }

  // ---- replace ----------------------------------------------------------

  /** A string that never contains `t` is left alone by Replace. */
  lemma {:induction false} ReplaceAbsent(s: string, t: string, r: string)
    requires |t| > 0
    requires !Contains(s, t)
    ensures Replace(s, t, r) == s
    decreases |s|
  {
    if StartsWith(s, t) {
      assert OccursAt(s, t, 0);
    } else if |s| > 0 {
      forall i | OccursAt(s[1..], t, i) ensures false {
        assert s[1..][i..i + |t|] == s[i + 1..i + 1 + |t|];
        assert OccursAt(s, t, i + 1);
      }
      ReplaceAbsent(s[1..], t, r);
    }
  }

  /** Replace passes over a prefix in which no occurrence of `t` starts. */
  lemma {:induction false} ReplaceSkipsPrefix(a: string, b: string, t: string, r: string)
    requires |t| > 0
    requires forall i :: 0 <= i < |a| ==> !OccursAt(a + b, t, i)
    ensures Replace(a + b, t, r) == a + Replace(b, t, r)
    decreases |a|
  {
    if |a| > 0 {
      var s := a + b;
      assert !OccursAt(s, t, 0);
      assert !StartsWith(s, t);
      assert s[1..] == a[1..] + b;
      forall i | 0 <= i < |a[1..]| ensures !OccursAt(a[1..] + b, t, i) {
        if OccursAt(a[1..] + b, t, i) {
          assert (a[1..] + b)[i..i + |t|] == s[i + 1..i + 1 + |t|];
          assert OccursAt(s, t, i + 1);
        }
      }
      ReplaceSkipsPrefix(a[1..], b, t, r);
      assert Replace(s, t, r) == [s[0]] + Replace(s[1..], t, r);
      assert s[0] == a[0];
      assert [a[0]] + (a[1..] + Replace(b, t, r)) == a + Replace(b, t, r);
    } else {
      assert a + b == b;
    }
  }

  /** An occurrence of `t` at the very start is replaced. */
  lemma ReplaceAtStart(b: string, t: string, r: string)
    requires |t| > 0
    ensures Replace(t + b, t, r) == r + Replace(b, t, r)
  {
    assert (t + b)[..|t|] == t;
    assert (t + b)[|t|..] == b;
  }

  // ---- split and trim -----------------------------------------------------

  /** A string with exactly one separator, not at the end, splits into the
      two pieces around it. */
  lemma SplitOnce(a: string, sep: string, b: string)
    requires |sep| > 0 && b != ""
    requires forall i :: 0 <= i < |a| ==> !OccursAt(a + sep + b, sep, i)
    requires !Contains(b, sep)
    ensures Split(a + sep + b, sep) == [a, b]
  {
    var s := a + sep + b;
    assert s[|a|..|a| + |sep|] == sep;
    assert OccursAt(s, sep, |a|);
    var idx := IndexOf(s, sep);
    assert idx == Some(|a|);
    assert s[..|a|] == a && s[|a| + |sep|..] == b;
    assert SplitAll(b, sep) == [b];
    assert SplitAll(s, sep) == [a, b];
  }

  /** A string that does not contain the first character of `t` does not contain `t`. */
  lemma NoFirstCharNoContains(s: string, t: string)
    requires |t| > 0
    requires forall i :: 0 <= i < |s| ==> s[i] != t[0]
    ensures !Contains(s, t)
  {
    forall i | 0 <= i <= |s| ensures !OccursAt(s, t, i) {
      if i + |t| <= |s| {
        assert s[i..i + |t|][0] == s[i];
      }
    }
  }

  /** Trim leaves alone a string whose ends are visible characters. */
  lemma TrimVisible(t: string)
    requires |t| > 0 && t[0] > ' ' && t[|t| - 1] > ' '
    ensures Trim(t) == t
  {
  }

  /** Trim drops one leading space in front of a visible string. */
  lemma TrimLeadingSpace(t: string)
    requires |t| > 0 && t[0] > ' ' && t[|t| - 1] > ' '
    ensures Trim(" " + t) == t
  {
    assert (" " + t)[1..] == t;
    assert TrimStart(" " + t) == TrimStart(t) == t;
    assert TrimEnd(t) == t;
  }

  /** Integer.toString prints only digits and a leading minus sign. */
  lemma IntToStringChars(n: int)
    ensures |IntToString(n)| > 0
    ensures forall i :: 0 <= i < |IntToString(n)| ==> IsDigit(IntToString(n)[i]) || IntToString(n)[i] == '-'
    ensures IsDigit(IntToString(n)[|IntToString(n)| - 1])
  {
  }
}

=== FILE: naming.dfy ===
/** Region-name derivation, shared (as repeated code) by the texture,
    atlas and directory targets: strip the longest declared base path that
    prefixes the path, strip leading '/', turn the remaining '/' into '_',
    then rewrite the file-name suffixes. */
module Naming {
  import opened JavaString

  // ---- longest base-path prefix --------------------------------------------

  /** The base-path loop: a base path replaces the current choice only
      when it prefixes `path` and is strictly longer than the current best,
      so on equal lengths the earlier one stays. Because the base path
      prefixes the path, `replaceFirst(quote(base), "")` removes exactly that
      prefix. */
  function StripBaseLoop(path: string, bases: seq<string>, rel: string, best: nat): string
    decreases |bases|
  {
    if |bases| == 0 then rel
    else if StartsWith(path, bases[0]) && |bases[0]| > best then
      StripBaseLoop(path, bases[1..], path[|bases[0]|..], |bases[0]|)
    else StripBaseLoop(path, bases[1..], rel, best)
  }

  function StripBase(path: string, bases: seq<string>): string {
    StripBaseLoop(path, bases, path, 0)
  }

  /** The length of the longest base path prefixing `path`, or 0. */
  function LongestPrefixLen(path: string, bases: seq<string>): (n: nat)
    ensures n <= |path|
    ensures forall b :: b in bases && StartsWith(path, b) ==> |b| <= n
    ensures n == 0 || exists b :: b in bases && StartsWith(path, b) && |b| == n
    decreases |bases|
  {
    if |bases| == 0 then 0
    else
      var rest := LongestPrefixLen(path, bases[1..]);
      if StartsWith(path, bases[0]) && |bases[0]| > rest then |bases[0]| else rest
  }

  lemma {:induction false} StripBaseLoopIsLongest(path: string, bases: seq<string>, rel: string, best: nat)
    requires best <= |path| && rel == path[best..]
    ensures StripBaseLoop(path, bases, rel, best) ==
              path[(if best >= LongestPrefixLen(path, bases) then best else LongestPrefixLen(path, bases))..]
    decreases |bases|
  {
    if |bases| > 0 {
      if StartsWith(path, bases[0]) && |bases[0]| > best {
        StripBaseLoopIsLongest(path, bases[1..], path[|bases[0]|..], |bases[0]|);
      } else {
        StripBaseLoopIsLongest(path, bases[1..], rel, best);
      }
    }
  }

  /** The strip removes exactly the longest declared base path that
      prefixes the path (nothing when none does). */
  lemma StripBaseRemovesLongest(path: string, bases: seq<string>)
    ensures StripBase(path, bases) == path[LongestPrefixLen(path, bases)..]
  {
    StripBaseLoopIsLongest(path, bases, path, 0);
  }

  /** Two prefixes of one string with equal length are equal. */
  lemma PrefixesOfEqualLength(path: string, a: string, b: string)
    requires StartsWith(path, a) && StartsWith(path, b) && |a| == |b|
    ensures a == b
  {
  }

  /** Region names do not depend on the order (or repetition) in which
      base paths are declared: only the set of base paths matters. */
  lemma StripBaseOrderIndependent(path: string, bases1: seq<string>, bases2: seq<string>)
    requires forall b :: b in bases1 <==> b in bases2
    ensures StripBase(path, bases1) == StripBase(path, bases2)
  {
    StripBaseRemovesLongest(path, bases1);
    StripBaseRemovesLongest(path, bases2);
    var n1 := LongestPrefixLen(path, bases1);
    var n2 := LongestPrefixLen(path, bases2);
    if n1 != 0 {
      var b1 :| b1 in bases1 && StartsWith(path, b1) && |b1| == n1;
      assert b1 in bases2;
    }
    if n2 != 0 {
      var b2 :| b2 in bases2 && StartsWith(path, b2) && |b2| == n2;
      assert b2 in bases1;
    }
  }

  // ---- name pipeline ---------------------------------------------------------

  /** The path relative to its base path, without leading '/'. */
  function RelativeName(path: string, bases: seq<string>): string {
    StripLeading(StripBase(path, bases), '/')
  }

  /** `relPath.replace('/', '_')`. */
  function Flatten(rel: string): string {
    ReplaceChar(rel, '/', '_')
  }

  /** Atlas target region name (AtlasPackTarget.getRegionName). */
  function AtlasSuffixStrip(s: string): string {
    Replace(Replace(Replace(Replace(s, "_flat.atlas", ""), "_normal.atlas", ""), "_preshaded.atlas", ""), ".atlas", "")
  }

  function AtlasRegionName(path: string, bases: seq<string>): string {
    AtlasSuffixStrip(Flatten(RelativeName(path, bases)))
  }

  /** File name a texture or directory file is staged under: `_f.png` and
      `_n.png` both become `.png`. */
  function StagingSuffix(s: string): string {
    Replace(Replace(s, "_f.png", ".png"), "_n.png", ".png")
  }

  /** The name TexturePackTarget.matches compares against:
      `_n.png`, then `_f.png`, then `.png` removed. */
  function TextureMatchSuffix(s: string): string {
    Replace(Replace(Replace(s, "_n.png", ""), "_f.png", ""), ".png", "")
  }

  /** The name DirectoryPackTarget.recurMatches compares against:
      `_f.png`, then `_n.png`, then `.png` removed. */
  function DirectoryMatchSuffix(s: string): string {
    Replace(Replace(Replace(s, "_f.png", ""), "_n.png", ""), ".png", "")
  }

  // ---- suffix rewriting on well-formed names ----------------------------------

  predicate NoDot(s: string) {
    forall i :: 0 <= i < |s| ==> s[i] != '.'
  }

  /** In a string whose only dot starts the extension, an occurrence of a
      pattern with a dot is anchored at that dot. */
  lemma DotAnchored(stem: string, ext: string, t1: string, t2: string, i: int)
    requires NoDot(stem) && NoDot(ext) && NoDot(t1)
    requires OccursAt(stem + "." + ext, t1 + "." + t2, i)
    ensures i + |t1| == |stem|
    ensures EndsWith(stem, t1)
  {
    var s := stem + "." + ext;
    var t := t1 + "." + t2;
    assert s[i..i + |t|][|t1|] == t[|t1|] == '.';
    assert s[i + |t1|] == '.';
    assert stem[i..] == s[i..i + |t1|] == t[..|t1|] == t1;
  }

  /** A dot-free string contains no pattern that has a dot. */
  lemma NoDotNoMatch(s: string, t1: string, t2: string)
    requires NoDot(s)
    ensures !Contains(s, t1 + "." + t2)
  {
    var t := t1 + "." + t2;
    forall i | 0 <= i && i + |t| <= |s| ensures !OccursAt(s, t, i) {
      assert s[i..i + |t|][|t1|] == s[i + |t1|] != '.';
      assert t[|t1|] == '.';
    }
  }

  /** Replace leaves a dot-free stem untouched when no pattern prefix can
      end the stem; only the extension part is rewritten. */
  lemma ReplaceAfterStem(stem: string, k: string, ext: string, t1: string, t2: string, r: string)
    requires NoDot(stem + k) && NoDot(ext) && NoDot(t1)
    requires |k| >= |t1| || !EndsWith(stem + k, t1)
    ensures Replace(stem + (k + "." + ext), t1 + "." + t2, r) == stem + Replace(k + "." + ext, t1 + "." + t2, r)
  {
    var t := t1 + "." + t2;
    var s := stem + (k + "." + ext);
    assert s == (stem + k) + "." + ext;
    forall i | 0 <= i < |stem| ensures !OccursAt(s, t, i) {
      if OccursAt(s, t, i) {
        DotAnchored(stem + k, ext, t1, t2, i);
      }
    }
    ReplaceSkipsPrefix(stem, k + "." + ext, t, r);
  }

  /** A texture file stem: no dot, and no `_f`/`_n` marker at its end. */
  predicate TextureStem(stem: string) {
    NoDot(stem) && !EndsWith(stem, "_f") && !EndsWith(stem, "_n")
  }

  /** The three file-name endings a texture file can have. */
  predicate IsPngEnding(x: string) {
    x == ".png" || x == "_f.png" || x == "_n.png"
  }

  /** The marker in front of the extension of a `.png` ending. */
  function MarkerOf(x: string): (m: string)
    requires IsPngEnding(x)
    ensures x == m + "." + "png" && NoDot(m) && (m == "" || |m| == 2)
  {
    if x == ".png" then "" else x[..2]
  }

  /** One replace step on stem + ending touches only the ending. */
  lemma StemStep(stem: string, x: string, t: string, r: string)
    requires TextureStem(stem) && IsPngEnding(x) && IsPngEnding(t)
    ensures Replace(stem + x, t, r) == stem + Replace(x, t, r)
  {
    var m := MarkerOf(x);
    var t1 := MarkerOf(t);
    assert NoDot(stem + m);
    assert |m| >= |t1| || !EndsWith(stem + m, t1) by {
      if |m| < |t1| {
        assert m == "" && (t1 == "_f" || t1 == "_n");
        assert stem + m == stem;
      }
    }
    ReplaceAfterStem(stem, m, "png", t1, "png", r);
  }

  /** A dot-free stem has nothing for a `.png` pattern to replace. */
  lemma StemUntouched(stem: string, t: string, r: string)
    requires NoDot(stem) && IsPngEnding(t)
    ensures Replace(stem, t, r) == stem
  {
    var t1 := MarkerOf(t);
    NoDotNoMatch(stem, t1, "png");
    ReplaceAbsent(stem, t, r);
  }

  /** A pattern is replaced when it is the whole string. */
  lemma ReplaceSelf(t: string, r: string)
    requires |t| > 0
    ensures Replace(t, t, r) == r
  {
    ReplaceAtStart("", t, r);
    assert t + "" == t;
    assert r + "" == r;
  }

  /** One ending does not contain a different marked ending. */
  lemma EndingNoMatch(x: string, t: string, r: string)
    requires IsPngEnding(x) && IsPngEnding(t) && t != ".png" && x != t
    ensures Replace(x, t, r) == x
  {
    var m := MarkerOf(x);
    var t1 := MarkerOf(t);
    forall i | 0 <= i <= |x| ensures !OccursAt(x, t, i) {
      if OccursAt(x, t, i) {
        DotAnchored(m, "png", t1, "png", i);
      }
    }
    ReplaceAbsent(x, t, r);
  }

  /** For a file named stem + ending, the staged file is stem + ".png". */
  lemma StagingSuffixOfStem(stem: string, x: string)
    requires TextureStem(stem) && IsPngEnding(x)
    ensures StagingSuffix(stem + x) == stem + ".png"
  {
    StemStep(stem, x, "_f.png", ".png");
    if x == "_n.png" {
      EndingNoMatch("_n.png", "_f.png", ".png");
      StemStep(stem, "_n.png", "_n.png", ".png");
      ReplaceSelf("_n.png", ".png");
    } else {
      if x == "_f.png" { ReplaceSelf("_f.png", ".png"); } else { EndingNoMatch(".png", "_f.png", ".png"); }
      StemStep(stem, ".png", "_n.png", ".png");
      EndingNoMatch(".png", "_n.png", ".png");
    }
  }

  /** ... and TexturePackTarget.matches compares against the stem. */
  lemma TextureMatchSuffixOfStem(stem: string, x: string)
    requires TextureStem(stem) && IsPngEnding(x)
    ensures TextureMatchSuffix(stem + x) == stem
  {
    assert stem + "" == stem;
    StemStep(stem, x, "_n.png", "");
    StemUntouched(stem, "_f.png", "");
    StemUntouched(stem, ".png", "");
    if x == "_n.png" {
      ReplaceSelf("_n.png", "");
    } else {
      EndingNoMatch(x, "_n.png", "");
      StemStep(stem, x, "_f.png", "");
      if x == "_f.png" {
        ReplaceSelf("_f.png", "");
      } else {
        EndingNoMatch(".png", "_f.png", "");
        StemStep(stem, ".png", ".png", "");
        ReplaceSelf(".png", "");
      }
    }
  }

  /** ... and DirectoryPackTarget.recurMatches compares against the stem. */
  lemma DirectoryMatchSuffixOfStem(stem: string, x: string)
    requires TextureStem(stem) && IsPngEnding(x)
    ensures DirectoryMatchSuffix(stem + x) == stem
  {
    assert stem + "" == stem;
    StemStep(stem, x, "_f.png", "");
    StemUntouched(stem, "_n.png", "");
    StemUntouched(stem, ".png", "");
    if x == "_f.png" {
      ReplaceSelf("_f.png", "");
    } else {
      EndingNoMatch(x, "_f.png", "");
      StemStep(stem, x, "_n.png", "");
      if x == "_n.png" {
        ReplaceSelf("_n.png", "");
      } else {
        EndingNoMatch(".png", "_n.png", "");
        StemStep(stem, ".png", ".png", "");
        ReplaceSelf(".png", "");
      }
    }
  }
}

=== FILE: packer.dfy ===
/** The MasterPacker driver: per bundle, the target count and combined
    modification time, the skip test against the cache, the missing-output
    test, the pack passes and their settings, atlas post-processing, and
    when the cache entry is updated. The bin-packer itself is outside the
    model: whether a pass fails and what atlas text it writes are inputs. */
module Packer {
  import opened Wrappers
  import opened JavaString
  import opened Domain
  import opened FileSystem
  import opened BundleCache
  import opened Targets
  import FileTargets
  import DirectoryTargets

  // ---- a bundle's targets, count and time ------------------------------------------

  /** The targets whose bundle id is the bundle's, in packing-list order. */
  function BundleTargets(targets: seq<PackTarget>, id: string): (r: seq<PackTarget>)
    ensures forall t :: t in r <==> t in targets && t.bundleId == id
    ensures |r| <= |targets|
  {
    if |targets| == 0 then []
    else (if targets[0].bundleId == id then [targets[0]] else []) + BundleTargets(targets[1..], id)
  }

  /** Filtering distributes over concatenation. */
  lemma {:induction false} BundleTargetsAppend(a: seq<PackTarget>, b: seq<PackTarget>, id: string)
    ensures BundleTargets(a + b, id) == BundleTargets(a, id) + BundleTargets(b, id)
    decreases |a|
  {
    if |a| > 0 {
      assert (a + b)[0] == a[0];
      assert (a + b)[1..] == a[1..] + b;
      BundleTargetsAppend(a[1..], b, id);
    } else {
      assert a + b == b;
    }
  }

  /** A target of another bundle is never among a bundle's targets,
      wherever it sits in the list. */
  lemma OtherBundleDropped(a: seq<PackTarget>, t: PackTarget, b: seq<PackTarget>, id: string)
    requires t.bundleId != id
    ensures BundleTargets(a + [t] + b, id) == BundleTargets(a + b, id)
  {
    var one := [t];
    assert BundleTargets(one, id) == [] by {
      assert one[1..] == [];
    }
    BundleTargetsAppend(a, one, id);
    assert BundleTargets(a + one, id) == BundleTargets(a, id);
    BundleTargetsAppend(a + one, b, id);
    BundleTargetsAppend(a, b, id);
  }

  /** The combined time of lines 55-63: the largest lastModified of the
      targets, -1 when there are none; a target whose lastModified throws
      fails the run. */
  function CombinedTime(ts: seq<PackTarget>, input: Node): (r: Result<int>)
    ensures r.Ok? <==> forall t :: t in ts ==> Targets.LastModified(t, input).Ok?
    ensures r.Ok? ==> (r.value == -1 <==> |ts| == 0)
    ensures r.Ok? ==> forall t :: t in ts ==> Targets.LastModified(t, input).value <= r.value
    ensures r.Ok? && |ts| > 0 ==> exists t :: t in ts && Targets.LastModified(t, input).value == r.value
  {
    if |ts| == 0 then Ok(-1)
    else
      var first := Targets.LastModified(ts[0], input);
      if first.Fail? then Fail(first.error)
      else
        var rest := CombinedTime(ts[1..], input);
        if rest.Fail? then rest
        else
          assert forall t :: t in ts ==> t == ts[0] || t in ts[1..];
          Ok(Max(first.value, rest.value))
  }

  /** The skip test of lines 65-71: the bundle has targets, was packed before,
      after the newest change, with as many targets, and every output is
      still there. */
  predicate ShouldSkip(time: int, count: int, cache: map<string, CacheEntry>, id: string, missing: bool) {
    && time != -1
    && id in cache
    && cache[id].lastModification > time
    && cache[id].lastTargetCount == count
    && !missing
  }

  // ---- output layout ----------------------------------------------------------------

  /** new File(new File(base, res.getDirectory()), bundle.getOutPath()), for
      an absolute asset root `base`. */
  function OutDir(base: string, res: AssetResolution, bundle: AssetBundle): string {
    FileTargets.JoinFile(FileTargets.JoinFile(base, res.Directory()), bundle.outPath)
  }

  /** The staging directories tmp_f, tmp_n and tmp_p inside an output directory. */
  function StagingDir(outDir: string, kind: TextureType): string {
    outDir + "/" + (match kind case Flat => "tmp_f" case Normal => "tmp_n" case Preshaded => "tmp_p")
  }

  /** The atlas base name of a pass, as the packing step, the missing-output
      test and the post-processing step each compute it: a shaded bundle
      suffixes its atlas name with the type; an unnamed one uses the type's
      name, or, unshaded, the output directory's name. */
  function AtlasName(bundle: AssetBundle, kind: TextureType, outDirName: string): (r: string)
    ensures bundle.atlasName.Some? ==> StartsWith(r, bundle.atlasName.value)
  {
    match kind
    case Flat =>
      if bundle.atlasName.Some? then
        (if bundle.shaded then bundle.atlasName.value + "_flat" else bundle.atlasName.value)
      else if bundle.shaded then "flat" else outDirName
    case Normal => if bundle.atlasName.Some? then bundle.atlasName.value + "_normal" else "normal"
    case Preshaded => if bundle.atlasName.Some? then bundle.atlasName.value + "_preshaded" else "preshaded"
  }

  /** A shaded bundle writes three different atlases. */
  lemma AtlasNamesDistinct(bundle: AssetBundle, outDirName: string)
    requires bundle.shaded
    ensures AtlasName(bundle, Flat, outDirName) != AtlasName(bundle, Normal, outDirName)
    ensures AtlasName(bundle, Flat, outDirName) != AtlasName(bundle, Preshaded, outDirName)
    ensures AtlasName(bundle, Normal, outDirName) != AtlasName(bundle, Preshaded, outDirName)
  {
    if bundle.atlasName.None? {
      assert "flat"[0] != "normal"[0] && "flat"[0] != "preshaded"[0] && "normal"[0] != "preshaded"[0];
    }
  }

  /** `new File(outDir, name + ext)`. */
  function OutFile(outDir: string, name: string, ext: string): string {
    outDir + "/" + name + ext
  }

  // ---- the missing-output test ----------------------------------------------------------

  /** Which staging trees a target can fill, as anyDestinationMissing sees
      it: texture and atlas targets by their type, directory targets by
      probing their tree, file targets none. */
  datatype Producers = Producers(flat: bool, normal: bool, preshaded: bool) {
    function Or(o: Producers): Producers {
      Producers(flat || o.flat, normal || o.normal, preshaded || o.preshaded)
    }
    predicate Has(kind: TextureType) {
      match kind case Flat => flat case Normal => normal case Preshaded => preshaded
    }
  }

  const NoProducers: Producers := Producers(false, false, false)

  function TargetProduces(t: PackTarget, input: Node): (r: Producers)
    ensures t.FileTarget? ==> r == NoProducers
    ensures t.TextureTarget? || t.AtlasTarget? ==> forall k :: r.Has(k) <==> k == t.textureType
  {
    match t
    case TextureTarget(_, kind, _, _, _, _, _) =>
      Producers(kind == Flat, kind == Normal, kind == Preshaded)
    case AtlasTarget(_, kind, _, _, _) =>
      Producers(kind == Flat, kind == Normal, kind == Preshaded)
    case DirectoryTarget(_, path, _, _, _, _, _) =>
      Producers(DirectoryTargets.HasFlat(input, path), DirectoryTargets.HasNormal(input, path),
                DirectoryTargets.HasPreshaded(input, path))
    case FileTarget(_, _, _) => NoProducers
  }

  /** The producers of a list of targets, accumulated from the front. */
  function Produces(ts: seq<PackTarget>, input: Node): (r: Producers)
    ensures forall k :: r.Has(k) <==> exists i :: 0 <= i < |ts| && TargetProduces(ts[i], input).Has(k)
    decreases |ts|
  {
    if |ts| == 0 then NoProducers
    else
      var p := Produces(ts[..|ts| - 1], input).Or(TargetProduces(ts[|ts| - 1], input));
      ProducesStep(ts, ts[..|ts| - 1], input, Produces(ts[..|ts| - 1], input), p);
      p
  }

  lemma OrHas(a: Producers, b: Producers, k: TextureType)
    ensures a.Or(b).Has(k) <==> a.Has(k) || b.Has(k)
  {
  }

  /** Adding the last target's producers to those of the others gives the
      producers of the whole list. */
  lemma ProducesStep(ts: seq<PackTarget>, pre: seq<PackTarget>, input: Node, q: Producers, p: Producers)
    requires |ts| > 0 && pre == ts[..|ts| - 1]
    requires forall k :: q.Has(k) <==> exists i :: 0 <= i < |pre| && TargetProduces(pre[i], input).Has(k)
    requires p == q.Or(TargetProduces(ts[|ts| - 1], input))
    ensures forall k :: p.Has(k) <==> exists i :: 0 <= i < |ts| && TargetProduces(ts[i], input).Has(k)
  {
    forall k
      ensures p.Has(k) <==> exists i :: 0 <= i < |ts| && TargetProduces(ts[i], input).Has(k)
    {
      if p.Has(k) {
        if q.Has(k) {
          var i :| 0 <= i < |pre| && TargetProduces(pre[i], input).Has(k);
          assert ts[i] == pre[i];
        } else {
          assert TargetProduces(ts[|ts| - 1], input).Has(k);
        }
      } else {
        OrHas(q, TargetProduces(ts[|ts| - 1], input), k);
        forall i | 0 <= i < |ts| ensures !TargetProduces(ts[i], input).Has(k) {
          if i < |ts| - 1 {
            assert ts[i] == pre[i];
            assert !TargetProduces(pre[i], input).Has(k);
          }
        }
      }
    }
  }

  /** The copy destination of a file target at one resolution. */
  function FileDestination(base: string, res: AssetResolution, bundle: AssetBundle, t: PackTarget): string
    requires t.FileTarget?
  {
    FileTargets.Destination(OutDir(base, res, bundle), t.path, t.keepStructure)
  }

  /** The two probes of the output tree the missing-output test makes:
      whether a file target's copy exists at a resolution, and whether the
      `.atlas`/`.png` pair of a pass is incomplete at a resolution. */
  type CopyProbe = (AssetResolution, PackTarget) -> bool
  type PairProbe = (AssetResolution, TextureType) -> bool

  /** The probes as File.exists() answers them for the bundle's layout. */
  function CopyExists(base: string, bundle: AssetBundle, outExists: string -> bool): CopyProbe {
    (res: AssetResolution, t: PackTarget) => t.FileTarget? && outExists(FileDestination(base, res, bundle, t))
  }

  function AtlasPairMissing(base: string, bundle: AssetBundle, outExists: string -> bool): PairProbe {
    (res: AssetResolution, kind: TextureType) =>
      PairMissing(outExists, OutDir(base, res, bundle), AtlasName(bundle, kind, FileTargets.Basename(OutDir(base, res, bundle))))
  }

  /** The `.atlas`/`.png` pair named `name` is incomplete. */
  predicate PairMissing(outExists: string -> bool, outDir: string, name: string) {
    !outExists(OutFile(outDir, name, ".atlas")) || !outExists(OutFile(outDir, name, ".png"))
  }

  /** Every file target's copy exists at every resolution. */
  predicate FileDestinationsPresent(bundle: AssetBundle, ts: seq<PackTarget>, copied: CopyProbe) {
    forall k, j :: 0 <= k < |ts| && 0 <= j < |bundle.outRes| && ts[k].FileTarget? ==> copied(bundle.outRes[j], ts[k])
  }

  /** The pair tests of one resolution: flat whenever something produces
      flat images, preshaded and normal only for a shaded bundle. */
  predicate ResolutionMissing(bundle: AssetBundle, p: Producers, pairMissing: PairProbe, res: AssetResolution) {
    || (p.flat && pairMissing(res, Flat))
    || (bundle.shaded && p.preshaded && pairMissing(res, Preshaded))
    || (bundle.shaded && p.normal && pairMissing(res, Normal))
  }

  /** anyDestinationMissing as one formula over the probes: a file target's
      copy is missing at some resolution, or some resolution lacks an atlas
      pair that a producer of its type would have written. */
  predicate AnyMissing(bundle: AssetBundle, ts: seq<PackTarget>, input: Node, copied: CopyProbe, pairMissing: PairProbe) {
    || !FileDestinationsPresent(bundle, ts, copied)
    || exists j :: 0 <= j < |bundle.outRes| && ResolutionMissing(bundle, Produces(ts, input), pairMissing, bundle.outRes[j])
  }

  /** anyDestinationMissing for the bundle's targets; `outExists` stands for
      File.exists() on the output side. */
  predicate AnyDestinationMissing(base: string, bundle: AssetBundle, ts: seq<PackTarget>, input: Node, outExists: string -> bool) {
    AnyMissing(bundle, ts, input, CopyExists(base, bundle, outExists), AtlasPairMissing(base, bundle, outExists))
  }

  /** The producer flags the Java loop has set after the first `i` targets:
      they are only set inside the per-resolution loop, so a bundle without
      resolutions sets none. */
  function FlagsAfter(ts: seq<PackTarget>, input: Node, hasRes: bool): Producers {
    if hasRes then Produces(ts, input) else NoProducers
  }

  /** The inner resolution loop of anyDestinationMissing for one target:
      a file target reports its first missing copy; any other target adds
      its producers once per resolution. */
  method ScanTarget(bundle: AssetBundle, t: PackTarget, input: Node, copied: CopyProbe, flags: Producers)
    returns (found: bool, flags': Producers)
    ensures found <==> t.FileTarget? && exists j :: 0 <= j < |bundle.outRes| && !copied(bundle.outRes[j], t)
    ensures flags' == if |bundle.outRes| == 0 then flags else flags.Or(TargetProduces(t, input))
  {
    flags' := flags;
    var j := 0;
    while j < |bundle.outRes|
      invariant 0 <= j <= |bundle.outRes|
      invariant t.FileTarget? ==> forall j' :: 0 <= j' < j ==> copied(bundle.outRes[j'], t)
      invariant flags' == if j == 0 then flags else flags.Or(TargetProduces(t, input))
    {
      if t.FileTarget? {
        if !copied(bundle.outRes[j], t) {
          found := true;
          flags' := flags.Or(TargetProduces(t, input));
          return;
        }
      } else {
        flags' := flags'.Or(TargetProduces(t, input));
      }
      j := j + 1;
    }
    found := false;
  }

  /** anyDestinationMissing as written: a loop over the targets and, inside
      it, over the resolutions, returning as soon as a file target's copy is
      missing and otherwise collecting producer flags; then a loop over the
      resolutions testing the atlas pairs. */
  method DestinationMissing(bundle: AssetBundle, ts: seq<PackTarget>, input: Node, copied: CopyProbe, pairMissing: PairProbe)
    returns (missing: bool)
    ensures missing == AnyMissing(bundle, ts, input, copied, pairMissing)
  {
    var flags := NoProducers;
    var hasRes := |bundle.outRes| > 0;
    var i := 0;
    while i < |ts|
      invariant 0 <= i <= |ts|
      invariant FileDestinationsPresent(bundle, ts[..i], copied)
      invariant flags == FlagsAfter(ts[..i], input, hasRes)
    {
      var found;
      found, flags := ScanTarget(bundle, ts[i], input, copied, flags);
      if found {
        var j :| 0 <= j < |bundle.outRes| && !copied(bundle.outRes[j], ts[i]);
        return true;
      }
      assert ts[..i + 1][..i] == ts[..i];
      assert ts[..i + 1][i] == ts[i];
      i := i + 1;
    }
    assert ts[..i] == ts;
    var j := 0;
    while j < |bundle.outRes|
      invariant 0 <= j <= |bundle.outRes|
      invariant forall j' :: 0 <= j' < j ==> !ResolutionMissing(bundle, flags, pairMissing, bundle.outRes[j'])
    {
      if ResolutionMissing(bundle, flags, pairMissing, bundle.outRes[j]) {
        return true;
      }
      j := j + 1;
    }
    return false;
  }

  /** The file target copies to the file the missing-output test checks:
      its process gets the flat staging directory and takes its parent. */
  lemma FileCopyLandsOnCheckedPath(input: Node, base: string, bundle: AssetBundle, res: AssetResolution, t: PackTarget)
    requires t.FileTarget?
    requires Targets.Process(t, input, bundle, res, StagingDir(OutDir(base, res, bundle), Flat)).Ok?
    ensures Targets.Process(t, input, bundle, res, StagingDir(OutDir(base, res, bundle), Flat)).value
              == [CopyFile(t.path, FileDestination(base, res, bundle, t))]
  {
    var outDir := OutDir(base, res, bundle);
    var flat := StagingDir(outDir, Flat);
    StagingParent(outDir);
    Targets.ProcessFileTarget(t, input, bundle, res, flat);
  }

  /** A staging directory's parent is the output directory. */
  lemma StagingParent(outDir: string)
    ensures FileTargets.ParentDir(StagingDir(outDir, Flat)) == Some(outDir)
  {
    var name := "tmp_f";
    assert forall i :: 0 <= i < |name| ==> name[i] != '/' by {
      assert name == ['t', 'm', 'p', '_', 'f'];
    }
    FileTargets.ParentOfChild(outDir, name);
  }

  // ---- pass settings ----------------------------------------------------------------------

  /** The TexturePacker settings one pass uses. `processed` says whether
      the pass runs through MasterPackerFileProcessor, whose image
      processor matches targets and whose listener un-extends the packed
      rects, or through the static TexturePacker.process, which does
      neither. */
  datatype PassSettings = PassSettings(
    kind: TextureType, atlasName: string, paddingX: int, paddingY: int,
    maxWidth: int, maxHeight: int, pot: bool, square: bool, grid: bool,
    stripWhitespace: bool, minFilter: TextureFilter, magFilter: TextureFilter,
    processed: bool)

  /** The page bound a pass uses: the tier's unless the bundle sets one. */
  function PageBound(bundleValue: int, res: AssetResolution): int {
    if bundleValue != -1 then bundleValue else res.AtlasMaxSize()
  }

  /** The passes of one resolution, in order: FLAT stripping whitespace
      through the file processor, then for a shaded bundle PRESHADED
      without stripping and NORMAL without stripping or padding, both
      through the static packer. */
  function Passes(bundle: AssetBundle, res: AssetResolution, outDirName: string): (r: seq<PassSettings>)
    ensures |r| == if bundle.shaded then 3 else 1
    ensures r[0].kind == Flat && r[0].stripWhitespace
    ensures bundle.shaded ==> r[1].kind == Preshaded && !r[1].stripWhitespace
    ensures bundle.shaded ==> r[2].kind == Normal && !r[2].stripWhitespace && r[2].paddingX == 0 && r[2].paddingY == 0
    ensures forall i :: 0 <= i < |r| && r[i].kind != Normal ==> r[i].paddingX == bundle.paddingX && r[i].paddingY == bundle.paddingY
    ensures forall i :: 0 <= i < |r| ==> (r[i].processed <==> r[i].kind == Flat)
    ensures forall i :: 0 <= i < |r| ==> (
              && r[i].atlasName == AtlasName(bundle, r[i].kind, outDirName)
              && r[i].maxWidth == PageBound(bundle.maxWidth, res) && r[i].maxHeight == PageBound(bundle.maxHeight, res)
              && r[i].pot == bundle.square && r[i].square == bundle.square && r[i].grid == bundle.grid
              && r[i].minFilter == bundle.minFilter && r[i].magFilter == bundle.magFilter)
  {
    var w := PageBound(bundle.maxWidth, res);
    var h := PageBound(bundle.maxHeight, res);
    var flat := PassSettings(Flat, AtlasName(bundle, Flat, outDirName), bundle.paddingX, bundle.paddingY,
                             w, h, bundle.square, bundle.square, bundle.grid, true, bundle.minFilter, bundle.magFilter, true);
    if !bundle.shaded then [flat]
    else
      var pre := flat.(kind := Preshaded, atlasName := AtlasName(bundle, Preshaded, outDirName), stripWhitespace := false,
                      processed := false);
      var normal := pre.(kind := Normal, atlasName := AtlasName(bundle, Normal, outDirName), paddingX := 0, paddingY := 0);
      [flat, pre, normal]
  }

  /** Every atlas a pass writes is one the missing-output test inspects
      once something produces images of that pass's type. */
  lemma PassesWriteCheckedAtlases(base: string, bundle: AssetBundle, p: Producers, outExists: string -> bool,
                                  res: AssetResolution, i: nat)
    requires var ps := Passes(bundle, res, FileTargets.Basename(OutDir(base, res, bundle))); i < |ps|
    requires var ps := Passes(bundle, res, FileTargets.Basename(OutDir(base, res, bundle)));
             p.Has(ps[i].kind) && PairMissing(outExists, OutDir(base, res, bundle), ps[i].atlasName)
    ensures ResolutionMissing(bundle, p, AtlasPairMissing(base, bundle, outExists), res)
  {
  }

  // ---- atlas post-processing -------------------------------------------------------------

  /** The target loop of postProcessAtlas: each target edits the atlas text
      in list order; the first failure stops it. */
  function PostProcessAll(ts: seq<PackTarget>, readLines: string -> Option<seq<string>>, bundle: AssetBundle,
                          atlas: seq<string>, kind: TextureType): (r: Result<seq<string>>)
    decreases |ts|
  {
    if |ts| == 0 then Ok(atlas)
    else
      var next := Targets.PostProcessAtlas(ts[0], readLines, bundle, atlas, kind);
      if next.Fail? then next
      else PostProcessAll(ts[1..], readLines, bundle, next.value, kind)
  }

  /** Running the loop over two lists one after the other is running it over
      their concatenation. */
  lemma {:induction false} PostProcessAllAppend(a: seq<PackTarget>, b: seq<PackTarget>, readLines: string -> Option<seq<string>>,
                                                bundle: AssetBundle, atlas: seq<string>, kind: TextureType)
    ensures PostProcessAll(a + b, readLines, bundle, atlas, kind) ==
              (var m := PostProcessAll(a, readLines, bundle, atlas, kind);
               if m.Fail? then m else PostProcessAll(b, readLines, bundle, m.value, kind))
    decreases |a|
  {
    if |a| == 0 {
      assert a + b == b;
    } else {
      assert (a + b)[1..] == a[1..] + b;
      var next := Targets.PostProcessAtlas(a[0], readLines, bundle, atlas, kind);
      if next.Ok? {
        PostProcessAllAppend(a[1..], b, readLines, bundle, next.value, kind);
      }
    }
  }

  /** Without an atlas target of the pass's type, post-processing leaves the
      atlas text as the packer wrote it. */
  lemma {:induction false} PostProcessWithoutAtlasTargets(ts: seq<PackTarget>, readLines: string -> Option<seq<string>>,
                                                          bundle: AssetBundle, atlas: seq<string>, kind: TextureType)
    requires forall t :: t in ts && t.AtlasTarget? ==> t.textureType != kind
    ensures PostProcessAll(ts, readLines, bundle, atlas, kind) == Ok(atlas)
    decreases |ts|
  {
    if |ts| > 0 {
      assert ts[0] in ts;
      assert forall t :: t in ts[1..] ==> t in ts;
      PostProcessWithoutAtlasTargets(ts[1..], readLines, bundle, atlas, kind);
    }
  }

  // ---- one run ------------------------------------------------------------------------------

  /** What the external TexturePacker did with one pass's staging directory:
      it threw, it wrote nothing (no images), or it wrote an atlas whose
      text lines are given. */
  datatype PackOutcome = PackFailed | NoAtlas | Packed(atlas: seq<string>)

  /** What the driver sees of the world: the input tree, the asset root,
      which output files exist before the run, file contents, and the
      external packer's outcome per resolution and pass. */
  datatype World = World(
    input: Node, base: string, outExists: string -> bool,
    readLines: string -> Option<seq<string>>, pack: (AssetResolution, TextureType) -> PackOutcome)

  /** An atlas file rewritten by post-processing, with its new text. */
  datatype AtlasWrite = AtlasWrite(path: string, text: string)

  /** Staging every target of the bundle at one resolution, in order. */
  function StageTargets(w: World, bundle: AssetBundle, res: AssetResolution, ts: seq<PackTarget>): (r: Result<seq<StageAction>>)
    ensures r.Ok? <==> forall t :: t in ts ==>
              Targets.Process(t, w.input, bundle, res, StagingDir(OutDir(w.base, res, bundle), Flat)).Ok?
    decreases |ts|
  {
    if |ts| == 0 then Ok([])
    else
      var first := Targets.Process(ts[0], w.input, bundle, res, StagingDir(OutDir(w.base, res, bundle), Flat));
      if first.Fail? then Fail(first.error)
      else
        var rest := StageTargets(w, bundle, res, ts[1..]);
        if rest.Fail? then rest
        else
          assert forall t :: t in ts ==> t == ts[0] || t in ts[1..];
          Ok(first.value + rest.value)
  }

  /** One pass: the packer runs; when it wrote an atlas, the bundle's targets
      edit it (postProcessAtlas) and the text is written back joined by
      "\n"; a missing atlas is left alone. */
  function RunPass(w: World, bundle: AssetBundle, ts: seq<PackTarget>, res: AssetResolution, p: PassSettings): (r: Result<seq<AtlasWrite>>)
    ensures r.Ok? <==> match w.pack(res, p.kind)
                       case PackFailed => false
                       case NoAtlas => true
                       case Packed(atlas) => PostProcessAll(ts, w.readLines, bundle, atlas, p.kind).Ok?
    ensures r.Ok? ==> |r.value| <= 1
    ensures r.Ok? && |r.value| == 1 ==> r.value[0].path == OutFile(OutDir(w.base, res, bundle), p.atlasName, ".atlas")
  {
    var outDir := OutDir(w.base, res, bundle);
    match w.pack(res, p.kind)
    case PackFailed => Fail(Io(outDir))
    case NoAtlas => Ok([])
    case Packed(atlas) =>
      var edited :- PostProcessAll(ts, w.readLines, bundle, atlas, p.kind);
      Ok([AtlasWrite(OutFile(outDir, p.atlasName, ".atlas"), Join(edited, "\n"))])
  }

  /** The passes of one resolution in order; the first failure stops the run. */
  function RunPasses(w: World, bundle: AssetBundle, ts: seq<PackTarget>, res: AssetResolution, ps: seq<PassSettings>): (r: Result<seq<AtlasWrite>>)
    ensures r.Ok? <==> forall i :: 0 <= i < |ps| ==> RunPass(w, bundle, ts, res, ps[i]).Ok?
    decreases |ps|
  {
    if |ps| == 0 then Ok([])
    else
      var first := RunPass(w, bundle, ts, res, ps[0]);
      if first.Fail? then Fail(first.error)
      else
        var rest := RunPasses(w, bundle, ts, res, ps[1..]);
        if rest.Fail? then rest
        else
          assert forall i :: 1 <= i < |ps| ==> ps[i] == ps[1..][i - 1];
          Ok(first.value + rest.value)
  }

  /** What packing one resolution produced: the staging actions and the
      rewritten atlases. */
  datatype ResolutionOutput = ResolutionOutput(res: AssetResolution, staged: seq<StageAction>, writes: seq<AtlasWrite>)

  /** One iteration of the resolution loop: stage every target, then run
      the passes with the settings of that resolution. */
  function PackResolution(w: World, bundle: AssetBundle, ts: seq<PackTarget>, res: AssetResolution): (r: Result<ResolutionOutput>)
    ensures r.Ok? ==> r.value.res == res && StageTargets(w, bundle, res, ts).Ok?
    ensures r.Ok? ==> forall p :: p in Passes(bundle, res, FileTargets.Basename(OutDir(w.base, res, bundle))) ==>
              !w.pack(res, p.kind).PackFailed?
  {
    var staged :- StageTargets(w, bundle, res, ts);
    var ps := Passes(bundle, res, FileTargets.Basename(OutDir(w.base, res, bundle)));
    var writes :- RunPasses(w, bundle, ts, res, ps);
    Ok(ResolutionOutput(res, staged, writes))
  }

  /** The resolution loop of one bundle, in the bundle's order; the first
      failing resolution ends it. */
  function PackBundle(w: World, bundle: AssetBundle, ts: seq<PackTarget>, resolutions: seq<AssetResolution>): (r: Result<seq<ResolutionOutput>>)
    ensures r.Ok? <==> forall i :: 0 <= i < |resolutions| ==> PackResolution(w, bundle, ts, resolutions[i]).Ok?
    ensures r.Ok? ==> |r.value| == |resolutions| && forall i :: 0 <= i < |resolutions| ==> r.value[i].res == resolutions[i]
  {
    MapAll(resolutions, (res: AssetResolution) => PackResolution(w, bundle, ts, res))
  }

  /** The skip test evaluated for a bundle against a cache. */
  predicate Skipped(w: World, cache: map<string, CacheEntry>, bundle: AssetBundle, targets: seq<PackTarget>)
    requires CombinedTime(BundleTargets(targets, bundle.bundleId), w.input).Ok?
  {
    var ts := BundleTargets(targets, bundle.bundleId);
    ShouldSkip(CombinedTime(ts, w.input).value, |ts|, cache, bundle.bundleId,
               AnyDestinationMissing(w.base, bundle, ts, w.input, w.outExists))
  }

  /** One iteration of the bundle loop: compute the count and time, skip the
      bundle when the cache says it is current, otherwise pack every
      resolution and only then record the time `now` and the count. */
  function RunBundle(w: World, cache: map<string, CacheEntry>, bundle: AssetBundle, targets: seq<PackTarget>, now: int)
    : (r: Result<map<string, CacheEntry>>)
    ensures CombinedTime(BundleTargets(targets, bundle.bundleId), w.input).Fail? ==> r.Fail?
    ensures r.Ok? ==> CombinedTime(BundleTargets(targets, bundle.bundleId), w.input).Ok?
    ensures r.Ok? && Skipped(w, cache, bundle, targets) ==> r.value == cache
    ensures r.Ok? && !Skipped(w, cache, bundle, targets) ==>
              r.value == cache[bundle.bundleId := CacheEntry(now, |BundleTargets(targets, bundle.bundleId)|)]
    ensures r.Ok? && !Skipped(w, cache, bundle, targets) ==>
              PackBundle(w, bundle, BundleTargets(targets, bundle.bundleId), bundle.outRes).Ok?
  {
    var ts := BundleTargets(targets, bundle.bundleId);
    var time :- CombinedTime(ts, w.input);
    if Skipped(w, cache, bundle, targets) then Ok(cache)
    else
      var _ :- PackBundle(w, bundle, ts, bundle.outRes);
      Ok(cache[bundle.bundleId := CacheEntry(now, |ts|)])
  }

  /** The bundle loop: bundles in list order, the first failure ends the run. */
  function RunAll(w: World, cache: map<string, CacheEntry>, bundles: seq<AssetBundle>, targets: seq<PackTarget>, now: int)
    : (r: Result<map<string, CacheEntry>>)
    decreases |bundles|
  {
    if |bundles| == 0 then Ok(cache)
    else
      var c :- RunBundle(w, cache, bundles[0], targets, now);
      RunAll(w, c, bundles[1..], targets, now)
  }

  /** The cache file after a run: the map is written only after the last
      bundle, so a failed run leaves the file as it was. */
  function PersistedCache(w: World, cache: map<string, CacheEntry>, bundles: seq<AssetBundle>, targets: seq<PackTarget>, now: int)
    : (r: map<string, CacheEntry>)
    ensures RunAll(w, cache, bundles, targets, now).Fail? ==> r == cache
  {
    match RunAll(w, cache, bundles, targets, now)
    case Ok(c) => c
    case Fail(_) => cache
  }

  /** A run touches only the entries of the bundles it went through, and
      every entry it sets records `now`. */
  lemma {:induction false} RunAllTouchesOnlyItsBundles(w: World, cache: map<string, CacheEntry>, bundles: seq<AssetBundle>,
                                                       targets: seq<PackTarget>, now: int, id: string)
    requires RunAll(w, cache, bundles, targets, now).Ok?
    ensures var c := RunAll(w, cache, bundles, targets, now).value;
            (forall b :: b in bundles ==> b.bundleId != id) ==> (id in c <==> id in cache) && (id in cache ==> c[id] == cache[id])
    ensures var c := RunAll(w, cache, bundles, targets, now).value;
            id in c && (id !in cache || c[id] != cache[id]) ==> c[id].lastModification == now
    decreases |bundles|
  {
    if |bundles| > 0 {
      var c1 := RunBundle(w, cache, bundles[0], targets, now).value;
      RunAllTouchesOnlyItsBundles(w, c1, bundles[1..], targets, now, id);
      assert forall b :: b in bundles[1..] ==> b in bundles;
    }
  }

  /** A bundle packed (or found current) once is skipped by the next run as
      long as its inputs are unchanged, it has targets, the clock has moved
      past their newest time, and its outputs are in place. */
  lemma SecondRunSkips(w1: World, w2: World, cache: map<string, CacheEntry>, bundle: AssetBundle,
                       targets: seq<PackTarget>, now1: int, now2: int)
    requires RunBundle(w1, cache, bundle, targets, now1).Ok?
    requires w2.input == w1.input && w2.base == w1.base
    requires |BundleTargets(targets, bundle.bundleId)| > 0
    requires CombinedTime(BundleTargets(targets, bundle.bundleId), w1.input).Ok?
    requires now1 > CombinedTime(BundleTargets(targets, bundle.bundleId), w1.input).value
    requires !AnyDestinationMissing(w2.base, bundle, BundleTargets(targets, bundle.bundleId), w2.input, w2.outExists)
    ensures var c1 := RunBundle(w1, cache, bundle, targets, now1).value;
            RunBundle(w2, c1, bundle, targets, now2) == Ok(c1)
  {
    var c1 := RunBundle(w1, cache, bundle, targets, now1).value;
    assert Skipped(w2, c1, bundle, targets);
  }

  /** The skip test fails exactly when the bundle has no targets, was never
      packed, some target is at least as new as the last pack, the target
      count changed, or an output is missing. */
  lemma RepackConditions(w: World, cache: map<string, CacheEntry>, bundle: AssetBundle, targets: seq<PackTarget>)
    requires CombinedTime(BundleTargets(targets, bundle.bundleId), w.input).Ok?
    ensures var ts := BundleTargets(targets, bundle.bundleId);
            var id := bundle.bundleId;
            !Skipped(w, cache, bundle, targets) <==>
              || |ts| == 0
              || id !in cache
              || (exists t :: t in ts && Targets.LastModified(t, w.input).value >= cache[id].lastModification)
              || cache[id].lastTargetCount != |ts|
              || AnyDestinationMissing(w.base, bundle, ts, w.input, w.outExists)
  {
    var ts := BundleTargets(targets, bundle.bundleId);
    var time := CombinedTime(ts, w.input).value;
    if |ts| > 0 && bundle.bundleId in cache && cache[bundle.bundleId].lastModification <= time {
      var t :| t in ts && Targets.LastModified(t, w.input).value == time;
    }
  }
}

=== FILE: packinglist.dfy ===
/** PackingList.parseFile: one pack target per line. A line is
    `<kind> <positionals...> [options]` with kind texture or atlas
    (path, type, bundle), directory or file (path, bundle); a malformed
    line is reported and skipped. */
module PackingList {
  import opened Wrappers
  import opened JavaString
  import opened Domain
  import opened CliLine
  import opened Targets

  /** ObjectUtil.firstNonNegative over a list ending in a non-negative
      fallback: the first value that is not negative. */
  function FirstNonNegative(vals: seq<int>): (r: int)
    requires |vals| > 0 && vals[|vals| - 1] >= 0
    ensures r >= 0 && r in vals
    ensures forall i :: 0 <= i < |vals| && vals[i] >= 0 && (forall j :: 0 <= j < i ==> vals[j] < 0) ==> r == vals[i]
    decreases |vals|
  {
    if vals[0] >= 0 then vals[0]
    else
      var r := FirstNonNegative(vals[1..]);
      assert forall i :: 1 <= i < |vals| ==> vals[i] == vals[1..][i - 1];
      r
  }

  /** One extent: the side's own option, else the axis option, else
      `--extend`, else 0; a negative or unparsable value counts as absent. */
  function Extent(l: ParsedLine, side: string, axis: string): (r: int)
    ensures r >= 0
    ensures var s := TryParseInt(Param(l, side), -1);
            var a := TryParseInt(Param(l, axis), -1);
            var all := TryParseInt(Param(l, "--extend"), -1);
            r == if s >= 0 then s else if a >= 0 then a else if all >= 0 then all else 0
  {
    var vals := [TryParseInt(Param(l, side), -1), TryParseInt(Param(l, axis), -1), TryParseInt(Param(l, "--extend"), -1), 0];
    var r := FirstNonNegative(vals);
    assert vals[0] >= 0 ==> r == vals[0];
    assert vals[0] < 0 && vals[1] >= 0 ==> r == vals[1];
    assert vals[0] < 0 && vals[1] < 0 && vals[2] >= 0 ==> r == vals[2];
    assert vals[0] < 0 && vals[1] < 0 && vals[2] < 0 ==> r == vals[3];
    r
  }

  function LineExtents(l: ParsedLine): (e: Extents)
    ensures NonNegative(e)
  {
    Extents(Extent(l, "--extend-left", "--extend-x"), Extent(l, "--extend-right", "--extend-x"),
            Extent(l, "--extend-top", "--extend-y"), Extent(l, "--extend-bottom", "--extend-y"))
  }

  /** The four kinds of line. */
  datatype Kind = TextureKind | AtlasKind | DirectoryKind | FileKind

  function KindName(k: Kind): string {
    match k
    case TextureKind => "texture"
    case AtlasKind => "atlas"
    case DirectoryKind => "directory"
    case FileKind => "file"
  }

  /** The kind a first positional names, compared ignoring case. */
  function KindOf(w: string): (r: Option<Kind>)
    ensures r.Some? ==> EqualsIgnoreCase(w, KindName(r.value))
    ensures r.None? <==> forall k: Kind :: !EqualsIgnoreCase(w, KindName(k))
  {
    if EqualsIgnoreCase(w, "texture") then Some(TextureKind)
    else if EqualsIgnoreCase(w, "atlas") then Some(AtlasKind)
    else if EqualsIgnoreCase(w, "directory") then Some(DirectoryKind)
    else if EqualsIgnoreCase(w, "file") then Some(FileKind)
    else None
  }

  /** A kind's own name, in any case, reads back as that kind. */
  lemma KindOfName(k: Kind, w: string)
    requires ToUpper(w) == ToUpper(KindName(k))
    ensures KindOf(w) == Some(k)
  {
    assert |ToUpper(w)| == |KindName(k)|;
  }

  /** The kind of target each kind of line makes. */
  function TargetKind(t: PackTarget): Kind {
    match t
    case TextureTarget(_, _, _, _, _, _, _) => TextureKind
    case AtlasTarget(_, _, _, _, _) => AtlasKind
    case DirectoryTarget(_, _, _, _, _, _, _) => DirectoryKind
    case FileTarget(_, _, _) => FileKind
  }

  /** Enough positionals for the kind and, for textures and atlases, a
      known texture type. */
  predicate Complete(k: Kind, pos: seq<string>) {
    if k == TextureKind || k == AtlasKind then |pos| >= 4 && ParseTextureType(pos[2]).Ok?
    else |pos| >= 3
  }

  /** A line that yields a target: not blank or a comment, and a known kind
      with complete positionals. */
  predicate WellFormed(l: ParsedLine) {
    && !Ignored(l.raw)
    && |l.positional| > 0
    && KindOf(l.positional[0]).Some?
    && Complete(KindOf(l.positional[0]).value, l.positional)
  }

  /** The target a complete line of kind `k` makes. The extents are read
      for every kind, but only texture and directory targets keep them. */
  function Build(k: Kind, l: ParsedLine, floats: string -> Option<real>): (t: PackTarget)
    requires Complete(k, l.positional)
    ensures TargetKind(t) == k && t.path == l.positional[1]
    ensures NonNegative(ExtentsOf(t))
    ensures (t.TextureTarget? || t.AtlasTarget?) ==>
              ParseTextureType(l.positional[2]) == Ok(t.textureType) && t.bundleId == l.positional[3]
    ensures (t.DirectoryTarget? || t.FileTarget?) ==> t.bundleId == l.positional[2]
    ensures (t.TextureTarget? || t.DirectoryTarget?) ==> ExtentsOf(t) == LineExtents(l)
    ensures t.DirectoryTarget? ==> t.mode == TryParseRecursionMode(Param(l, "--recursion"), Enabled)
    ensures !t.FileTarget? ==> t.scale == TryParse(Param(l, "--scale"), floats, 1.0)
    ensures StripWhitespace(t) <==> (t.TextureTarget? || t.DirectoryTarget?) && Flag(l, "--strip")
    ensures !t.FileTarget? ==> (t.noDownscale <==> Flag(l, "--nodownscale"))
    ensures t.FileTarget? ==> (t.keepStructure <==> Flag(l, "--keep-structure"))
  {
    var pos := l.positional;
    var scale := TryParse(Param(l, "--scale"), floats, 1.0);
    var noDownscale := Flag(l, "--nodownscale");
    match k
    case TextureKind =>
      TextureTarget(pos[1], ParseTextureType(pos[2]).value, pos[3], scale, Flag(l, "--strip"), noDownscale, LineExtents(l))
    case AtlasKind =>
      AtlasTarget(pos[1], ParseTextureType(pos[2]).value, pos[3], scale, noDownscale)
    case DirectoryKind =>
      DirectoryTarget(TryParseRecursionMode(Param(l, "--recursion"), Enabled), pos[1], pos[2], scale,
                      Flag(l, "--strip"), noDownscale, LineExtents(l))
    case FileKind =>
      FileTarget(pos[1], pos[2], Flag(l, "--keep-structure"))
  }

  /** The lambda of parseFile for one line: None for a blank or comment
      line, and for a line whose kind, texture type or positional count is
      wrong (the caught exceptions and the unknown-kind fall-through). */
  function ParseTarget(l: ParsedLine, floats: string -> Option<real>): (r: Option<PackTarget>)
    ensures r.Some? <==> WellFormed(l)
    ensures r.Some? ==> EqualsIgnoreCase(l.positional[0], KindName(TargetKind(r.value)))
    ensures r.Some? ==> r.value == Build(TargetKind(r.value), l, floats)
  {
    if Ignored(l.raw) || |l.positional| == 0 then None
    else
      match KindOf(l.positional[0])
      case None => None
      case Some(k) => if Complete(k, l.positional) then Some(Build(k, l, floats)) else None
  }

  /** The per-line parser of parseFile. */
  function TargetParser(floats: string -> Option<real>): ParsedLine -> Option<PackTarget> {
    (l: ParsedLine) => ParseTarget(l, floats)
  }

  /** parseFile: the targets of the well-formed lines, in file order. */
  function ParseFile(lines: seq<ParsedLine>, floats: string -> Option<real>): (r: seq<PackTarget>)
    ensures |r| <= |lines|
    ensures forall t :: t in r ==> exists i :: 0 <= i < |lines| && WellFormed(lines[i]) && ParseTarget(lines[i], floats) == Some(t)
  {
    ParseLines(lines, TargetParser(floats))
  }

  /** A line added at the end of a packing list adds its target when it is
      well formed and nothing otherwise, so parseFile keeps exactly the
      targets of the well-formed lines, in file order. */
  lemma ParseFileSnoc(lines: seq<ParsedLine>, l: ParsedLine, floats: string -> Option<real>)
    ensures ParseFile(lines + [l], floats)
            == ParseFile(lines, floats)
               + if WellFormed(l) then [Build(KindOf(l.positional[0]).value, l, floats)] else []
  {
    ParseLinesSnoc(lines, l, TargetParser(floats));
  }

  // ---- writing a target back as a line -----------------------------------------------

  /** The float parser reads back exactly the text the printer writes for
      the target's scale; a file target has none. Only scales with such a
      text (a Java float value, say) can be written and read back. */
  predicate ScaleReadsBack(t: PackTarget, show: real -> string, floats: string -> Option<real>) {
    !t.FileTarget? ==> floats(show(t.scale)) == Some(t.scale)
  }

  /** The extent options that reproduce `e`. */
  function ExtentOptions(e: Extents): map<string, string> {
    map["--extend-left" := IntToString(e.left), "--extend-right" := IntToString(e.right),
        "--extend-top" := IntToString(e.top), "--extend-bottom" := IntToString(e.bottom)]
  }

  /** The scale and flag options a target writes. */
  function SettingOptions(scale: string, strip: bool, nods: bool): map<string, string> {
    map["--scale" := scale]
      + (if strip then map["--strip" := ""] else map[])
      + (if nods then map["--nodownscale" := ""] else map[])
  }

  /** The options that reproduce a target's settings. */
  function TargetOptions(t: PackTarget, show: real -> string): map<string, string> {
    match t
    case TextureTarget(_, _, _, scale, strip, nods, e) =>
      ExtentOptions(e) + SettingOptions(show(scale), strip, nods)
    case AtlasTarget(_, _, _, scale, nods) =>
      SettingOptions(show(scale), false, nods)
    case DirectoryTarget(mode, _, _, scale, strip, nods, e) =>
      ExtentOptions(e) + SettingOptions(show(scale), strip, nods)["--recursion" := RecursionModeName(mode)]
    case FileTarget(_, _, keep) =>
      if keep then map["--keep-structure" := ""] else map[]
  }

  /** The extent options survive the settings written after them: no
      setting option is an extent option. */
  lemma SettingsMissExtents(scale: string, strip: bool, nods: bool, mode: string)
    ensures forall k :: k in ExtentOptions(NoExtents) ==>
              k !in SettingOptions(scale, strip, nods) && k !in SettingOptions(scale, strip, nods)["--recursion" := mode]
  {
    var keys := ExtentOptions(NoExtents).Keys;
    assert keys == {"--extend-left", "--extend-right", "--extend-top", "--extend-bottom"};
    var s := SettingOptions(scale, strip, nods);
    assert s.Keys <= {"--scale", "--strip", "--nodownscale"};
  }

  /** The positionals of a target. */
  function TargetPositionals(t: PackTarget): (pos: seq<string>)
    ensures |pos| > 0 && pos[0] == KindName(TargetKind(t))
  {
    match t
    case TextureTarget(path, kind, id, _, _, _, _) => ["texture", path, TextureTypeName(kind), id]
    case AtlasTarget(path, kind, id, _, _) => ["atlas", path, TextureTypeName(kind), id]
    case DirectoryTarget(_, path, id, _, _, _, _) => ["directory", path, id]
    case FileTarget(path, id, _) => ["file", path, id]
  }

  /** A target written as a packing-list line. */
  function FormatTarget(t: PackTarget, show: real -> string): ParsedLine {
    ParsedLine(Join(TargetPositionals(t), " "), TargetPositionals(t), TargetOptions(t, show))
  }

  /** Extents the line can carry: non-negative 32-bit values. */
  predicate WritableExtents(e: Extents) {
    NonNegative(e) && IsInt32(e.left) && IsInt32(e.right) && IsInt32(e.top) && IsInt32(e.bottom)
  }

  /** A target whose extents the line can carry (atlas and file targets
      carry none). */
  predicate Writable(t: PackTarget) {
    (t.TextureTarget? || t.DirectoryTarget?) ==> WritableExtents(ExtentsOf(t))
  }

  lemma RecursionModeNameRoundTrip(m: RecursionMode)
    ensures TryParseRecursionMode(Some(RecursionModeName(m)), Enabled) == m
  {
    var n := RecursionModeName(m);
    assert ToUpper(n) == n;
    assert ReplaceChar(n, '-', '_') == n;
  }

  /** A side option holding a non-negative 32-bit value is that side's
      extent, whatever the axis options and `--extend` say. */
  lemma ExtentOfSide(l: ParsedLine, side: string, axis: string, v: int)
    requires 0 <= v && IsInt32(v)
    requires Param(l, side) == Some(IntToString(v))
    ensures Extent(l, side, axis) == v
  {
    ParseIntToString(v);
  }

  /** The four extent options read back as the extents they were written
      from. */
  lemma ExtentsRoundTrip(l: ParsedLine, e: Extents)
    requires WritableExtents(e)
    requires Param(l, "--extend-left") == Some(IntToString(e.left))
    requires Param(l, "--extend-right") == Some(IntToString(e.right))
    requires Param(l, "--extend-top") == Some(IntToString(e.top))
    requires Param(l, "--extend-bottom") == Some(IntToString(e.bottom))
    ensures LineExtents(l) == e
  {
    ExtentOfSide(l, "--extend-left", "--extend-x", e.left);
    ExtentOfSide(l, "--extend-right", "--extend-x", e.right);
    ExtentOfSide(l, "--extend-top", "--extend-y", e.top);
    ExtentOfSide(l, "--extend-bottom", "--extend-y", e.bottom);
  }

  /** The extent options of a line whose other options are not extent
      options. */
  lemma ExtentParams(l: ParsedLine, e: Extents, rest: map<string, string>)
    requires l.options == ExtentOptions(e) + rest
    requires forall k :: k in ExtentOptions(NoExtents) ==> k !in rest
    ensures Param(l, "--extend-left") == Some(IntToString(e.left))
    ensures Param(l, "--extend-right") == Some(IntToString(e.right))
    ensures Param(l, "--extend-top") == Some(IntToString(e.top))
    ensures Param(l, "--extend-bottom") == Some(IntToString(e.bottom))
  {
    assert "--extend-left" in ExtentOptions(NoExtents);
    assert "--extend-right" in ExtentOptions(NoExtents);
    assert "--extend-top" in ExtentOptions(NoExtents);
    assert "--extend-bottom" in ExtentOptions(NoExtents);
  }

  /** A written line is neither blank nor a comment, and its kind reads
      back. */
  lemma FormattedLineCounts(t: PackTarget, show: real -> string)
    ensures var l := FormatTarget(t, show);
            !Ignored(l.raw) && KindOf(l.positional[0]) == Some(TargetKind(t))
  {
    var pos := TargetPositionals(t);
    VisibleJoinNotIgnored(pos);
    KindOfName(TargetKind(t), pos[0]);
  }

  lemma TextureLineRoundTrip(t: PackTarget, show: real -> string, floats: string -> Option<real>)
    requires t.TextureTarget? && Writable(t) && floats(show(t.scale)) == Some(t.scale)
    ensures var l := FormatTarget(t, show);
            Complete(TextureKind, l.positional) && Build(TextureKind, l, floats) == t
  {
    var l := FormatTarget(t, show);
    var rest := SettingOptions(show(t.scale), t.strip, t.noDownscale);
    TextureTypeNameRoundTrip(t.textureType);
    assert Param(l, "--scale") == Some(show(t.scale));
    assert Flag(l, "--strip") <==> t.strip;
    assert Flag(l, "--nodownscale") <==> t.noDownscale;
    SettingsMissExtents(show(t.scale), t.strip, t.noDownscale, "");
    ExtentParams(l, t.extents, rest);
    ExtentsRoundTrip(l, t.extents);
  }

  lemma AtlasLineRoundTrip(t: PackTarget, show: real -> string, floats: string -> Option<real>)
    requires t.AtlasTarget? && floats(show(t.scale)) == Some(t.scale)
    ensures var l := FormatTarget(t, show);
            Complete(AtlasKind, l.positional) && Build(AtlasKind, l, floats) == t
  {
    var l := FormatTarget(t, show);
    TextureTypeNameRoundTrip(t.textureType);
    assert Param(l, "--scale") == Some(show(t.scale));
    assert Flag(l, "--nodownscale") <==> t.noDownscale;
  }

  lemma DirectoryLineRoundTrip(t: PackTarget, show: real -> string, floats: string -> Option<real>)
    requires t.DirectoryTarget? && Writable(t) && floats(show(t.scale)) == Some(t.scale)
    ensures var l := FormatTarget(t, show);
            Complete(DirectoryKind, l.positional) && Build(DirectoryKind, l, floats) == t
  {
    var l := FormatTarget(t, show);
    var name := RecursionModeName(t.mode);
    var rest := SettingOptions(show(t.scale), t.strip, t.noDownscale)["--recursion" := name];
    RecursionModeNameRoundTrip(t.mode);
    assert Param(l, "--scale") == Some(show(t.scale));
    assert Param(l, "--recursion") == Some(name);
    assert Flag(l, "--strip") <==> t.strip;
    assert Flag(l, "--nodownscale") <==> t.noDownscale;
    SettingsMissExtents(show(t.scale), t.strip, t.noDownscale, name);
    ExtentParams(l, t.extents, rest);
    ExtentsRoundTrip(l, t.extents);
  }

  lemma FileLineRoundTrip(t: PackTarget, show: real -> string, floats: string -> Option<real>)
    requires t.FileTarget?
    ensures var l := FormatTarget(t, show);
            Complete(FileKind, l.positional) && Build(FileKind, l, floats) == t
  {
  }

  /** Every target written as a line parses back to itself. */
  lemma FormatParseRoundTrip(t: PackTarget, show: real -> string, floats: string -> Option<real>)
    requires Writable(t) && ScaleReadsBack(t, show, floats)
    ensures ParseTarget(FormatTarget(t, show), floats) == Some(t)
  {
    FormattedLineCounts(t, show);
    match t
    case TextureTarget(_, _, _, _, _, _, _) => TextureLineRoundTrip(t, show, floats);
    case AtlasTarget(_, _, _, _, _) => AtlasLineRoundTrip(t, show, floats);
    case DirectoryTarget(_, _, _, _, _, _, _) => DirectoryLineRoundTrip(t, show, floats);
    case FileTarget(_, _, _) => FileLineRoundTrip(t, show, floats);
  }

  /** A packing list written one target per line. */
  function FormatFile(ts: seq<PackTarget>, show: real -> string): (lines: seq<ParsedLine>)
    ensures |lines| == |ts|
    ensures forall i :: 0 <= i < |ts| ==> lines[i] == FormatTarget(ts[i], show)
  {
    seq(|ts|, (i: int) requires 0 <= i < |ts| => FormatTarget(ts[i], show))
  }

  /** A written packing list parses back to the same targets in the same
      order. */
  lemma ParseFileRoundTrip(ts: seq<PackTarget>, show: real -> string, floats: string -> Option<real>)
    requires forall i :: 0 <= i < |ts| ==> Writable(ts[i]) && ScaleReadsBack(ts[i], show, floats)
    ensures ParseFile(FormatFile(ts, show), floats) == ts
  {
    var lines := FormatFile(ts, show);
    forall i | 0 <= i < |lines| ensures TargetParser(floats)(lines[i]) == Some(ts[i]) {
      FormatParseRoundTrip(ts[i], show, floats);
    }
    ParseLinesAll(lines, TargetParser(floats), ts);
  }
}

=== FILE: targets.dfy ===
/** PackTarget and its four implementations: what each stages for a
    resolution, which region names it claims, whether it strips whitespace,
    how far it extends its images, its modification time and its atlas
    post-processing. Texture and atlas targets are handled here in full;
    directory and file targets delegate to their own modules. */
module Targets {
  import opened Wrappers
  import opened JavaString
  import opened Domain
  import opened FileSystem
  import opened Naming
  import AtlasSplice
  import DirectoryTargets
  import FileTargets

  /** One line of the packing list. Atlas targets take no extents and never
      strip; file targets are copied verbatim. */
  datatype PackTarget =
    | TextureTarget(path: string, textureType: TextureType, bundleId: string, scale: real,
                    strip: bool, noDownscale: bool, extents: Extents)
    | AtlasTarget(path: string, textureType: TextureType, bundleId: string, scale: real, noDownscale: bool)
    | DirectoryTarget(mode: RecursionMode, path: string, bundleId: string, scale: real,
                      strip: bool, noDownscale: bool, extents: Extents)
    | FileTarget(path: string, bundleId: string, keepStructure: bool)

  /** PackTarget.stripWhitespace. */
  function StripWhitespace(t: PackTarget): (r: bool)
    ensures r ==> t.TextureTarget? || t.DirectoryTarget?
  {
    match t
    case TextureTarget(_, _, _, _, strip, _, _) => strip
    case DirectoryTarget(_, _, _, _, strip, _, _) => strip
    case _ => false
  }

  /** getExtendLeft/Right/Top/Bottom. */
  function ExtentsOf(t: PackTarget): (r: Extents)
    ensures r != NoExtents ==> t.TextureTarget? || t.DirectoryTarget?
  {
    match t
    case TextureTarget(_, _, _, _, _, _, ext) => ext
    case DirectoryTarget(_, _, _, _, _, _, ext) => ext
    case _ => NoExtents
  }

  // ---- texture targets ---------------------------------------------------------

  /** TexturePackTarget.matches. */
  predicate TextureMatches(bases: seq<string>, path: string, own: TextureType, textureType: TextureType, name: string) {
    textureType == own && TextureMatchSuffix(Flatten(RelativeName(path, bases))) == name
  }

  /** For a texture named stem + ending, the target stages it as
      stem + ".png" and claims exactly the region stem, and only for its
      own type. */
  lemma TextureMatchesStagedName(bases: seq<string>, path: string, own: TextureType,
                                 textureType: TextureType, name: string, stem: string, x: string)
    requires TextureStem(stem) && IsPngEnding(x)
    requires Flatten(RelativeName(path, bases)) == stem + x
    ensures DirectoryTargets.StagingName(path, bases) == stem + ".png"
    ensures TextureMatches(bases, path, own, textureType, name) <==> textureType == own && name == stem
  {
    StagingSuffixOfStem(stem, x);
    TextureMatchSuffixOfStem(stem, x);
  }

  // ---- atlas targets -------------------------------------------------------------

  /** `path.substring(0, path.length() - 6) + ".png"`: the image beside an
      `.atlas` file; a path shorter than six characters throws. */
  function AtlasPng(path: string): (r: Result<string>)
    ensures r.Fail? <==> |path| < 6
    ensures r.Fail? ==> r.error == IndexOutOfBounds
  {
    if |path| < 6 then Fail(IndexOutOfBounds) else Ok(path[..|path| - 6] + ".png")
  }

  /** The sibling of `stem.atlas` is `stem.png`. */
  lemma AtlasPngSibling(stem: string)
    ensures AtlasPng(stem + ".atlas") == Ok(stem + ".png")
  {
    assert (stem + ".atlas")[..|stem|] == stem;
  }

  // ---- the interface ----------------------------------------------------------------

  /** PackTarget.matches: only texture and directory targets claim regions. */
  predicate Matches(t: PackTarget, root: Node, bundle: AssetBundle, textureType: TextureType, name: string) {
    match t
    case TextureTarget(path, own, _, _, _, _, _) => TextureMatches(bundle.basePaths, path, own, textureType, name)
    case DirectoryTarget(mode, path, _, _, _, _, _) =>
      DirectoryTargets.Matches(DirectoryTargets.Query(root, bundle.basePaths, textureType, name), mode, path)
    case _ => false
  }

  /** A texture target never claims a region of another pass's type. */
  lemma TextureMatchesOwnTypeOnly(t: PackTarget, root: Node, bundle: AssetBundle, textureType: TextureType, name: string)
    requires t.TextureTarget? && textureType != t.textureType
    ensures !Matches(t, root, bundle, textureType, name)
  {
  }

  /** PackTarget.process: the staging actions of one target for one
      resolution. `flatDir` is the flat staging directory, whose parent is
      the resolution's output directory. */
  function Process(t: PackTarget, root: Node, bundle: AssetBundle, res: AssetResolution, flatDir: string): (r: Result<seq<StageAction>>)
    ensures t.TextureTarget? ==> (r.Ok? <==> IsFile(root, t.path))
    ensures t.AtlasTarget? ==> (r.Ok? <==> |t.path| >= 6 && IsFile(root, AtlasPng(t.path).value))
    ensures r.Ok? && (t.TextureTarget? || t.AtlasTarget?) ==>
              |r.value| == 1 && r.value[0].StageImage? && r.value[0].kind == t.textureType
              && r.value[0].scale == ImageScale(bundle, t.scale, t.noDownscale, res)
    ensures r.Ok? && t.TextureTarget? ==>
              r.value[0].src == t.path && r.value[0].extents == t.extents
              && r.value[0].name == DirectoryTargets.StagingName(t.path, bundle.basePaths)
    ensures r.Ok? && t.AtlasTarget? ==>
              r.value[0].src == AtlasPng(t.path).value
              && r.value[0].name == AtlasRegionName(t.path, bundle.basePaths) + ".png" && r.value[0].extents == NoExtents
    ensures r.Ok? && t.FileTarget? ==> |r.value| == 1 && r.value[0].CopyFile? && r.value[0].src == t.path
  {
    match t
    case TextureTarget(path, kind, _, scale, _, noDownscale, ext) =>
      if IsFile(root, path) then
        Ok([StageImage(path, kind, DirectoryTargets.StagingName(path, bundle.basePaths), ext,
                       ImageScale(bundle, scale, noDownscale, res))])
      else Fail(Io(path))
    case AtlasTarget(path, kind, _, scale, noDownscale) =>
      var png :- AtlasPng(path);
      if IsFile(root, png) then
        Ok([StageImage(png, kind, AtlasRegionName(path, bundle.basePaths) + ".png", NoExtents,
                       ImageScale(bundle, scale, noDownscale, res))])
      else Fail(Io(png))
    case DirectoryTarget(mode, path, _, scale, _, noDownscale, ext) =>
      DirectoryTargets.Process(root, bundle, res, mode, path, scale, noDownscale, ext)
    case FileTarget(path, _, keep) =>
      var dest :- FileTargets.Process(root, path, keep, flatDir);
      Ok([CopyFile(path, dest)])
  }

  /** A file target stages one copy, to where its own process puts it. */
  lemma ProcessFileTarget(t: PackTarget, root: Node, bundle: AssetBundle, res: AssetResolution, flatDir: string)
    requires t.FileTarget?
    requires Process(t, root, bundle, res, flatDir).Ok?
    ensures FileTargets.Process(root, t.path, t.keepStructure, flatDir).Ok?
    ensures Process(t, root, bundle, res, flatDir).value
            == [CopyFile(t.path, FileTargets.Process(root, t.path, t.keepStructure, flatDir).value)]
  {
  }

  /** PackTarget.lastModified. */
  function LastModified(t: PackTarget, root: Node): (r: Result<nat>)
    ensures t.TextureTarget? || t.FileTarget? ==> r == Ok(FileSystem.LastModified(root, t.path))
    ensures t.AtlasTarget? ==> (r.Ok? <==> |t.path| >= 6)
    ensures r.Ok? && t.AtlasTarget? ==>
              r.value >= FileSystem.LastModified(root, t.path)
              && r.value >= FileSystem.LastModified(root, AtlasPng(t.path).value)
              && (r.value == FileSystem.LastModified(root, t.path) || r.value == FileSystem.LastModified(root, AtlasPng(t.path).value))
    ensures t.DirectoryTarget? ==> (r.Ok? <==> DirectoryTargets.CandidateFiles(root, t.mode, t.path).Ok?)
    ensures t.DirectoryTarget? ==> r == DirectoryTargets.LastModified(root, t.mode, t.path)
  {
    match t
    case TextureTarget(path, _, _, _, _, _, _) => Ok(FileSystem.LastModified(root, path))
    case AtlasTarget(path, _, _, _, _) =>
      var png :- AtlasPng(path);
      Ok(Max(FileSystem.LastModified(root, path), FileSystem.LastModified(root, png)))
    case DirectoryTarget(mode, path, _, _, _, _, _) => DirectoryTargets.LastModified(root, mode, path)
    case FileTarget(path, _, _) => Ok(FileSystem.LastModified(root, path))
  }

  /** For texture, atlas and file targets, the time the target reports is
      at least the time of every file its staging reads, so a source edit
      is always newer than, or equal to, the target's time. */
  lemma LastModifiedCoversSources(t: PackTarget, root: Node, bundle: AssetBundle, res: AssetResolution, flatDir: string)
    requires !t.DirectoryTarget?
    requires Process(t, root, bundle, res, flatDir).Ok?
    ensures LastModified(t, root).Ok?
    ensures forall a :: a in Process(t, root, bundle, res, flatDir).value ==>
              FileSystem.LastModified(root, a.src) <= LastModified(t, root).value
  {
    var acts := Process(t, root, bundle, res, flatDir).value;
    if t.AtlasTarget? {
      AtlasCoversSource(t, root, bundle, res, flatDir);
    } else {
      PlainCoversSource(t, root, bundle, res, flatDir);
    }
    var m := LastModified(t, root).value;
    forall a | a in acts ensures FileSystem.LastModified(root, a.src) <= m {
      assert a == acts[0];
    }
  }

  /** The texture and file cases: the one file staged is the target's own. */
  lemma PlainCoversSource(t: PackTarget, root: Node, bundle: AssetBundle, res: AssetResolution, flatDir: string)
    requires t.TextureTarget? || t.FileTarget?
    requires Process(t, root, bundle, res, flatDir).Ok?
    ensures |Process(t, root, bundle, res, flatDir).value| == 1
    ensures LastModified(t, root).Ok?
    ensures FileSystem.LastModified(root, Process(t, root, bundle, res, flatDir).value[0].src) <= LastModified(t, root).value
  {
    assert Process(t, root, bundle, res, flatDir).value[0].src == t.path;
  }

  /** The atlas case: the `.png` an atlas target stages is no newer than
      the target's time. */
  lemma AtlasCoversSource(t: PackTarget, root: Node, bundle: AssetBundle, res: AssetResolution, flatDir: string)
    requires t.AtlasTarget?
    requires Process(t, root, bundle, res, flatDir).Ok?
    ensures |Process(t, root, bundle, res, flatDir).value| == 1
    ensures LastModified(t, root).Ok?
    ensures FileSystem.LastModified(root, Process(t, root, bundle, res, flatDir).value[0].src) <= LastModified(t, root).value
  {
    assert Process(t, root, bundle, res, flatDir).value[0].src == AtlasPng(t.path).value;
  }

  /** PackTarget.postProcessAtlas: only atlas targets edit the packed atlas.
      `readLines` stands for Files.readAllLines, None when it throws. */
  function PostProcessAtlas(t: PackTarget, readLines: string -> Option<seq<string>>, bundle: AssetBundle,
                            atlas: seq<string>, atlasType: TextureType): (r: Result<seq<string>>)
    ensures !t.AtlasTarget? || atlasType != t.textureType ==> r == Ok(atlas)
    ensures t.AtlasTarget? && atlasType == t.textureType && readLines(t.path).None? ==> r.Fail?
  {
    match t
    case AtlasTarget(path, kind, _, _, _) =>
      AtlasSplice.PostProcessAtlas(atlasType == kind, path, bundle.basePaths, readLines(path), atlas)
    case _ => Ok(atlas)
  }
}

=== FILE: wrappers.dfy ===
/** Failure-carrying result types shared by the whole model.
    The Java source reports failures by throwing; the model returns them. */
module Wrappers {

  datatype Option<+T> = None | Some(value: T)

  /** The exceptions the modelled code can raise, by kind. */
  datatype Error =
    | IndexOutOfBounds        // array or list index, String.substring
    | NumberFormat(text: string)   // Integer.parseInt on a malformed or out-of-range number
    | IllegalArgument(text: string) // Enum.valueOf on an unknown constant, failed validation
    | NullPointer             // File.listFiles() on a path that is not a directory
    | Io(text: string)        // a missing file read or copied
    | AmbiguousTarget(name: string) // two pack targets claim one region name

  datatype Result<+T> = Ok(value: T) | Fail(error: Error) {
    predicate IsFailure() { Fail? }
    function PropagateFailure<U>(): Result<U>
      requires Fail?
    {
      Fail(error)
    }
    function Extract(): T
      requires Ok?
    {
      value
    }
  }

  /** Applies `f` to each element in order; the first failure stops the
      loop and is the result. */
  function MapAll<T, U>(xs: seq<T>, f: T -> Result<U>): (r: Result<seq<U>>)
    ensures r.Ok? <==> forall i :: 0 <= i < |xs| ==> f(xs[i]).Ok?
    ensures r.Ok? ==> |r.value| == |xs| && forall i :: 0 <= i < |xs| ==> r.value[i] == f(xs[i]).value
    ensures r.Fail? ==> exists i :: 0 <= i < |xs| && f(xs[i]) == Fail(r.error)
    decreases |xs|
  {
    if |xs| == 0 then Ok([])
    else
      var first := f(xs[0]);
      if first.Fail? then Fail(first.error)
      else
        var rest := MapAll(xs[1..], f);
        if rest.Fail? then
          var i :| 0 <= i < |xs[1..]| && f(xs[1..][i]) == Fail(rest.error);
          assert f(xs[i + 1]) == Fail(rest.error);
          rest
        else
          assert forall i :: 1 <= i < |xs| ==> xs[i] == xs[1..][i - 1];
          Ok([first.value] + rest.value)
  }
}
